=== FILE: README.md ===
# File analyzer: a verified model of the backend core

The file analyzer is a Spring service. Clients upload `.txt` files or ZIP archives of them. The service stores the text files in an input directory. It then does three things:

- counts the lines and characters of each file in a pool of worker threads;
- folds the per-file statistics into one total result;
- archives the input directory into a ZIP file, deleting the sources it archived.

Errors are typed exceptions, and one handler turns them into HTTP answers. A second endpoint serves files from the output directory.

This project models that core in Dafny and proves what it promises. Each module follows one source file:

| module | models |
|---|---|
| `Common` | Java `int`/`long` with two's-complement wrap-around; the exception classes as one `ErrorKind` with message and cause; `Result`/`Outcome` for the throw paths |
| `Text`, `Paths`, `Storage` | the JDK behaviour the services rely on: `toLowerCase`, `endsWith` and `lastIndexOf`; `Paths.get`, `resolve`, `getFileName`, `getParent` and `startsWith`; a file system as a class whose `files` map from path to bytes and whose `dirs` set the methods update; the `*.txt` directory listing; and ZIP encoding as an abstract format |
| `Entity` | `FileStats`, `AnalysisResult` and `ArchiveInfo` as classes, with their constructors and setters, including the fields the setters derive (a count from a list, a duration from two timestamps) |
| `FileProcessing` | `analyzeFile` with `countLines`/`countCharacters`, and `calculateTotalResult` as a loop over the list that is proved against a fold (`Tally`) |
| `ArchiveService` | `createArchive`, `findTxtFiles`, `unzip`, `isValidZipFile`, `extractFile`, `deleteSourceFiles` as methods over the file system |
| `FileUpload` | `sanitizeFilename`, `isValidFileType`, the single and multiple upload flows, `processZipFile`, `prepareInputDirectory` and `cleanupOldTxtFiles` |
| `ThreadManagement` | the `submit*` and `waitFor*` methods, with each future given as an already-resolved outcome (`Done`, `Interrupted` or `Failed`), and the archive task's body |
| `FileAnalysis` | `processFile`: the validation, the order of the stages, and the rethrow-or-wrap rule |
| `FileDownload` | `downloadFile`'s guard ladder and `determineContentType` |
| `ExceptionHandler` | the map from exception class to HTTP status and error body |

Inputs the program gets from its environment are parameters of the model:

- clock readings, as nanosecond `Instant`s;
- thread names;
- charset decoding, `decode: Bytes -> Option<string>`;
- `Path.normalize`;
- whether a task submission is rejected or a wait is interrupted.

The file system's `faulty` set names the paths on which every I/O operation fails.

Documented behaviour and code differ in one place, and the model follows the code. The Javadoc of `analyzeFile` (FileProcessingService.java:35) promises a `FileProcessingException` if an error occurs during file processing. But `Files.lines` reports malformed input as an `UncheckedIOException` while the stream is consumed. The `catch (IOException e)` in `countLines` does not catch that exception, so it propagates as an untyped exception. `FileProcessing.CountLines` models it as `Other("UncheckedIOException")`.

## Model

| member | source | states |
|---|---|---|
| Common.Int32 | backend/fileanalyzer/src/main/java/com/infina/fileanalyzer/service/FileProcessingService.java:110-119 | a Java `int` value: the value itself when it fits in 32 bits, and otherwise the 32-bit value congruent to it modulo 2^32 |
| Common.Int64 | backend/fileanalyzer/src/main/java/com/infina/fileanalyzer/service/FileProcessingService.java:112-120 | a Java `long` value, in the same way modulo 2^64 |
| Common.Int32AddWrapped | backend/fileanalyzer/src/main/java/com/infina/fileanalyzer/service/FileProcessingService.java:118-119 | an `int +=` on a wrapped running sum gives the wrapped exact sum, so wrapping at every step equals wrapping once at the end |
| Common.Int64AddWrapped | backend/fileanalyzer/src/main/java/com/infina/fileanalyzer/service/FileProcessingService.java:120 | the same for the `long` processing-time sum |
| Text.LastIndexOf | backend/fileanalyzer/src/main/java/com/infina/fileanalyzer/service/FileUploadService.java:264 | -1 exactly when the character is absent; otherwise the index holds the character and no later index does |
| Text.ToLowerIdempotent | backend/fileanalyzer/src/main/java/com/infina/fileanalyzer/service/FileDownloadService.java:81 | lower-casing twice gives the same string as lower-casing once |
| Text.EndsWithLowered | backend/fileanalyzer/src/main/java/com/infina/fileanalyzer/service/FileProcessingService.java:44-45 | a name that ends in a suffix still ends in the lower-cased suffix once lower-cased |
| Paths.Segments | backend/fileanalyzer/src/main/java/com/infina/fileanalyzer/service/ArchiveService.java:68 | every name `Paths.get` splits out of a path string is non-empty and holds no separator |
| Paths.ParsePrinted | backend/fileanalyzer/src/main/java/com/infina/fileanalyzer/service/ArchiveService.java:61-62 | parsing a printed path gives back the same path (`Paths.get(p.toString())` is `p`) |
| Paths.InvalidPath | backend/fileanalyzer/src/main/java/com/infina/fileanalyzer/service/FileUploadService.java:145 | the error `Paths.get` and `resolve` throw on a path string holding NUL is an InvalidPathException with no cause |
| Storage.FileSystem.TxtAmong | backend/fileanalyzer/src/main/java/com/infina/fileanalyzer/service/ArchiveService.java:145-148 | the `*.txt` filter keeps exactly the listed entries that are `.txt` files directly inside the directory, and never adds one |
| Storage.FileSystem.TxtFilesInExact | backend/fileanalyzer/src/main/java/com/infina/fileanalyzer/service/ArchiveService.java:145-148 | a path is in the directory stream's `*.txt` listing exactly when it is a `.txt` file directly inside the directory, and no path is listed twice |
| Storage.FileSystem.NoTxtFilesListed | backend/fileanalyzer/src/main/java/com/infina/fileanalyzer/service/FileUploadService.java:228-232 | a directory without `.txt` children lists nothing |
| Storage.FileSystem.Write | backend/fileanalyzer/src/main/java/com/infina/fileanalyzer/service/ArchiveService.java:89 | opening a file for writing succeeds exactly when the path is writable; it then replaces that path's bytes and nothing else |
| Storage.FileSystem.Delete | backend/fileanalyzer/src/main/java/com/infina/fileanalyzer/service/ArchiveService.java:279 | `Files.delete` succeeds exactly when the file can be accessed, and then removes that path and nothing else |
| Storage.FileSystem.CreateDirectories | backend/fileanalyzer/src/main/java/com/infina/fileanalyzer/service/ArchiveService.java:83 | `Files.createDirectories` succeeds exactly when possible, and then adds the directory with all its ancestors |
| Storage.FileSystem.MakeDirectories | backend/fileanalyzer/src/main/java/com/infina/fileanalyzer/service/ArchiveService.java:183-186 | `File.mkdirs` answers true exactly when the directory did not exist and could be created, and then it exists |
| Storage.BufferedCopy | backend/fileanalyzer/src/main/java/com/infina/fileanalyzer/service/ArchiveService.java:255-261 | the read/write loop through a buffer of any positive size outputs exactly its input, in order |
| Entity.DurationNanos | backend/fileanalyzer/src/main/java/com/infina/fileanalyzer/entity/FileStats.java:89-92 | `Duration.between(start, end).toNanos()` succeeds exactly when end − start fits a `long`, and then `start + nanos == end`; otherwise it throws ArithmeticException |
| Entity.SizeOf | backend/fileanalyzer/src/main/java/com/infina/fileanalyzer/entity/AnalysisResult.java:33 | the size of a null list is 0; otherwise it is the list's length |
| Entity.FileStats.constructor | backend/fileanalyzer/src/main/java/com/infina/fileanalyzer/entity/FileStats.java:19-22 | a new record is not completed, and every other field is unset or zero |
| Entity.FileStats.WithCounts | backend/fileanalyzer/src/main/java/com/infina/fileanalyzer/entity/FileStats.java:24-30 | stores the name and both counts and marks the record completed |
| Entity.FileStats.WithTiming | backend/fileanalyzer/src/main/java/com/infina/fileanalyzer/entity/FileStats.java:33-38 | additionally stores the duration and the thread name; the record stays completed |
| Entity.FileStats.SetFileName | backend/fileanalyzer/src/main/java/com/infina/fileanalyzer/entity/FileStats.java:45-47 | sets the name and changes no other field |
| Entity.FileStats.SetLineCount | backend/fileanalyzer/src/main/java/com/infina/fileanalyzer/entity/FileStats.java:53-55 | sets the line count and changes no other field |
| Entity.FileStats.SetCharacterCount | backend/fileanalyzer/src/main/java/com/infina/fileanalyzer/entity/FileStats.java:61-63 | sets the character count and changes no other field |
| Entity.FileStats.SetProcessingTimeNanos | backend/fileanalyzer/src/main/java/com/infina/fileanalyzer/entity/FileStats.java:69-71 | sets the duration and changes no other field |
| Entity.FileStats.SetProcessingStartTime | backend/fileanalyzer/src/main/java/com/infina/fileanalyzer/entity/FileStats.java:77-79 | sets the start time only: setting it after the end time does not recompute the duration |
| Entity.FileStats.SetProcessingEndTime | backend/fileanalyzer/src/main/java/com/infina/fileanalyzer/entity/FileStats.java:85-93 | stores the end time. With a start time present, the duration becomes end − start, or ArithmeticException is thrown. Without one, the duration is left as it was |
| Entity.FileStats.SetThreadName | backend/fileanalyzer/src/main/java/com/infina/fileanalyzer/entity/FileStats.java:99-101 | sets the thread name and changes no other field |
| Entity.FileStats.SetProcessingCompleted | backend/fileanalyzer/src/main/java/com/infina/fileanalyzer/entity/FileStats.java:107-109 | sets the completion flag and changes no other field |
| Entity.AnalysisResult.constructor | backend/fileanalyzer/src/main/java/com/infina/fileanalyzer/entity/AnalysisResult.java:21-28 | zeroes every counter and total; the count matches the (absent) list |
| Entity.AnalysisResult.FromList | backend/fileanalyzer/src/main/java/com/infina/fileanalyzer/entity/AnalysisResult.java:30-34 | `totalProcessedFiles` is the list's size, or 0 for null; the other counters stay zero |
| Entity.AnalysisResult.SetFileStatsList | backend/fileanalyzer/src/main/java/com/infina/fileanalyzer/entity/AnalysisResult.java:40-43 | restores `totalProcessedFiles == size of the list` |
| Entity.AnalysisResult.SetTotalLineCount | backend/fileanalyzer/src/main/java/com/infina/fileanalyzer/entity/AnalysisResult.java:49-51 | sets that total only |
| Entity.AnalysisResult.SetTotalCharacterCount | backend/fileanalyzer/src/main/java/com/infina/fileanalyzer/entity/AnalysisResult.java:57-59 | sets that total only |
| Entity.AnalysisResult.SetTotalProcessedFiles | backend/fileanalyzer/src/main/java/com/infina/fileanalyzer/entity/AnalysisResult.java:65-67 | writes the counter without the list; the two agree afterwards exactly when the new value is the list's size |
| Entity.AnalysisResult.SetTotalProcessingTimeNanos | backend/fileanalyzer/src/main/java/com/infina/fileanalyzer/entity/AnalysisResult.java:73-75 | overwrites whatever duration `setAnalysisEndTime` derived |
| Entity.AnalysisResult.SetAnalysisStartTime | backend/fileanalyzer/src/main/java/com/infina/fileanalyzer/entity/AnalysisResult.java:81-83 | sets the start time only |
| Entity.AnalysisResult.SetAnalysisEndTime | backend/fileanalyzer/src/main/java/com/infina/fileanalyzer/entity/AnalysisResult.java:89-97 | stores the end time and, only when a start time is present, sets the total duration to end − start |
| Entity.AnalysisResult.SetFailedFileCount | backend/fileanalyzer/src/main/java/com/infina/fileanalyzer/entity/AnalysisResult.java:103-105 | sets that counter only |
| Entity.AnalysisResult.SetSuccessfulFileCount | backend/fileanalyzer/src/main/java/com/infina/fileanalyzer/entity/AnalysisResult.java:111-113 | sets that counter only |
| Entity.ArchiveInfo.constructor | backend/fileanalyzer/src/main/java/com/infina/fileanalyzer/entity/ArchiveInfo.java:23-28 | the file count, size and duration are 0, and the count matches the (absent) name list |
| Entity.ArchiveInfo.Named | backend/fileanalyzer/src/main/java/com/infina/fileanalyzer/entity/ArchiveInfo.java:30-34 | stores the name and path and keeps the zeroed counters |
| Entity.ArchiveInfo.WithNames | backend/fileanalyzer/src/main/java/com/infina/fileanalyzer/entity/ArchiveInfo.java:36-40 | `archivedFileCount` is the size of the name list, or 0 for null |
| Entity.ArchiveInfo.SetArchiveFileName | backend/fileanalyzer/src/main/java/com/infina/fileanalyzer/entity/ArchiveInfo.java:47-49 | sets that field only |
| Entity.ArchiveInfo.SetArchiveFilePath | backend/fileanalyzer/src/main/java/com/infina/fileanalyzer/entity/ArchiveInfo.java:55-57 | sets that field only |
| Entity.ArchiveInfo.SetArchivedFileNames | backend/fileanalyzer/src/main/java/com/infina/fileanalyzer/entity/ArchiveInfo.java:63-66 | stores the names and restores `archivedFileCount == size of the names` |
| Entity.ArchiveInfo.SetArchiveFileSizeBytes | backend/fileanalyzer/src/main/java/com/infina/fileanalyzer/entity/ArchiveInfo.java:72-74 | sets that field only |
| Entity.ArchiveInfo.SetArchivedFileCount | backend/fileanalyzer/src/main/java/com/infina/fileanalyzer/entity/ArchiveInfo.java:80-82 | writes the count alone; it agrees with the names afterwards exactly when it equals their size |
| Entity.ArchiveInfo.SetArchiveStartTime | backend/fileanalyzer/src/main/java/com/infina/fileanalyzer/entity/ArchiveInfo.java:88-90 | sets that field only |
| Entity.ArchiveInfo.SetArchiveEndTime | backend/fileanalyzer/src/main/java/com/infina/fileanalyzer/entity/ArchiveInfo.java:96-104 | stores the end time and, only when a start time is present, sets the duration to end − start |
| Entity.ArchiveInfo.SetArchiveProcessingTimeNanos | backend/fileanalyzer/src/main/java/com/infina/fileanalyzer/entity/ArchiveInfo.java:110-112 | sets that field only |
| Entity.ArchiveInfo.SetThreadName | backend/fileanalyzer/src/main/java/com/infina/fileanalyzer/entity/ArchiveInfo.java:118-120 | sets that field only |
| Entity.ArchiveInfo.SetCompressionMethod | backend/fileanalyzer/src/main/java/com/infina/fileanalyzer/entity/ArchiveInfo.java:126-128 | sets that field only |
| Entity.ProcessedCountCanDrift | backend/fileanalyzer/src/main/java/com/infina/fileanalyzer/entity/AnalysisResult.java:65-67 | the public setters can leave `totalProcessedFiles` different from the list's size |
| Entity.ArchivedCountCanDrift | backend/fileanalyzer/src/main/java/com/infina/fileanalyzer/entity/ArchiveInfo.java:80-82 | the public setters can leave `archivedFileCount` different from the number of names |
| FileProcessing.LineEnd | backend/fileanalyzer/src/main/java/com/infina/fileanalyzer/service/FileProcessingService.java:69-70 | a record of `Files.lines` ends at the first `\n` or `\r`, or at the end of the text |
| FileProcessing.LinesBound | backend/fileanalyzer/src/main/java/com/infina/fileanalyzer/service/FileProcessingService.java:68-71 | empty text has no line; any other text has at least one and at most as many as it has characters |
| FileProcessing.LinesHaveNoTerminators | backend/fileanalyzer/src/main/java/com/infina/fileanalyzer/service/FileProcessingService.java:69-70 | no line that `Files.lines` yields contains a terminator |
| FileProcessing.LinesRoundTrip | backend/fileanalyzer/src/main/java/com/infina/fileanalyzer/service/FileProcessingService.java:69-70 | splitting lines that were each written with a `\n` terminator gives the same lines back |
| FileProcessing.TrailingTerminatorAddsNoLine | backend/fileanalyzer/src/main/java/com/infina/fileanalyzer/service/FileProcessingService.java:69-70 | a terminator at the end of the text adds no line |
| FileProcessing.AnalyzedCounts | backend/fileanalyzer/src/main/java/com/infina/fileanalyzer/service/FileProcessingService.java:55-59 | a successful analysis read a readable, decodable file. The character count is the decoded length and the line count is the number of records. There are never more lines than characters, and there are no lines exactly when there are no characters |
| FileProcessing.UpperCaseExtensionAccepted | backend/fileanalyzer/src/main/java/com/infina/fileanalyzer/service/FileProcessingService.java:44-47 | a name ending in ".TXT" never raises InvalidFileType |
| FileProcessing.ReadFaultIsFileProcessing | backend/fileanalyzer/src/main/java/com/infina/fileanalyzer/service/FileProcessingService.java:71-84 | a read fault on an existing `.txt` file fails the analysis, and the character count, with FileProcessing |
| FileProcessing.AnalyzeFile | backend/fileanalyzer/src/main/java/com/infina/fileanalyzer/service/FileProcessingService.java:37-65 | the existence check runs before the extension check, and a count failure passes through unchanged. On success the result is a new completed record with the base name, both counts, the thread name, both timestamps and the duration end − start |
| FileProcessing.CompleteStats | backend/fileanalyzer/src/main/java/com/infina/fileanalyzer/service/FileProcessingService.java:58-62 | stores both counts and the end time, derives the duration, and marks the record completed, leaving the name, thread and start time as they were |
| FileProcessing.Contribution | backend/fileanalyzer/src/main/java/com/infina/fileanalyzer/service/FileProcessingService.java:116-124 | a completed record adds one success with its figures; any other record adds one failure and nothing else |
| FileProcessing.TallyPermutation | backend/fileanalyzer/src/main/java/com/infina/fileanalyzer/service/FileProcessingService.java:116-125 | reordering the list changes no total |
| FileProcessing.TallyCounts | backend/fileanalyzer/src/main/java/com/infina/fileanalyzer/service/FileProcessingService.java:116-125 | successes plus failures is the list's length. The successes are the completed records, and the line, character and time totals are sums over those records alone |
| FileProcessing.AllCompletedTally | backend/fileanalyzer/src/main/java/com/infina/fileanalyzer/service/FileProcessingService.java:117-124 | when every record is completed, all are counted successful and none failed |
| FileProcessing.Accumulate | backend/fileanalyzer/src/main/java/com/infina/fileanalyzer/service/FileProcessingService.java:110-125 | the five-accumulator loop computes the fold `Tally`, with the `int`/`long` sums wrapped, and successes plus failures equal the list's length |
| FileProcessing.RecordTotals | backend/fileanalyzer/src/main/java/com/infina/fileanalyzer/service/FileProcessingService.java:127-131 | the five setters store the totals and leave the list, count and timestamps alone |
| FileProcessing.CalculateTotalResult | backend/fileanalyzer/src/main/java/com/infina/fileanalyzer/service/FileProcessingService.java:101-142 | the result holds the list, `totalProcessedFiles == size`, and the wrapped totals of the completed records. `totalProcessingTimeNanos` is the sum of the records' durations, because line 129 overwrites the end − start value derived at line 107. The only failure is the ArithmeticException of that derivation |
| ArchiveService.FileLength | backend/fileanalyzer/src/main/java/com/infina/fileanalyzer/service/ArchiveService.java:106 | the recorded size is the archive's byte count |
| ArchiveService.ArchiveEntriesAt | backend/fileanalyzer/src/main/java/com/infina/fileanalyzer/service/ArchiveService.java:90-94 | the k-th entry written is a file entry named by the k-th file's base name and holding that file's bytes |
| ArchiveService.BaseNames | backend/fileanalyzer/src/main/java/com/infina/fileanalyzer/service/ArchiveService.java:95 | the recorded names are the files' base names, one per file, in listing order |
| ArchiveService.ListedBaseNamesDistinct | backend/fileanalyzer/src/main/java/com/infina/fileanalyzer/service/ArchiveService.java:145-148 | the files of one directory listing have distinct base names, so no two archive entries share a name |
| ArchiveService.FindTxtFiles | backend/fileanalyzer/src/main/java/com/infina/fileanalyzer/service/ArchiveService.java:133-154 | the order of checks: a missing path gives DirectoryNotFound, a non-directory gives DirectoryAccess, and a listing fault gives DirectoryAccess with the IOException as cause. Otherwise the result is the directory's `*.txt` listing |
| ArchiveService.SignatureBytes | backend/fileanalyzer/src/main/java/com/infina/fileanalyzer/service/ArchiveService.java:227-229 | `readInt` equals 0x504B0304 exactly when the first four bytes are 50 4B 03 04, the local file header signature of section 4.3.7 of the PKWARE APPNOTE.TXT ZIP specification |
| ArchiveService.ValidZipFileBytes | backend/fileanalyzer/src/main/java/com/infina/fileanalyzer/service/ArchiveService.java:220-242 | `isValidZipFile` holds exactly when the file is readable, is at least 4 bytes long, starts with that signature, and yields at least one entry |
| ArchiveService.ExtractFile | backend/fileanalyzer/src/main/java/com/infina/fileanalyzer/service/ArchiveService.java:254-265 | succeeds exactly when the path string holds no NUL and the target is writable, leaving the entry's exact bytes there. A failure is ArchiveExtraction naming the target, with nothing written; its cause is the IOException of the target, or "Invalid file path" for a NUL |
| ArchiveService.CopyToFile | backend/fileanalyzer/src/main/java/com/infina/fileanalyzer/service/ArchiveService.java:256-264 | the open and copy of `extractFile`: succeeds exactly when the target is writable, leaving the entry's exact bytes there; a failure is ArchiveExtraction with the target's IOException, with nothing written |
| ArchiveService.Unzip | backend/fileanalyzer/src/main/java/com/infina/fileanalyzer/service/ArchiveService.java:171-208 | the order of checks: a missing file or a path string holding NUL (for which `File.exists` is false), then an invalid archive, then a destination that holds NUL or cannot be created, each leaving the file system unchanged. On success every file entry has been written at `destDirectory + "/" + name`, a later entry overwriting an earlier one. Conversely, NUL-free paths, a valid archive that reads without fault, a destination that is or can be made a directory, and file entries with NUL-free names whose targets lie directly in it and can be written give success |
| ArchiveService.ExtractEntry | backend/fileanalyzer/src/main/java/com/infina/fileanalyzer/service/ArchiveService.java:192-200 | a file entry is written at its target, and a directory entry writes no file. Extracting a file entry succeeds exactly when the destination and the entry name hold no NUL and the target is writable, and creates no directory. A directory entry whose path holds NUL is DirectoryAccess |
| ArchiveService.ExtractEntries | backend/fileanalyzer/src/main/java/com/infina/fileanalyzer/service/ArchiveService.java:189-203 | the entry loop leaves exactly the old files plus the extracted entries. When the destination holds no NUL and every entry is a file with a NUL-free name and a writable target, the loop succeeds |
| ArchiveService.EntryTargetInjective | backend/fileanalyzer/src/main/java/com/infina/fileanalyzer/service/ArchiveService.java:192 | two different entry names are extracted to two different paths under the same destination |
| ArchiveService.ExtractedArchiveEntries | backend/fileanalyzer/src/main/java/com/infina/fileanalyzer/service/ArchiveService.java:89-99 | extracting the entries `createArchive` writes for files with distinct base names puts each file's bytes at destination/base name |
| ArchiveService.ArchiveRoundTrip | backend/fileanalyzer/src/main/java/com/infina/fileanalyzer/service/ArchiveService.java:189-203 | when reading back what `createArchive` packed yields its entries, `unzip`'s extraction restores every archived file's bytes under its base name in the destination |
| ArchiveService.DeleteSourceFiles | backend/fileanalyzer/src/main/java/com/infina/fileanalyzer/service/ArchiveService.java:276-284 | every listed path is attempted, and no failure escapes. Exactly the listed paths that could be deleted are gone |
| ArchiveService.ReadSources | backend/fileanalyzer/src/main/java/com/infina/fileanalyzer/service/ArchiveService.java:90-96 | the copy loop reads the files in order up to the first unreadable one, collecting each one's entry and base name |
| ArchiveService.PrepareOutputDirectory | backend/fileanalyzer/src/main/java/com/infina/fileanalyzer/service/ArchiveService.java:80-87 | a missing parent of the archive path is created with its ancestors; failing that is DirectoryAccess; an existing or absent parent changes nothing |
| ArchiveService.WriteArchive | backend/fileanalyzer/src/main/java/com/infina/fileanalyzer/service/ArchiveService.java:89-99 | an unwritable archive path is ArchiveCreation with no file changed. On success the archive path holds the packed entries of the files, read after the output was opened, and the names are their base names. A writable archive path and readable files give success |
| ArchiveService.WriteEntries | backend/fileanalyzer/src/main/java/com/infina/fileanalyzer/service/ArchiveService.java:90-96 | with the output open, success means every file was readable, the archive holds their entries in order, and the names are their base names. Conversely, readable files give success |
| ArchiveService.RecordArchive | backend/fileanalyzer/src/main/java/com/infina/fileanalyzer/service/ArchiveService.java:106-118 | records the size, the names with a matching count, "ZIP", the thread and the end time with its derived duration |
| ArchiveService.CreateArchive | backend/fileanalyzer/src/main/java/com/infina/fileanalyzer/service/ArchiveService.java:58-120 | an output path without a file name throws NullPointerException, as `getFileName().toString()` does. Then come the missing-directory and non-directory errors, each with no change. An empty listing returns an empty name list with count 0, writes nothing, and leaves the end time and method unset. Otherwise the info holds the archive's file name and path, the listed files' base names in order with a matching count, the archive's size, "ZIP", the thread, the end time and the duration, and the archive holds their entries. Conversely, an existing input directory whose listing and `*.txt` files can be read, an archive path that can be opened once its parent is created, and a duration that fits in a `long` give success |
| ArchiveService.StartArchiveInfo | backend/fileanalyzer/src/main/java/com/infina/fileanalyzer/service/ArchiveService.java:59-64 | a new `ArchiveInfo` holding the archive's file name, its path and the start time, with no end time, no method and size 0 |
| ArchiveService.ArchiveDirectory | backend/fileanalyzer/src/main/java/com/infina/fileanalyzer/service/ArchiveService.java:66-115 | the try block of `createArchive`: the same checks, the early return on an empty listing, and the recorded archive otherwise; under the same conditions as `createArchive` it succeeds |
| ArchiveService.ArchiveFiles | backend/fileanalyzer/src/main/java/com/infina/fileanalyzer/service/ArchiveService.java:80-110 | for a non-empty listing: the output directory, the archive holding each file's entry, and the recorded size, names, count and method. A writable archive path, readable files and a duration that fits give success |
| FileUpload.ReplaceDisallowed | backend/fileanalyzer/src/main/java/com/infina/fileanalyzer/service/FileUploadService.java:259 | the output has the input's length and only characters of `[a-zA-Z0-9._-]`; allowed characters stay in place |
| FileUpload.ReplaceAllowedUnchanged | backend/fileanalyzer/src/main/java/com/infina/fileanalyzer/service/FileUploadService.java:259 | a name of allowed characters only is unchanged |
| FileUpload.TruncateAsWritten | backend/fileanalyzer/src/main/java/com/infina/fileanalyzer/service/FileUploadService.java:262-272 | the truncation as written: a name of at most 100 characters is returned unchanged |
| FileUpload.Truncate | backend/fileanalyzer/src/main/java/com/infina/fileanalyzer/service/FileUploadService.java:262-272 | the truncation as intended: short names unchanged, long names exactly 100 characters, taken from the name |
| FileUpload.SanitizeFilename | backend/fileanalyzer/src/main/java/com/infina/fileanalyzer/service/FileUploadService.java:255-275 | null gives "unknown"; the result is at most 100 allowed characters; a name of at most 100 characters is only character-replaced |
| FileUpload.SanitizeIdempotent | backend/fileanalyzer/src/main/java/com/infina/fileanalyzer/service/FileUploadService.java:255-275 | sanitizing a sanitized name changes nothing |
| FileUpload.SanitizeKeepsExtension | backend/fileanalyzer/src/main/java/com/infina/fileanalyzer/service/FileUploadService.java:263-271 | a long name with a dot after index 0 and an extension of at most 100 characters becomes its first 100 − len(ext) characters followed by the extension: exactly 100 characters ending in the extension |
| FileUpload.SanitizeCutsWithoutExtension | backend/fileanalyzer/src/main/java/com/infina/fileanalyzer/service/FileUploadService.java:268-270 | a long name without such a dot becomes its first 100 characters |
| FileUpload.AsWrittenAgrees | backend/fileanalyzer/src/main/java/com/infina/fileanalyzer/service/FileUploadService.java:262-272 | the code as written agrees with the intended sanitizer wherever it returns. It throws exactly on long names whose extension exceeds 100 characters |
| FileUpload.LongExtensionCounterexample | backend/fileanalyzer/src/main/java/com/infina/fileanalyzer/service/FileUploadService.java:267 | "a." followed by 101 'x' makes the code as written throw, while the intended sanitizer returns 100 characters |
| FileUpload.ValidFileTypeIsProcessed | backend/fileanalyzer/src/main/java/com/infina/fileanalyzer/service/FileUploadService.java:242-248 | `isValidFileType` is true exactly for the names the upload flows store (".txt" or ".zip", lower-cased), and it ignores case |
| FileUpload.CleanupOldTxtFiles | backend/fileanalyzer/src/main/java/com/infina/fileanalyzer/service/FileUploadService.java:227-234 | an unlistable directory throws IOException with no change. On success exactly the listed `.txt` files are gone and none is left; a failed delete stops the loop having only removed files |
| FileUpload.DeleteEach | backend/fileanalyzer/src/main/java/com/infina/fileanalyzer/service/FileUploadService.java:229-232 | the delete loop removes every listed path, or throws at the first failure having only removed files |
| FileUpload.PrepareInputDirectory | backend/fileanalyzer/src/main/java/com/infina/fileanalyzer/service/FileUploadService.java:209-221 | a missing directory is created, leaving files alone; an existing one is cleared of its `.txt` files; either failure is DirectoryAccess. On success the files are `PreparedFiles` of the old state |
| FileUpload.ZipTargetInInputDirectory | backend/fileanalyzer/src/main/java/com/infina/fileanalyzer/service/FileUploadService.java:165-172 | the target built from an entry's base name is always a child of the input directory, so the `startsWith` check never skips an entry |
| FileUpload.TxtEntries | backend/fileanalyzer/src/main/java/com/infina/fileanalyzer/service/FileUploadService.java:164 | the extracted entries are exactly the non-directory entries whose lower-cased name ends in ".txt" |
| FileUpload.ZipStoredWithoutTxt | backend/fileanalyzer/src/main/java/com/infina/fileanalyzer/service/FileUploadService.java:163-185 | an archive without `.txt` entries writes nothing |
| FileUpload.ZipStoredInInputDirectory | backend/fileanalyzer/src/main/java/com/infina/fileanalyzer/service/FileUploadService.java:165-166 | every file the extraction writes lies directly in the input directory |
| FileUpload.ExtractTxtEntry | backend/fileanalyzer/src/main/java/com/infina/fileanalyzer/service/FileUploadService.java:165-182 | an entry name holding NUL fails with InvalidPathException (`Paths.get`, line 165) and writes nothing. Otherwise it succeeds exactly when the target is writable, leaving the entry's bytes under its base name, and fails with the target's IOException |
| FileUpload.CopyTxtEntry | backend/fileanalyzer/src/main/java/com/infina/fileanalyzer/service/FileUploadService.java:166-182 | the copy of one `.txt` entry: succeeds exactly when the target in the input directory is writable, leaving the entry's bytes there, and otherwise writes nothing |
| FileUpload.ExtractTxtEntries | backend/fileanalyzer/src/main/java/com/infina/fileanalyzer/service/FileUploadService.java:163-185 | on success `extractedCount` is the number of `.txt` entries and they are all written, a later one overwriting an earlier one. A failure is an IOException or InvalidPathException, and only with a `.txt` entry present. When every `.txt` entry has a NUL-free name and a writable target, the loop succeeds |
| FileUpload.ProcessZipFile | backend/fileanalyzer/src/main/java/com/infina/fileanalyzer/service/FileUploadService.java:158-193 | success means a readable archive with `.txt` entries, all written. An archive without any writes nothing and is NoContent, or an IOException when it cannot be read. Conversely, an archive that reads without fault and holds `.txt` entries with NUL-free names and writable targets gives success |
| FileUpload.ProcessTxtFile | backend/fileanalyzer/src/main/java/com/infina/fileanalyzer/service/FileUploadService.java:143-151 | a name holding NUL fails with InvalidPathException (`resolve`, line 145) and writes nothing. Otherwise the upload is copied to `inputDir.resolve(filename)`, replacing any file there, exactly when that path is writable, and fails with its IOException otherwise; an absolute name resolves to itself |
| FileUpload.StoreUpload | backend/fileanalyzer/src/main/java/com/infina/fileanalyzer/service/FileUploadService.java:57-65 | a `.txt` upload is copied and a `.zip` upload is extracted; a failure is an IOException, an InvalidPathException or NoContent |
| FileUpload.ProcessUploadedFile | backend/fileanalyzer/src/main/java/com/infina/fileanalyzer/service/FileUploadService.java:39-74 | a null or empty upload is FileProcessing with no change. Every error is FileProcessing or DirectoryAccess. Success requires a non-empty, named upload of a valid type and returns the analysis. On success the files are those of the prepared directory plus what storing the upload writes (`Stored`). A named upload of another type fails, and the FileProcessing error is "Unsupported file type" rewrapped by the catch at line 70. A storing failure, including the InvalidPathException of a name holding NUL, is rewrapped the same way |
| FileUpload.ProcessableIsValid | backend/fileanalyzer/src/main/java/com/infina/fileanalyzer/service/FileUploadService.java:99-122 | the uploads the loop processes are exactly the non-null, non-empty ones with a valid-type name |
| FileUpload.ProcessableCount | backend/fileanalyzer/src/main/java/com/infina/fileanalyzer/service/FileUploadService.java:97-123 | the processed count is at most the number of uploads, and zero exactly when none is processable |
| FileUpload.StoreIfProcessable | backend/fileanalyzer/src/main/java/com/infina/fileanalyzer/service/FileUploadService.java:99-122 | one loop turn stores a processable upload and skips any other; a failure is an IOException, an InvalidPathException or NoContent, and only for a processable upload |
| FileUpload.StoreUploads | backend/fileanalyzer/src/main/java/com/infina/fileanalyzer/service/FileUploadService.java:97-123 | `processedFileCount` is the number of processable uploads, and each was stored in order. A failure is an IOException, an InvalidPathException or NoContent, and only with a processable upload present |
| FileUpload.ProcessMultipleUploadedFiles | backend/fileanalyzer/src/main/java/com/infina/fileanalyzer/service/FileUploadService.java:77-136 | a null or empty array is FileProcessing with no change. Success means at least one processable upload, and the files are then those of the prepared directory plus what storing every processable upload in order writes (`StoredAll`). Zero processed is the NoContent, rewrapped as FileProcessing by the catch at line 132, as is any storing failure, including the InvalidPathException of a name holding NUL |
| ThreadManagement.Await | backend/fileanalyzer/src/main/java/com/infina/fileanalyzer/service/ThreadManagementService.java:215-240 | `get()` returns the task's value unchanged. An interruption gives ThreadInterrupted and a failed task gives ThreadExecution with the task's exception as cause |
| ThreadManagement.WaitForTotalResultCalculation | backend/fileanalyzer/src/main/java/com/infina/fileanalyzer/service/ThreadManagementService.java:210-243 | the same, with that method's two messages |
| ThreadManagement.WaitForArchiveCompletion | backend/fileanalyzer/src/main/java/com/infina/fileanalyzer/service/ThreadManagementService.java:310-344 | the same, with that method's two messages |
| ThreadManagement.WaitForAnalysisCompletion | backend/fileanalyzer/src/main/java/com/infina/fileanalyzer/service/ThreadManagementService.java:254-299 | succeeds exactly when every future holds a value, returning the values in future order. Otherwise the error is that of the first future without one, and no list is returned |
| ThreadManagement.SubmitFileAnalysisTasks | backend/fileanalyzer/src/main/java/com/infina/fileanalyzer/service/ThreadManagementService.java:58-97 | an interruption is ThreadInterrupted; otherwise one future per path, in path order, each resolved by `analyzeFile` of its path |
| ThreadManagement.SubmitTotalResultCalculationTask | backend/fileanalyzer/src/main/java/com/infina/fileanalyzer/service/ThreadManagementService.java:166-198 | a rejected submission is ThreadExecution. Otherwise the future fails exactly when the duration overflows, and else holds `calculateTotalResult` of exactly the given list: the list, its wrapped line, character and time totals, its success and failure counts, and the given start and end times (`TotalsRecorded`) |
| ThreadManagement.ArchivedSourcesRemoved | backend/fileanalyzer/src/main/java/com/infina/fileanalyzer/service/ThreadManagementService.java:123-126 | after archiving with deletion, every listed source that could be deleted is gone, and every file that is not a `.txt` child of the directory remains |
| ThreadManagement.DeleteAfterArchiving | backend/fileanalyzer/src/main/java/com/infina/fileanalyzer/service/ThreadManagementService.java:122-131 | sources are deleted only when `deleteSourceFiles` is set and `archivedFileCount > 0`, from a fresh listing. Exactly the deletable `.txt` children go; a listing failure is swallowed |
| ThreadManagement.ArchiveTask | backend/fileanalyzer/src/main/java/com/infina/fileanalyzer/service/ThreadManagementService.java:115-134 | the archive task returns `createArchive`'s info. The files afterwards are the written archive minus the deleted sources, and nothing changes for an empty listing |
| ThreadManagement.SubmitArchiveTask | backend/fileanalyzer/src/main/java/com/infina/fileanalyzer/service/ThreadManagementService.java:109-155 | a rejected submission is ThreadExecution with no change; otherwise the future holds the archive task's outcome |
| FileAnalysis.ValidateAsWritten | backend/fileanalyzer/src/main/java/com/infina/fileanalyzer/service/FileAnalysisService.java:53-65 | as written, a null list throws NullPointerException before either check |
| FileAnalysis.Validate | backend/fileanalyzer/src/main/java/com/infina/fileanalyzer/service/FileAnalysisService.java:57-65 | as intended: the directory check comes first, then a null or empty list is FileProcessing; it passes exactly when both hold |
| FileAnalysis.ValidateAgrees | backend/fileanalyzer/src/main/java/com/infina/fileanalyzer/service/FileAnalysisService.java:53-65 | for any non-null list, the code as written and the intended checks agree |
| FileAnalysis.NullListCounterexample | backend/fileanalyzer/src/main/java/com/infina/fileanalyzer/service/FileAnalysisService.java:53 | a null list with a missing directory throws NullPointerException instead of DirectoryNotFound; with the directory present, an untyped exception instead of FileProcessing |
| FileAnalysis.Propagate | backend/fileanalyzer/src/main/java/com/infina/fileanalyzer/service/FileAnalysisService.java:102-108 | a FileAnalyzerException is rethrown unchanged; anything else is wrapped as FileProcessing with the original as cause |
| FileAnalysis.PropagateIdempotent | backend/fileanalyzer/src/main/java/com/infina/fileanalyzer/service/FileAnalysisService.java:102-108 | passing an error through the catch blocks twice is the same as once |
| FileAnalysis.AnalyzeAll | backend/fileanalyzer/src/main/java/com/infina/fileanalyzer/service/FileAnalysisService.java:70-74 | the analysis stage succeeds exactly when every file can be analysed, giving one completed record per path in order; otherwise ThreadExecution, or ThreadInterrupted |
| FileAnalysis.RunStages | backend/fileanalyzer/src/main/java/com/infina/fileanalyzer/service/FileAnalysisService.java:67-100 | a file that cannot be analysed ends the call with ThreadExecution before anything is written. On success every file was counted successful; the line, character and processing-time totals are the wrapped sums of the collected list; the analysis start and end times are the recorded start and the aggregation's end; and the archive was made with `deleteSourceFiles = true` |
| FileAnalysis.AggregateAndArchive | backend/fileanalyzer/src/main/java/com/infina/fileanalyzer/service/FileAnalysisService.java:76-89 | aggregation is submitted for exactly the collected list, then the archive task with deletion, then both are awaited. On success the result records the list, its wrapped totals, its counts, and the analysis start and the aggregation's end time (`TotalsRecorded`), and the archive task's effect holds |
| FileAnalysis.AwaitBoth | backend/fileanalyzer/src/main/java/com/infina/fileanalyzer/service/FileAnalysisService.java:84-95 | the aggregation is awaited before the archive. The response pairs exactly the two awaited values, and the first failed wait decides the error |
| FileAnalysis.ProcessFile | backend/fileanalyzer/src/main/java/com/infina/fileanalyzer/service/FileAnalysisService.java:52-109 | follows the corrected validation `FileAnalysis.Validate` (second row of Findings), not line 53 as written. The directory check comes first: a missing directory gives DirectoryNotFound, then a null or empty list gives FileProcessing, both with no change. A file that cannot be analysed gives ThreadExecution with no change. Every error reaching the caller is a FileAnalyzerException. On success every path was analysable, the list holds one record per path in order with its file name and counts, every path is counted processed and successful with none failed, the line, character and processing-time totals are the wrapped sums of the list, the start and end times are the recorded analysis start and the aggregation's end, and the archive was made with `deleteSourceFiles = true` (line 82): the archive written and the archived sources deleted, as `ArchiveTaskEffect` states |
| FileDownload.DetermineContentType | backend/fileanalyzer/src/main/java/com/infina/fileanalyzer/service/FileDownloadService.java:76-91 | null gives octet-stream; otherwise ".zip", ".txt" and ".rar" are tried in that order on the lower-cased name, with octet-stream when none matches |
| FileDownload.ContentTypeIgnoresCase | backend/fileanalyzer/src/main/java/com/infina/fileanalyzer/service/FileDownloadService.java:81 | the content type does not depend on the name's case |
| FileDownload.DownloadFile | backend/fileanalyzer/src/main/java/com/infina/fileanalyzer/service/FileDownloadService.java:31-69 | an invalid path is 500, and only an invalid path is. A missing target is 404 before the containment check (existence is of the resolved path with `..` kept literally; see Left out), escaping the output directory is 400, and an unreadable file is 404. Success is 200 exactly when the target exists, its normalized path lies in the normalized output directory and it is readable; the response then carries the attachment header naming the request, the content type, and the normalized file |
| FileDownload.ServedFromOutputDirectory | backend/fileanalyzer/src/main/java/com/infina/fileanalyzer/service/FileDownloadService.java:44-56 | a served file always lies inside the normalized output directory and is readable |
| ExceptionHandler.StatusOf | backend/fileanalyzer/src/main/java/com/infina/fileanalyzer/exception/GlobalExceptionHandler.java:35-176 | FileNotFound and DirectoryNotFound map to 404. InvalidFileType, InvalidArchive and the base FileAnalyzerException map to 400, NoContent to 204, and every other kind to 500 |
| ExceptionHandler.Handle | backend/fileanalyzer/src/main/java/com/infina/fileanalyzer/exception/GlobalExceptionHandler.java:35-176 | the body's status equals the response's. A typed handler passes the message on; any other exception is 500 with the fixed generic message |
| ExceptionHandler.ProcessingErrorsKeepTheirMessage | backend/fileanalyzer/src/main/java/com/infina/fileanalyzer/exception/GlobalExceptionHandler.java:35-165 | whatever `processFile` throws from its try block reaches the client with its own message, never as 204 |
| ExceptionHandler.NullListReply | backend/fileanalyzer/src/main/java/com/infina/fileanalyzer/exception/GlobalExceptionHandler.java:167-176 | as written, a null list reaches the client as the generic 500. As intended, a missing directory is a 404 carrying its own message |

## Left out

- Concurrency. The thread pools, `invokeAll`'s blocking and the parallelism bound are not modelled. `shutdown`/`awaitTermination` and `logThreadPoolStatus` (ThreadManagementService.java:350-425) are also left out. Every future is an already-resolved outcome, and each task runs at submission. Interruption and rejection are parameters, so the interrupt flag that `Thread.currentThread().interrupt()` sets is not modelled.
- `ExecutionException`: the wrapper is collapsed. A failed future's cause is the task's own exception.
- Logging and the `nanoTime` timing logs.
- `getProcessingTimeMillis` and the other floating-point getters, and `compressionRatio`.
- Messages of JDK exceptions (NullPointerException, ArithmeticException, IOException, RejectedExecutionException, InterruptedException) are modelled as fixed strings, or as the path for I/O errors.
- `LocalDateTime` is a nanosecond count. A clock reading is a parameter, and so is a thread name.
- `String.toLowerCase` is modelled for ASCII letters only.
- `Files.lines` and `Files.readString` share one decoder parameter. A charset is not modelled.
- The `*.txt` directory stream lists regular files only. A subdirectory whose name ends in ".txt" is not listed, although the JDK would list it.
- `Files.createDirectories` and `File.mkdirs` either create the whole chain or nothing. A partial creation before a failure is not modelled.
- I/O faults come from a fixed set of faulty paths. A path that fails once fails every time.
- `Files.copy` with REPLACE_EXISTING onto an empty directory: a directory is never a writable target in the model.
- ZIP encoding is abstract. `pack` is what ZipOutputStream writes, and `scan` is what ZipInputStream reads, with a fault flag. DEFLATE and the central directory are not modelled.
- `createArchive`'s `zipFile.exists()` check after a successful write cannot fail in the model. Its outer `catch (IOException)` is also unreachable there, because `findTxtFiles` wraps its own I/O errors. Neither is written as code.
- `processZipFile`'s `startsWith` check is not written as a branch: `FileUpload.ZipTargetInInputDirectory` proves it always passes.
- Path-traversal safety is not claimed for `unzip`, which joins names by concatenation.
- FileUpload.ProcessTxtFile / ArchiveService.Unzip: `.` and `..` are kept as literal names; no path is normalised. An upload named `../x.txt`, or an archive entry `../x`, fails in the model because its parent is not a directory, where the JDK resolves it and writes outside the input or destination directory.
- FileDownload.DownloadFile: the existence check at FileDownloadService.java:38 runs on the resolved but un-normalised path, where `..` is a literal name in the model. A request `../x` for an existing file outside the output directory is therefore answered 404 in the model, where the JDK finds the file and the containment check answers 400.
- FileAnalysis.ProcessFile: follows the corrected validation (`FileAnalysis.Validate`). As written, a null list throws NullPointerException at FileAnalysisService.java:53; see Findings and `FileAnalysis.NullListCounterexample`.
- `Path.normalize` is a parameter of `DownloadFile`, and `UrlResource.exists` is modelled by the file's presence.
- A NUL character is the only invalid path string modelled. `DownloadFile` answers it 500. An upload name or a `.txt` entry name holding NUL fails with InvalidPathException and nothing is written; the upload flows rewrap it as FileProcessing. In `unzip`, `java.io.File` treats such a path as neither existing nor creatable, and `FileOutputStream` refuses it.
- The configured strings `inputDirectory` and `outputZipPath`, and `createArchive`'s arguments, are taken to hold no NUL: `Paths.get` on them would throw InvalidPathException before any check the model states.
- The timestamp of `ErrorResponse` is left out.
- `analyzeAllFiles` is called by both upload flows but is not part of this model. Its result is a parameter.
- `processRarFile` is never called, and the `totalSize` loop in `processMultipleUploadedFiles` is never used; both are left out.
- The controller, the DTOs and the exception classes are left out. The exception classes are folded into `ErrorKind`.
- FileUpload.TruncateAsWritten: its contract states only that a name of at most 100 characters is returned unchanged. Its long-name behaviour is stated by `FileUpload.AsWrittenAgrees` against `FileUpload.Truncate`.
- ArchiveService.FileLength: an archive longer than `Long.MAX_VALUE` bytes is not modelled; the size is the byte count up to that bound.
- ThreadManagement.SubmitArchiveTask: for an empty listing it promises only that the files are unchanged (through `ArchiveTaskEffect`), not the directory set or the creation order.
- FileProcessing.CountCharacters: `String.length()` counts UTF-16 code units. The model counts the decoder's characters.

## Findings

| source | as written | input that shows it | evidently intended | confidence | as-written member | corrected member |
|---|---|---|---|---|---|---|
| backend/fileanalyzer/src/main/java/com/infina/fileanalyzer/service/FileUploadService.java:267 | `substring(0, Math.min(100 - extension.length(), lastDotIndex))` has a negative end index when the extension is longer than 100 characters, and throws StringIndexOutOfBoundsException | `sanitizeFilename("a." + 101 × 'x')` | the result is a name of at most 100 characters; an over-long extension is cut like a name without one | not executed | FileUpload.LongExtensionCounterexample | FileUpload.SanitizeFilename |
| backend/fileanalyzer/src/main/java/com/infina/fileanalyzer/service/FileAnalysisService.java:53 | the first log statement calls `filePaths.size()` before the null check at line 63, so a null list throws NullPointerException; the client receives the generic 500 | `processFile(null, "in", ...)` with "in" missing, or present | a missing directory gives DirectoryNotFound (404); otherwise a null list gives FileProcessing "No files provided for processing" | not executed | FileAnalysis.NullListCounterexample | FileAnalysis.Validate |

=== FILE: archive_service.dfy ===
/**
 * ArchiveService: archiving the ".txt" files of a directory into one ZIP
 * file, listing those files, validating and extracting an archive, and
 * best-effort deletion of the archived sources.
 */
module ArchiveService {
  import opened Common
  import opened Text
  import opened Paths
  import opened Storage
  import opened Entity

  /** Path.getFileName().toString() of a path that has names. */
  function BaseName(p: Path): string
    requires p.names != []
  {
    p.names[|p.names| - 1]
  }

  /** File.length(): a file never holds more than Long.MAX_VALUE bytes. */
  function FileLength(data: Bytes): (n: int64)
    ensures |data| <= LONG_MAX ==> n == |data|
  {
    if |data| <= LONG_MAX then |data| else LONG_MAX
  }

  /** The entries createArchive writes: one per file, under its base name, holding its content. */
  function ArchiveEntries(files: seq<Path>, contents: map<Path, Bytes>): (es: seq<ZipEntry>)
    requires forall k :: 0 <= k < |files| ==> files[k].names != [] && files[k] in contents
    ensures |es| == |files|
  {
    if files == [] then []
    else
      var f := files[|files| - 1];
      ArchiveEntries(files[..|files| - 1], contents) + [ZipEntry(BaseName(f), false, contents[f])]
  }

  /** The base names of `files`, in order. */
  function BaseNames(files: seq<Path>): (names: seq<string>)
    requires forall k :: 0 <= k < |files| ==> files[k].names != []
    ensures |names| == |files|
    ensures forall k :: 0 <= k < |files| ==> names[k] == BaseName(files[k])
  {
    if files == [] then []
    else BaseNames(files[..|files| - 1]) + [BaseName(files[|files| - 1])]
  }

  /** The entries of the archive carry the files' base names and contents, in listing order. */
  lemma {:induction false} ArchiveEntriesAt(files: seq<Path>, contents: map<Path, Bytes>)
    requires forall k :: 0 <= k < |files| ==> files[k].names != [] && files[k] in contents
    ensures forall k :: 0 <= k < |files| ==>
              ArchiveEntries(files, contents)[k] == ZipEntry(BaseName(files[k]), false, contents[files[k]])
  {
    if files != [] {
      ArchiveEntriesAt(files[..|files| - 1], contents);
    }
  }

  /** Distinct entries of one directory have distinct base names. */
  lemma ChildrenBaseNamesDistinct(files: seq<Path>, dir: Path)
    requires Distinct(files)
    requires forall k :: 0 <= k < |files| ==> ChildOf(files[k], dir)
    ensures forall k :: 0 <= k < |files| ==> files[k].names != []
    ensures Distinct(BaseNames(files))
  {
    forall k | 0 <= k < |files|
      ensures files[k].names == dir.names + [BaseName(files[k])]
    {
      ChildNames(files[k], dir);
    }
  }

  /** An entry of a directory is the directory's names and its base name. */
  lemma ChildNames(p: Path, dir: Path)
    requires ChildOf(p, dir)
    ensures p.names != [] && p.names == dir.names + [BaseName(p)]
  {
    assert p.names == p.names[..|dir.names|] + [BaseName(p)];
  }

  /**
   * The files listed from one directory have distinct base names, so the
   * archive never holds two entries of the same name.
   */
  lemma ListedBaseNamesDistinct(fs: FileSystem, dir: Path)
    requires fs.Valid()
    ensures forall k :: 0 <= k < |fs.TxtFilesIn(dir)| ==> fs.TxtFilesIn(dir)[k].names != []
    ensures Distinct(BaseNames(fs.TxtFilesIn(dir)))
  {
    var files := fs.TxtFilesIn(dir);
    fs.TxtFilesInExact(dir);
    assert forall k :: 0 <= k < |files| ==> fs.IsTxtFileIn(files[k], dir);
    ChildrenBaseNamesDistinct(files, dir);
  }

  /**
   * findTxtFiles: the regular files of the directory whose names match
   * "*.txt", in listing order, after checking that the directory exists and
   * is one.
   */
  method FindTxtFiles(fs: FileSystem, inputDirectory: string) returns (r: Result<seq<Path>>)
    ensures var dir := ParsePath(inputDirectory);
            && (!fs.Exists(dir) ==>
                  r == Err(Raise(DirectoryNotFound, "Directory not found: " + inputDirectory)))
            && (fs.Exists(dir) && !fs.IsDirectory(dir) ==>
                  r == Err(Raise(DirectoryAccess, "Path is not a directory: " + inputDirectory)))
            && (fs.IsDirectory(dir) && dir in fs.faulty ==>
                  r == Err(Error(DirectoryAccess, "Failed to access directory: " + inputDirectory, Some(IOError(dir)))))
            && (fs.IsDirectory(dir) && dir !in fs.faulty ==> r == Ok(fs.TxtFilesIn(dir)))
    ensures r.Ok? ==> forall k :: 0 <= k < |r.value| ==> fs.IsTxtFileIn(r.value[k], ParsePath(inputDirectory))
  {
    var dir := ParsePath(inputDirectory);
    if !fs.Exists(dir) {
      return Err(Raise(DirectoryNotFound, "Directory not found: " + inputDirectory));
    }
    if !fs.IsDirectory(dir) {
      return Err(Raise(DirectoryAccess, "Path is not a directory: " + inputDirectory));
    }
    if dir in fs.faulty {
      return Err(Error(DirectoryAccess, "Failed to access directory: " + inputDirectory, Some(IOError(dir))));
    }
    var stream := fs.TxtFilesIn(dir);
    var txtFiles: seq<Path> := [];
    var i := 0;
    while i < |stream|
      invariant 0 <= i <= |stream|
      invariant txtFiles == stream[..i]
    {
      txtFiles := txtFiles + [stream[i]];
      i := i + 1;
    }
    assert stream[..|stream|] == stream;
    return Ok(txtFiles);
  }

  /**
   * The big-endian signed `int` that RandomAccessFile.readInt reads from the
   * first four bytes.
   */
  function ReadInt(b: Bytes): int32
    requires |b| >= 4
  {
    Int32(b[0] as int * 0x100_0000 + b[1] as int * 0x1_0000 + b[2] as int * 0x100 + b[3] as int)
  }

  /** The local file header signature of a ZIP file (APPNOTE.TXT section 4.3.7), read big-endian. */
  const ZIP_SIGNATURE: int := 0x504B0304

  /**
   * The signature check accepts exactly the files that start with the bytes
   * 50 4B 03 04 ("PK\3\4").
   */
  lemma SignatureBytes(b: Bytes)
    requires |b| >= 4
    ensures ReadInt(b) == ZIP_SIGNATURE <==> b[..4] == [0x50, 0x4B, 0x03, 0x04]
  {
    var v := b[0] as int * 0x100_0000 + b[1] as int * 0x1_0000 + b[2] as int * 0x100 + b[3] as int;
    if b[0] < 0x80 {
      assert ReadInt(b) == v;
    } else {
      assert ReadInt(b) == v - TWO_32;
    }
  }

  /**
   * isValidZipFile: readable, at least four bytes, the ZIP signature first,
   * and a first entry that can be read. Any I/O failure makes it false.
   */
  predicate IsValidZipFile(fs: FileSystem, zip: ZipFormat, p: Path)
    reads fs
  {
    && fs.Readable(p)
    && |fs.files[p]| >= 4
    && ReadInt(fs.files[p]) == ZIP_SIGNATURE
    && |zip.scan(fs.files[p]).entries| > 0
  }

  /** A valid archive is a readable file starting with 50 4B 03 04 whose first entry can be read. */
  lemma ValidZipFileBytes(fs: FileSystem, zip: ZipFormat, p: Path)
    ensures IsValidZipFile(fs, zip, p) <==>
              && p in fs.files && p !in fs.faulty
              && |fs.files[p]| >= 4
              && fs.files[p][..4] == [0x50, 0x4B, 0x03, 0x04]
              && zip.scan(fs.files[p]).entries != []
  {
    if fs.Readable(p) && |fs.files[p]| >= 4 {
      SignatureBytes(fs.files[p]);
    }
  }

  /** The path `destDirectory + File.separator + name` of an extracted entry. */
  function EntryTarget(destDirectory: string, name: string): Path {
    ParsePath(destDirectory + "/" + name)
  }

  /** The files extraction leaves behind: each file entry at its target, a later entry replacing an earlier one. */
  function Extracted(destDirectory: string, entries: seq<ZipEntry>): map<Path, Bytes> {
    if entries == [] then map[]
    else
      var e := entries[|entries| - 1];
      var m := Extracted(destDirectory, entries[..|entries| - 1]);
      if e.isDirectory then m else m[EntryTarget(destDirectory, e.name) := e.data]
  }

  /** Entries with different names are extracted to different paths. */
  lemma EntryTargetInjective(destDirectory: string, a: string, b: string)
    requires IsName(a) && IsName(b) && a != b
    ensures EntryTarget(destDirectory, a) != EntryTarget(destDirectory, b)
  {
    SegmentsAppendName(destDirectory, a);
    SegmentsAppendName(destDirectory, b);
    var na, nb := EntryTarget(destDirectory, a).names, EntryTarget(destDirectory, b).names;
    assert na[|na| - 1] == a && nb[|nb| - 1] == b;
  }

  /**
   * Extracting the entries createArchive writes for a list of files with
   * distinct base names puts every file's bytes back, under its base name in
   * the destination directory.
   */
  lemma {:induction false} ExtractedArchiveEntries(destDirectory: string, files: seq<Path>, contents: map<Path, Bytes>)
    requires forall k :: 0 <= k < |files| ==> files[k].names != [] && files[k] in contents
    requires forall k :: 0 <= k < |files| ==> IsName(BaseName(files[k]))
    requires Distinct(BaseNames(files))
    ensures forall k :: 0 <= k < |files| ==>
              && EntryTarget(destDirectory, BaseName(files[k])) in Extracted(destDirectory, ArchiveEntries(files, contents))
              && Extracted(destDirectory, ArchiveEntries(files, contents))[EntryTarget(destDirectory, BaseName(files[k]))]
                 == contents[files[k]]
  {
    if files != [] {
      var n := |files| - 1;
      var init := files[..n];
      assert Distinct(BaseNames(init)) by {
        assert forall k :: 0 <= k < n ==> BaseNames(init)[k] == BaseNames(files)[k];
      }
      ExtractedArchiveEntries(destDirectory, init, contents);
      var es := ArchiveEntries(files, contents);
      var before := Extracted(destDirectory, ArchiveEntries(init, contents));
      var last := EntryTarget(destDirectory, BaseName(files[n]));
      assert es[..n] == ArchiveEntries(init, contents);
      assert Extracted(destDirectory, es) == before[last := contents[files[n]]];
      forall k | 0 <= k < n
        ensures EntryTarget(destDirectory, BaseName(files[k])) in before
        ensures before[EntryTarget(destDirectory, BaseName(files[k]))] == contents[files[k]]
        ensures EntryTarget(destDirectory, BaseName(files[k])) != last
      {
        EntryTargetInjective(destDirectory, BaseName(files[k]), BaseName(files[n]));
      }
    }
  }

  /**
   * The archive round trip: when reading back what the ZIP writer produced
   * yields the entries written, unzipping the archive createArchive wrote
   * restores every archived file byte for byte under its base name.
   */
  lemma ArchiveRoundTrip(zip: ZipFormat, destDirectory: string, files: seq<Path>, contents: map<Path, Bytes>)
    requires forall k :: 0 <= k < |files| ==> files[k].names != [] && files[k] in contents
    requires forall k :: 0 <= k < |files| ==> IsName(BaseName(files[k]))
    requires Distinct(BaseNames(files))
    requires zip.scan(zip.pack(ArchiveEntries(files, contents))) == EntryScan(ArchiveEntries(files, contents), false)
    ensures !zip.scan(zip.pack(ArchiveEntries(files, contents))).fault
    ensures forall k :: 0 <= k < |files| ==>
              var restored := Extracted(destDirectory, zip.scan(zip.pack(ArchiveEntries(files, contents))).entries);
              && EntryTarget(destDirectory, BaseName(files[k])) in restored
              && restored[EntryTarget(destDirectory, BaseName(files[k]))] == contents[files[k]]
  {
    ExtractedArchiveEntries(destDirectory, files, contents);
  }

  /** The FileNotFoundException that FileOutputStream throws on a path string holding a NUL character. */
  function InvalidFilePath(): (e: Error)
    ensures e.kind == Other("IOException")
  {
    Raise(Other("IOException"), "Invalid file path")
  }

  /**
   * extractFile: opens the target for writing and copies the entry through
   * a 4096-byte buffer; the file then holds exactly the entry's bytes. A
   * path string holding a NUL character cannot be opened.
   */
  method ExtractFile(fs: FileSystem, data: Bytes, filePath: string) returns (r: Outcome)
    requires fs.Valid()
    modifies fs`files, fs`order
    ensures fs.Valid()
    ensures r.Pass? <==> ValidPathString(filePath) && old(fs.Writable(ParsePath(filePath)))
    ensures r.Pass? ==> fs.files == old(fs.files)[ParsePath(filePath) := data]
    ensures r.Fail? ==> fs.files == old(fs.files)
    ensures r.Fail? ==>
              r.error == Error(ArchiveExtraction, "Failed to extract file: " + filePath,
                               Some(if ValidPathString(filePath) then IOError(ParsePath(filePath)) else InvalidFilePath()))
  {
    if !ValidPathString(filePath) {
      return Fail(Error(ArchiveExtraction, "Failed to extract file: " + filePath, Some(InvalidFilePath())));
    }
    r := CopyToFile(fs, data, filePath);
  }

  /** The copy of extractFile: open the target, then copy through a 4096-byte buffer. */
  method CopyToFile(fs: FileSystem, data: Bytes, filePath: string) returns (r: Outcome)
    requires fs.Valid()
    modifies fs`files, fs`order
    ensures fs.Valid()
    ensures r.Pass? <==> old(fs.Writable(ParsePath(filePath)))
    ensures r.Pass? ==> fs.files == old(fs.files)[ParsePath(filePath) := data]
    ensures r.Fail? ==>
              && r.error == Error(ArchiveExtraction, "Failed to extract file: " + filePath, Some(IOError(ParsePath(filePath))))
              && fs.files == old(fs.files)
  {
    var target := ParsePath(filePath);
    var canOpen := fs.Write(target, []);
    if !canOpen {
      return Fail(Error(ArchiveExtraction, "Failed to extract file: " + filePath, Some(IOError(target))));
    }
    var copied := BufferedCopy(data, 4096);
    var written := fs.Write(target, copied);
    assert written;
    return Pass;
  }

  /**
   * An entry unzip writes once the destination is a directory: a file entry
   * with a name without NUL whose target is an entry of the destination,
   * neither a directory nor faulty.
   */
  predicate ExtractableInto(fs: FileSystem, destDirectory: string, e: ZipEntry)
    reads fs
  {
    var target := EntryTarget(destDirectory, e.name);
    && !e.isDirectory && ValidPathString(e.name)
    && ChildOf(target, ParsePath(destDirectory)) && target !in fs.dirs && target !in fs.faulty
  }

  /**
   * unzip: the archive must exist, then be valid, then the destination must
   * exist or be created; the entries are then extracted in order. A
   * java.io.File whose path string holds a NUL character neither exists nor
   * can be created.
   */
  method Unzip(fs: FileSystem, zip: ZipFormat, zipFilePath: string, destDirectory: string) returns (r: Outcome)
    requires fs.Valid()
    modifies fs`files, fs`order, fs`dirs
    ensures fs.Valid()
    ensures var zp := ParsePath(zipFilePath);
            && (!ValidPathString(zipFilePath) || !old(fs.Exists(zp)) ==>
                  r == Fail(Raise(FileNotFound, "ZIP file not found: " + zipFilePath)) && unchanged(fs))
            && (ValidPathString(zipFilePath) && old(fs.Exists(zp)) && !old(IsValidZipFile(fs, zip, zp)) ==>
                  r == Fail(Raise(InvalidArchive, "Invalid or corrupted ZIP file: " + zipFilePath)) && unchanged(fs))
            && (ValidPathString(zipFilePath) && old(IsValidZipFile(fs, zip, zp)) &&
                (!ValidPathString(destDirectory) ||
                 (old(!fs.Exists(ParsePath(destDirectory))) && old(!fs.CanCreateDirectories(ParsePath(destDirectory))))) ==>
                  r == Fail(Raise(DirectoryAccess, "Failed to create destination directory: " + destDirectory)) &&
                  unchanged(fs))
    ensures r.Pass? ==>
              var scan := zip.scan(old(fs.files)[ParsePath(zipFilePath)]);
              && ValidPathString(zipFilePath) && ValidPathString(destDirectory)
              && old(IsValidZipFile(fs, zip, ParsePath(zipFilePath)))
              && !scan.fault
              && fs.files == old(fs.files) + Extracted(destDirectory, scan.entries)
    ensures r.Fail? ==> r.error.kind in {FileNotFound, InvalidArchive, DirectoryAccess, ArchiveExtraction}
    ensures var zp, dest := ParsePath(zipFilePath), ParsePath(destDirectory);
            && ValidPathString(zipFilePath) && ValidPathString(destDirectory)
            && old(IsValidZipFile(fs, zip, zp))
            && !zip.scan(old(fs.files)[zp]).fault
            && (old(fs.IsDirectory(dest)) || old(!fs.Exists(dest) && fs.CanCreateDirectories(dest)))
            && (forall e :: e in zip.scan(old(fs.files)[zp]).entries ==> old(ExtractableInto(fs, destDirectory, e)))
            ==> r.Pass?
  {
    var zp := ParsePath(zipFilePath);
    if !ValidPathString(zipFilePath) || !fs.Exists(zp) {
      return Fail(Raise(FileNotFound, "ZIP file not found: " + zipFilePath));
    }
    if !IsValidZipFile(fs, zip, zp) {
      return Fail(Raise(InvalidArchive, "Invalid or corrupted ZIP file: " + zipFilePath));
    }
    if !ValidPathString(destDirectory) {
      return Fail(Raise(DirectoryAccess, "Failed to create destination directory: " + destDirectory));
    }
    var dest := ParsePath(destDirectory);
    if !fs.Exists(dest) {
      var created := fs.MakeDirectories(dest);
      if !created {
        return Fail(Raise(DirectoryAccess, "Failed to create destination directory: " + destDirectory));
      }
    }
    var scan := zip.scan(fs.files[zp]);
    r := ExtractEntries(fs, destDirectory, scan.entries);
    if r.Pass? && scan.fault {
      return Fail(Error(ArchiveExtraction, "Failed to extract ZIP file: " + PathString(zp), Some(IOError(zp))));
    }
  }

  /** The body of unzip's entry loop for one entry. */
  method ExtractEntry(fs: FileSystem, destDirectory: string, entry: ZipEntry) returns (r: Outcome)
    requires fs.Valid()
    modifies fs`files, fs`order, fs`dirs
    ensures fs.Valid()
    ensures r.Pass? ==>
              fs.files == if entry.isDirectory then old(fs.files)
                          else old(fs.files)[EntryTarget(destDirectory, entry.name) := entry.data]
    ensures r.Fail? ==> r.error.kind in {DirectoryAccess, ArchiveExtraction}
    ensures !entry.isDirectory ==>
              && fs.dirs == old(fs.dirs)
              && (r.Pass? <==> ValidPathString(destDirectory) && ValidPathString(entry.name)
                               && old(fs.Writable(EntryTarget(destDirectory, entry.name))))
  {
    var filePath := destDirectory + "/" + entry.name;
    assert ValidPathString(filePath) <==> ValidPathString(destDirectory) && ValidPathString(entry.name);
    if !entry.isDirectory {
      r := ExtractFile(fs, entry.data, filePath);
    } else {
      if !ValidPathString(filePath) {
        return Fail(Raise(DirectoryAccess, "Failed to create directory during extraction: " + filePath));
      }
      var directory := ParsePath(filePath);
      var created := fs.MakeDirectories(directory);
      if !created && !fs.Exists(directory) {
        return Fail(Raise(DirectoryAccess, "Failed to create directory during extraction: " + filePath));
      }
      r := Pass;
    }
  }

  /** Every entry is a file entry with a name without NUL whose target under the destination can be opened for writing. */
  predicate FileEntriesWritable(fs: FileSystem, destDirectory: string, entries: seq<ZipEntry>)
    reads fs
  {
    && ValidPathString(destDirectory)
    && forall e :: e in entries ==> !e.isDirectory && ValidPathString(e.name) && fs.Writable(EntryTarget(destDirectory, e.name))
  }

  /** unzip's entry loop: extracts the entries in order and stops at the first failure. */
  method ExtractEntries(fs: FileSystem, destDirectory: string, entries: seq<ZipEntry>) returns (r: Outcome)
    requires fs.Valid()
    modifies fs`files, fs`order, fs`dirs
    ensures fs.Valid()
    ensures r.Pass? ==> fs.files == old(fs.files) + Extracted(destDirectory, entries)
    ensures r.Fail? ==> r.error.kind in {DirectoryAccess, ArchiveExtraction}
    ensures old(FileEntriesWritable(fs, destDirectory, entries)) ==> r.Pass?
  {
    ghost var files0 := fs.files;
    ghost var allWritable := FileEntriesWritable(fs, destDirectory, entries);
    var i := 0;
    while i < |entries|
      invariant 0 <= i <= |entries|
      invariant fs.Valid()
      invariant fs.files == files0 + Extracted(destDirectory, entries[..i])
      invariant allWritable ==> FileEntriesWritable(fs, destDirectory, entries)
    {
      var entry := entries[i];
      ghost var done := Extracted(destDirectory, entries[..i]);
      ghost var writable := && !entry.isDirectory && ValidPathString(destDirectory) && ValidPathString(entry.name)
                            && fs.Writable(EntryTarget(destDirectory, entry.name));
      assert allWritable ==> writable by {
        assert allWritable ==> entry in entries;
      }
      r := ExtractEntry(fs, destDirectory, entry);
      if r.Fail? {
        assert !writable;
        return;
      }
      assert entries[..i + 1][..i] == entries[..i];
      if !entry.isDirectory {
        MergeThenUpdate(files0, done, EntryTarget(destDirectory, entry.name), entry.data);
      }
      i := i + 1;
    }
    assert entries[..|entries|] == entries;
    r := Pass;
  }

  /**
   * deleteSourceFiles: tries to delete every path; a failure is only logged,
   * so the call always completes. Afterwards exactly the deletable paths are gone.
   */
  method DeleteSourceFiles(fs: FileSystem, files: seq<Path>)
    requires fs.Valid()
    modifies fs`files
    ensures fs.Valid()
    ensures fs.files == old(fs.files) - (set p | p in files && p !in fs.faulty)
  {
    var i := 0;
    while i < |files|
      invariant 0 <= i <= |files|
      invariant fs.Valid()
      invariant fs.files == old(fs.files) - (set p | p in files[..i] && p !in fs.faulty)
    {
      var deleted := fs.Delete(files[i]);
      assert (set p | p in files[..i + 1] && p !in fs.faulty)
          == (set p | p in files[..i] && p !in fs.faulty) + (if files[i] in fs.faulty then {} else {files[i]});
      i := i + 1;
    }
    assert files[..|files|] == files;
  }

  /**
   * The copy loop of createArchive: reads the files in order until one
   * cannot be read. `failed` is the index of that file, if any; `entries`
   * and `names` cover the files read before it.
   */
  method ReadSources(fs: FileSystem, files: seq<Path>) returns (entries: seq<ZipEntry>, names: seq<string>, failed: Option<nat>)
    requires forall k :: 0 <= k < |files| ==> files[k].names != []
    ensures var n := if failed.Some? then failed.value else |files|;
            && n <= |files|
            && (forall k :: 0 <= k < n ==> fs.Readable(files[k]))
            && entries == ArchiveEntries(files[..n], fs.files)
            && names == BaseNames(files[..n])
    ensures failed.Some? ==> failed.value < |files| && !fs.Readable(files[failed.value])
  {
    entries, names := [], [];
    var i := 0;
    while i < |files|
      invariant 0 <= i <= |files|
      invariant forall k :: 0 <= k < i ==> fs.Readable(files[k])
      invariant entries == ArchiveEntries(files[..i], fs.files)
      invariant names == BaseNames(files[..i])
    {
      var file := files[i];
      assert files[..i + 1][..i] == files[..i];
      if !fs.Readable(file) {
        return entries, names, Some(i);
      }
      entries := entries + [ZipEntry(BaseName(file), false, fs.files[file])];
      names := names + [BaseName(file)];
      i := i + 1;
    }
    assert files[..|files|] == files;
    failed := None;
  }

  /**
   * The archive can be opened for writing once createArchive has prepared
   * its directory: a file path, not a directory, whose parent is a directory
   * or can be created.
   */
  predicate ArchiveWritable(fs: FileSystem, out: Path)
    reads fs
  {
    && out.names != [] && out !in fs.dirs && out !in fs.faulty
    && match Parent(out)
       case None => true
       case Some(d) => fs.IsDirectory(d) || (!fs.Exists(d) && fs.CanCreateDirectories(d))
  }

  /** createArchive's check of the output directory: a missing parent is created with its ancestors. */
  method PrepareOutputDirectory(fs: FileSystem, out: Path) returns (r: Outcome)
    requires fs.Valid()
    modifies fs`dirs
    ensures fs.Valid()
    ensures var parent := Parent(out);
            && (parent.None? || old(fs.Exists(parent.value)) ==> r == Pass && fs.dirs == old(fs.dirs))
            && (parent.Some? && old(!fs.Exists(parent.value)) ==>
                  if old(fs.CanCreateDirectories(parent.value))
                  then r == Pass && fs.dirs == old(fs.dirs) + Prefixes(parent.value)
                  else r == Fail(Error(DirectoryAccess, "Failed to create output directory: " + PathString(parent.value),
                                       Some(IOError(parent.value)))) && fs.dirs == old(fs.dirs))
    ensures r.Pass? ==> match Parent(out) case None => true case Some(d) => fs.IsDirectory(d) || d in fs.files
  {
    var outputDirectory := Parent(out);
    if outputDirectory.Some? && !fs.Exists(outputDirectory.value) {
      var created := fs.CreateDirectories(outputDirectory.value);
      if !created {
        return Fail(Error(DirectoryAccess, "Failed to create output directory: " + PathString(outputDirectory.value),
                          Some(IOError(outputDirectory.value))));
      }
    }
    r := Pass;
  }

  /**
   * The archive-writing part of createArchive: opens the archive (emptying
   * it) and writes one entry per file.
   */
  method WriteArchive(fs: FileSystem, zip: ZipFormat, out: Path, files: seq<Path>)
    returns (r: Result<seq<string>>)
    requires fs.Valid()
    requires forall k :: 0 <= k < |files| ==> files[k].names != []
    modifies fs`files, fs`order
    ensures fs.Valid()
    ensures !old(fs.Writable(out)) ==>
              r == Err(Error(ArchiveCreation, "Failed to create ZIP archive: " + PathString(out), Some(IOError(out)))) &&
              fs.files == old(fs.files)
    ensures r.Ok? ==>
              var contents := old(fs.files)[out := []];
              && (forall k :: 0 <= k < |files| ==> files[k] in contents)
              && r.value == BaseNames(files)
              && fs.files == old(fs.files)[out := zip.pack(ArchiveEntries(files, contents))]
    ensures old(fs.Writable(out)) && (forall k :: 0 <= k < |files| ==> files[k] in old(fs.files)[out := []] && files[k] !in fs.faulty) ==>
              r.Ok?
    ensures r.Err? ==> r.error.kind == ArchiveCreation
  {
    var canOpen := fs.Write(out, []);
    if !canOpen {
      return Err(Error(ArchiveCreation, "Failed to create ZIP archive: " + PathString(out), Some(IOError(out))));
    }
    r := WriteEntries(fs, zip, out, files);
  }

  /**
   * The try-with-resources body of createArchive once the archive is open:
   * one entry per file, read in order. A file that cannot be read ends the
   * archive after its empty entry.
   */
  method WriteEntries(fs: FileSystem, zip: ZipFormat, out: Path, files: seq<Path>)
    returns (r: Result<seq<string>>)
    requires fs.Valid() && fs.Writable(out)
    requires forall k :: 0 <= k < |files| ==> files[k].names != []
    modifies fs`files, fs`order
    ensures fs.Valid()
    ensures r.Ok? ==>
              && (forall k :: 0 <= k < |files| ==> old(fs.Readable(files[k])))
              && r.value == BaseNames(files)
              && fs.files == old(fs.files)[out := zip.pack(ArchiveEntries(files, old(fs.files)))]
    ensures (forall k :: 0 <= k < |files| ==> files[k] in old(fs.files) && files[k] !in fs.faulty) ==> r.Ok?
    ensures r.Err? ==> r.error.kind == ArchiveCreation
  {
    var entries, names, failed := ReadSources(fs, files);
    if failed.Some? {
      var file := files[failed.value];
      // The entry was opened before the copy failed; closing the stream finishes the archive with it.
      var closed := fs.Write(out, zip.pack(entries + [ZipEntry(BaseName(file), false, [])]));
      return Err(Error(ArchiveCreation, "Failed to create ZIP archive: " + PathString(file), Some(IOError(file))));
    }
    assert files[..|files|] == files;
    var written := fs.Write(out, zip.pack(entries));
    return Ok(names);
  }

  /**
   * The tail of createArchive once the archive is written: records its size,
   * the archived names and their count, the method, the thread and the end time.
   */
  method RecordArchive(info: ArchiveInfo, size: int64, names: seq<string>, thread: string, end: Instant)
    returns (r: Outcome)
    modifies info`archiveFileSizeBytes, info`archivedFileNames, info`archivedFileCount, info`compressionMethod,
           info`threadName, info`archiveEndTime, info`archiveProcessingTimeNanos
    ensures info.archiveFileSizeBytes == size
    ensures info.archivedFileNames == Some(names) && info.CountMatchesList()
    ensures info.compressionMethod == Some("ZIP") && info.threadName == Some(thread)
    ensures info.archiveEndTime == Some(end)
    ensures info.archiveStartTime.Some? ==>
              match DurationNanos(info.archiveStartTime.value, end)
              case Ok(n) => r == Pass && info.archiveProcessingTimeNanos == n
              case Err(e) => r == Fail(e)
    ensures info.archiveStartTime.None? ==> r == Pass
  {
    info.SetArchiveFileSizeBytes(size);
    info.SetArchivedFileNames(Some(names));
    info.SetArchivedFileCount(SizeOf(Some(names)));
    info.SetCompressionMethod(Some("ZIP"));
    info.SetThreadName(Some(thread));
    r := info.SetArchiveEndTime(end);
  }

  /** What writing and recording the archive fails with: its own exceptions, or an ArithmeticException of the JDK. */
  const WriteFailureKinds: set<ErrorKind> := {DirectoryAccess, ArchiveCreation, Other("ArithmeticException")}

  /** What createArchive fails with from the input directory check on. */
  const DirectoryFailureKinds: set<ErrorKind> := WriteFailureKinds + {DirectoryNotFound}

  /** What createArchive fails with: the above, or a NullPointerException of the JDK on an output path without a file name. */
  const ArchiveFailureKinds: set<ErrorKind> := DirectoryFailureKinds + {Other("NullPointerException")}

  /** The first steps of createArchive: a new ArchiveInfo holding the archive's name, its path and the start time. */
  method StartArchiveInfo(archiveFileName: Option<string>, outputZipPath: string, start: Instant)
    returns (info: ArchiveInfo)
    ensures fresh(info)
    ensures info.archiveFileName == archiveFileName && info.archiveFilePath == Some(outputZipPath)
    ensures info.archiveStartTime == Some(start)
    ensures info.archiveEndTime == None && info.compressionMethod == None && info.archiveFileSizeBytes == 0
  {
    info := new ArchiveInfo();
    info.SetArchiveFileName(archiveFileName);
    info.SetArchiveFilePath(Some(outputZipPath));
    info.SetArchiveStartTime(Some(start));
  }

  /**
   * createArchive: records the archive's name, path and start time, checks
   * the input directory, and writes one entry per ".txt" file. With no such
   * file it returns at once: no archive, no end time, no compression method.
   */
  method CreateArchive(fs: FileSystem, zip: ZipFormat, inputDirectory: string, outputZipPath: string,
                       thread: string, start: Instant, end: Instant)
    returns (r: Result<ArchiveInfo>)
    requires fs.Valid()
    modifies fs`files, fs`order, fs`dirs
    ensures fs.Valid()
    ensures var out, dir := ParsePath(outputZipPath), ParsePath(inputDirectory);
            && (FileName(out).None? ==>
                  r.Err? && r.error.kind == Other("NullPointerException") && unchanged(fs))
            && (FileName(out).Some? && !old(fs.Exists(dir)) ==>
                  r == Err(Raise(DirectoryNotFound, "Input directory not found: " + inputDirectory)) && unchanged(fs))
            && (FileName(out).Some? && old(fs.Exists(dir)) && !old(fs.IsDirectory(dir)) ==>
                  r == Err(Raise(DirectoryAccess, "Path is not a directory: " + inputDirectory)) && unchanged(fs))
    ensures var out, dir := ParsePath(outputZipPath), ParsePath(inputDirectory);
            old(fs.IsDirectory(dir)) && dir !in fs.faulty && old(fs.TxtFilesIn(dir)) == [] && FileName(out).Some? ==>
              && r.Ok? && unchanged(fs)
              && r.value.archivedFileNames == Some([]) && r.value.archivedFileCount == 0
              && r.value.archiveEndTime == None && r.value.compressionMethod == None
              && r.value.archiveFileSizeBytes == 0
    ensures old(fs.dirs) <= fs.dirs
    ensures r.Ok? ==> old(fs.IsDirectory(ParsePath(inputDirectory))) && ParsePath(inputDirectory) !in fs.faulty
    ensures r.Ok? ==>
              var out, dir := ParsePath(outputZipPath), ParsePath(inputDirectory);
              var listing := old(fs.TxtFilesIn(dir));
              && fresh(r.value)
              && (forall k :: 0 <= k < |listing| ==> listing[k].names != [])
              && r.value.archiveFileName == FileName(out)
              && r.value.archiveFilePath == Some(outputZipPath)
              && r.value.archiveStartTime == Some(start)
              && r.value.CountMatchesList()
              && (listing != [] ==>
                    && (forall k :: 0 <= k < |listing| ==> listing[k] in old(fs.files)[out := []])
                    && r.value.archivedFileNames == Some(BaseNames(listing))
                    && fs.files == old(fs.files)[out := zip.pack(ArchiveEntries(listing, old(fs.files)[out := []]))]
                    && r.value.archiveFileSizeBytes == FileLength(fs.files[out])
                    && r.value.compressionMethod == Some("ZIP")
                    && r.value.threadName == Some(thread)
                    && r.value.archiveEndTime == Some(end)
                    && r.value.archiveProcessingTimeNanos == end - start)
    ensures var out, dir := ParsePath(outputZipPath), ParsePath(inputDirectory);
            && old(fs.IsDirectory(dir)) && dir !in fs.faulty && old(ArchiveWritable(fs, out))
            && (forall p :: p in old(fs.TxtFilesIn(dir)) ==> p !in fs.faulty)
            && DurationNanos(start, end).Ok?
            ==> r.Ok?
    ensures r.Err? ==>
              r.error.kind in ArchiveFailureKinds
  {
    var out := ParsePath(outputZipPath);
    var archiveFileName := FileName(out);
    if archiveFileName.None? {
      return Err(Raise(Other("NullPointerException"), ""));
    }
    var info := StartArchiveInfo(archiveFileName, outputZipPath, start);
    var archived := ArchiveDirectory(fs, zip, info, inputDirectory, out, thread, end);
    if archived.Fail? {
      return Err(archived.error);
    }
    return Ok(info);
  }

  /**
   * createArchive from the input directory check on: lists the ".txt" files
   * and, when there are any, archives them and records the archive in `info`.
   */
  method ArchiveDirectory(fs: FileSystem, zip: ZipFormat, info: ArchiveInfo, inputDirectory: string, out: Path,
                          thread: string, end: Instant)
    returns (r: Outcome)
    requires fs.Valid()
    modifies fs`files, fs`order, fs`dirs
    modifies info`archiveFileSizeBytes, info`archivedFileNames, info`archivedFileCount, info`compressionMethod,
           info`threadName, info`archiveEndTime, info`archiveProcessingTimeNanos
    ensures fs.Valid()
    ensures var dir := ParsePath(inputDirectory);
            && (!old(fs.Exists(dir)) ==>
                  r == Fail(Raise(DirectoryNotFound, "Input directory not found: " + inputDirectory)) && unchanged(fs))
            && (old(fs.Exists(dir)) && !old(fs.IsDirectory(dir)) ==>
                  r == Fail(Raise(DirectoryAccess, "Path is not a directory: " + inputDirectory)) && unchanged(fs))
    ensures var dir := ParsePath(inputDirectory);
            old(fs.IsDirectory(dir)) && dir !in fs.faulty && old(fs.TxtFilesIn(dir)) == [] ==>
              && r.Pass? && unchanged(fs)
              && info.archivedFileNames == Some([]) && info.archivedFileCount == 0
              && info.archiveEndTime == old(info.archiveEndTime)
              && info.compressionMethod == old(info.compressionMethod)
              && info.archiveFileSizeBytes == old(info.archiveFileSizeBytes)
    ensures old(fs.dirs) <= fs.dirs
    ensures r.Pass? ==> old(fs.IsDirectory(ParsePath(inputDirectory))) && ParsePath(inputDirectory) !in fs.faulty
    ensures r.Pass? ==>
              var listing := old(fs.TxtFilesIn(ParsePath(inputDirectory)));
              && (forall k :: 0 <= k < |listing| ==> listing[k].names != [])
              && info.CountMatchesList()
              && (listing != [] ==>
                    && (forall k :: 0 <= k < |listing| ==> listing[k] in old(fs.files)[out := []])
                    && info.archivedFileNames == Some(BaseNames(listing))
                    && fs.files == old(fs.files)[out := zip.pack(ArchiveEntries(listing, old(fs.files)[out := []]))]
                    && info.archiveFileSizeBytes == FileLength(fs.files[out])
                    && info.compressionMethod == Some("ZIP")
                    && info.threadName == Some(thread)
                    && info.archiveEndTime == Some(end)
                    && (info.archiveStartTime.Some? ==>
                          DurationNanos(info.archiveStartTime.value, end).Ok? &&
                          info.archiveProcessingTimeNanos == DurationNanos(info.archiveStartTime.value, end).value))
    ensures var dir := ParsePath(inputDirectory);
            && old(fs.IsDirectory(dir)) && dir !in fs.faulty && old(ArchiveWritable(fs, out))
            && (forall p :: p in old(fs.TxtFilesIn(dir)) ==> p !in fs.faulty)
            && (old(info.archiveStartTime).Some? ==> DurationNanos(old(info.archiveStartTime).value, end).Ok?)
            ==> r.Pass?
    ensures r.Fail? ==>
              r.error.kind in DirectoryFailureKinds
  {
    var dir := ParsePath(inputDirectory);
    if !fs.Exists(dir) {
      return Fail(Raise(DirectoryNotFound, "Input directory not found: " + inputDirectory));
    }
    var found := FindTxtFiles(fs, inputDirectory);
    if found.Err? {
      return Fail(found.error);
    }
    var txtFiles := found.value;
    info.SetArchivedFileNames(Some([]));
    if txtFiles == [] {
      return Pass;
    }
    ListedBaseNamesDistinct(fs, dir);
    r := ArchiveFiles(fs, zip, info, out, txtFiles, thread, end);
  }

  /**
   * createArchive from the output directory on, for a non-empty list of
   * files: creates the output directory, writes the archive and records it.
   */
  method ArchiveFiles(fs: FileSystem, zip: ZipFormat, info: ArchiveInfo, out: Path, files: seq<Path>,
                      thread: string, end: Instant)
    returns (r: Outcome)
    requires fs.Valid()
    requires forall k :: 0 <= k < |files| ==> files[k].names != []
    modifies fs`files, fs`order, fs`dirs
    modifies info`archiveFileSizeBytes, info`archivedFileNames, info`archivedFileCount, info`compressionMethod,
           info`threadName, info`archiveEndTime, info`archiveProcessingTimeNanos
    ensures fs.Valid()
    ensures old(fs.dirs) <= fs.dirs
    ensures r.Fail? ==> r.error.kind in WriteFailureKinds
    ensures r.Pass? ==>
              var contents := old(fs.files)[out := []];
              && (forall k :: 0 <= k < |files| ==> files[k] in contents)
              && fs.files == old(fs.files)[out := zip.pack(ArchiveEntries(files, contents))]
              && info.archiveFileSizeBytes == FileLength(fs.files[out])
              && info.archivedFileNames == Some(BaseNames(files)) && info.CountMatchesList()
              && info.compressionMethod == Some("ZIP") && info.threadName == Some(thread)
              && info.archiveEndTime == Some(end)
              && (info.archiveStartTime.Some? ==>
                    DurationNanos(info.archiveStartTime.value, end).Ok? &&
                    info.archiveProcessingTimeNanos == DurationNanos(info.archiveStartTime.value, end).value)
    ensures && old(ArchiveWritable(fs, out))
            && (forall k :: 0 <= k < |files| ==> files[k] in old(fs.files)[out := []] && files[k] !in fs.faulty)
            && (old(info.archiveStartTime).Some? ==> DurationNanos(old(info.archiveStartTime).value, end).Ok?)
            ==> r.Pass?
  {
    var prepared := PrepareOutputDirectory(fs, out);
    if prepared.Fail? {
      return prepared;
    }
    var archived := WriteArchive(fs, zip, out, files);
    if archived.Err? {
      return Fail(archived.error);
    }
    r := RecordArchive(info, FileLength(fs.files[out]), archived.value, thread, end);
  }
}

=== FILE: common.dfy ===
/**
 * Vocabulary shared by every service of the file analyzer backend: optional
 * values, results that carry a typed error, the exception taxonomy collapsed
 * into one datatype, and Java's fixed-width integers.
 */
module Common {

  /** A reference that may be null. */
  datatype Option<+T> = None | Some(value: T)

  /** Which exception class was thrown. */
  datatype ErrorKind =
    | FileAnalyzer             // a FileAnalyzerException of no more specific class
    | DirectoryNotFound
    | DirectoryAccess
    | FileNotFound
    | InvalidFileType
    | FileProcessing
    | ArchiveCreation
    | ArchiveExtraction
    | InvalidArchive
    | ThreadExecution
    | ThreadInterrupted
    | NoContent                // extends RuntimeException directly, not FileAnalyzerException
    | Other(className: string) // any exception that is not one of the application's own
  {
    /** The subclasses of FileAnalyzerException (every typed kind except NoContent). */
    predicate IsFileAnalyzerException() {
      !(NoContent? || Other?)
    }
  }

  /** A thrown exception: its class, its message and the exception it wraps. */
  datatype Error = Error(kind: ErrorKind, message: string, cause: Option<Error>)

  /** An exception without a cause. */
  function Raise(kind: ErrorKind, message: string): (e: Error)
    ensures e.kind == kind && e.message == message && e.cause == None
  {
    Error(kind, message, None)
  }

  /** A method's outcome: its return value, or the exception it throws. */
  datatype Result<+T> = Ok(value: T) | Err(error: Error) {
    predicate IsFailure() {
      Err?
    }

    function PropagateFailure<U>(): Result<U>
      requires Err?
    {
      Err(error)
    }

    function Extract(): T
      requires Ok?
    {
      value
    }
  }

  /** A method that returns void: it completes, or it throws. */
  datatype Outcome = Pass | Fail(error: Error)

  // Java's primitive integer widths.
  const INT_MIN: int := -0x8000_0000
  const INT_MAX: int := 0x7FFF_FFFF
  const LONG_MIN: int := -0x8000_0000_0000_0000
  const LONG_MAX: int := 0x7FFF_FFFF_FFFF_FFFF
  const TWO_32: int := 0x1_0000_0000
  const TWO_64: int := 0x1_0000_0000_0000_0000

  /** A Java `int`. */
  type int32 = x: int | INT_MIN <= x <= INT_MAX

  /** A Java `long`. */
  type int64 = x: int | LONG_MIN <= x <= LONG_MAX

  /** An unsigned byte as read from a file. */
  type byte = x: int | 0 <= x < 256

  type Bytes = seq<byte>

  /** Two's-complement wrap-around of an `int` addition (or an `(int)` cast). */
  function Int32(x: int): (r: int32)
    ensures INT_MIN <= x <= INT_MAX ==> r == x
    ensures (r - x) % TWO_32 == 0
  {
    (x - INT_MIN) % TWO_32 + INT_MIN
  }

  /** Two's-complement wrap-around of a `long` addition. */
  function Int64(x: int): (r: int64)
    ensures LONG_MIN <= x <= LONG_MAX ==> r == x
    ensures (r - x) % TWO_64 == 0
  {
    (x - LONG_MIN) % TWO_64 + LONG_MIN
  }

  /** Adding to an already wrapped `int` accumulator wraps the exact sum. */
  lemma Int32AddWrapped(a: int, b: int)
    ensures Int32(Int32(a) + b) == Int32(a + b)
  {
    var q := (a - INT_MIN) / TWO_32;
    assert Int32(a) == a - q * TWO_32;
  }

  /** Adding to an already wrapped `long` accumulator wraps the exact sum. */
  lemma Int64AddWrapped(a: int, b: int)
    ensures Int64(Int64(a) + b) == Int64(a + b)
  {
    var q := (a - LONG_MIN) / TWO_64;
    assert Int64(a) == a - q * TWO_64;
  }

  /** Updating after a merge is merging the updated map. */
  lemma MergeThenUpdate<K, V>(m: map<K, V>, n: map<K, V>, k: K, v: V)
    ensures m + n[k := v] == (m + n)[k := v]
  {
  }

  /** Merging is associative. */
  lemma MergeAssociative<K, V>(a: map<K, V>, b: map<K, V>, c: map<K, V>)
    ensures a + (b + c) == (a + b) + c
  {
  }
}

=== FILE: entity.dfy ===
/**
 * The three mutable records the services fill in: the statistics of one
 * analysed file, the aggregate over all files, and the report of one
 * archiving run. Each is a class whose setters update its fields in place;
 * some setters derive a second field from the first.
 */
module Entity {
  import opened Common

  /** A LocalDateTime, as nanoseconds on a single time line. */
  type Instant = int

  /** Duration.between(start, end).toNanos(), which throws when the span does not fit a `long`. */
  function DurationNanos(start: Instant, end: Instant): (r: Result<int64>)
    ensures r.Ok? <==> LONG_MIN <= end - start <= LONG_MAX
    ensures r.Ok? ==> start + r.value == end
    ensures r.Err? ==> r.error.kind == Other("ArithmeticException")
  {
    if LONG_MIN <= end - start <= LONG_MAX then Ok(end - start)
    else Err(Raise(Other("ArithmeticException"), "long overflow"))
  }

  /** List.size() of a list that may be null; a list never reports more than Integer.MAX_VALUE. */
  function SizeOf<T>(list: Option<seq<T>>): (n: int32)
    ensures n >= 0
    ensures list.Some? && |list.value| <= INT_MAX ==> n == |list.value|
    ensures list.None? ==> n == 0
  {
    match list
    case None => 0
    case Some(l) => if |l| <= INT_MAX then |l| else INT_MAX
  }

  /** The statistics of one analysed file. */
  class FileStats {
    var fileName: Option<string>
    var lineCount: int32
    var characterCount: int32
    var processingTimeNanos: int64
    var processingStartTime: Option<Instant>
    var processingEndTime: Option<Instant>
    var threadName: Option<string>
    var processingCompleted: bool

    /** A record not yet completed: every field null, zero or false. */
    constructor ()
      ensures fileName == None && lineCount == 0 && characterCount == 0
      ensures processingTimeNanos == 0 && processingStartTime == None && processingEndTime == None
      ensures threadName == None && !processingCompleted
    {
      fileName := None;
      lineCount := 0;
      characterCount := 0;
      processingTimeNanos := 0;
      processingStartTime := None;
      processingEndTime := None;
      threadName := None;
      processingCompleted := false;
    }

    /** A completed record with its counts. */
    constructor WithCounts(fileName: Option<string>, lineCount: int32, characterCount: int32)
      ensures this.fileName == fileName && this.lineCount == lineCount && this.characterCount == characterCount
      ensures processingTimeNanos == 0 && processingStartTime == None && processingEndTime == None
      ensures threadName == None && processingCompleted
    {
      this.fileName := fileName;
      this.lineCount := lineCount;
      this.characterCount := characterCount;
      processingTimeNanos := 0;
      processingStartTime := None;
      processingEndTime := None;
      threadName := None;
      processingCompleted := true;
    }

    /** A completed record with its counts, its duration and the thread that produced it. */
    constructor WithTiming(fileName: Option<string>, lineCount: int32, characterCount: int32,
                           processingTimeNanos: int64, threadName: Option<string>)
      ensures this.fileName == fileName && this.lineCount == lineCount && this.characterCount == characterCount
      ensures this.processingTimeNanos == processingTimeNanos && this.threadName == threadName
      ensures processingStartTime == None && processingEndTime == None && processingCompleted
    {
      this.fileName := fileName;
      this.lineCount := lineCount;
      this.characterCount := characterCount;
      this.processingTimeNanos := processingTimeNanos;
      processingStartTime := None;
      processingEndTime := None;
      this.threadName := threadName;
      processingCompleted := true;
    }

    method SetFileName(fileName: Option<string>)
      modifies this`fileName
      ensures this.fileName == fileName
    {
      this.fileName := fileName;
    }

    method SetLineCount(lineCount: int32)
      modifies this`lineCount
      ensures this.lineCount == lineCount
    {
      this.lineCount := lineCount;
    }

    method SetCharacterCount(characterCount: int32)
      modifies this`characterCount
      ensures this.characterCount == characterCount
    {
      this.characterCount := characterCount;
    }

    method SetProcessingTimeNanos(nanos: int64)
      modifies this`processingTimeNanos
      ensures processingTimeNanos == nanos
    {
      processingTimeNanos := nanos;
    }

    method SetProcessingStartTime(start: Option<Instant>)
      modifies this`processingStartTime
      ensures processingStartTime == start
    {
      processingStartTime := start;
    }

    /**
     * Stores the end time and, when a start time is present, the duration
     * between the two; the end time is stored even when the duration then
     * overflows.
     */
    method SetProcessingEndTime(end: Instant) returns (r: Outcome)
      modifies this`processingEndTime, this`processingTimeNanos
      ensures processingEndTime == Some(end)
      ensures processingStartTime.None? ==> r == Pass && processingTimeNanos == old(processingTimeNanos)
      ensures processingStartTime.Some? ==>
        match DurationNanos(processingStartTime.value, end)
        case Ok(n) => r == Pass && processingTimeNanos == n
        case Err(e) => r == Fail(e) && processingTimeNanos == old(processingTimeNanos)
    {
      processingEndTime := Some(end);
      r := Pass;
      if processingStartTime.Some? {
        var d := DurationNanos(processingStartTime.value, end);
        match d
        case Ok(n) => processingTimeNanos := n;
        case Err(e) => r := Fail(e);
      }
    }

    method SetThreadName(threadName: Option<string>)
      modifies this`threadName
      ensures this.threadName == threadName
    {
      this.threadName := threadName;
    }

    method SetProcessingCompleted(completed: bool)
      modifies this`processingCompleted
      ensures processingCompleted == completed
    {
      processingCompleted := completed;
    }
  }

  /** The aggregate over all analysed files. */
  class AnalysisResult {
    var fileStatsList: Option<seq<FileStats>>
    var totalLineCount: int32
    var totalCharacterCount: int32
    var totalProcessedFiles: int32
    var totalProcessingTimeNanos: int64
    var analysisStartTime: Option<Instant>
    var analysisEndTime: Option<Instant>
    var failedFileCount: int32
    var successfulFileCount: int32

    /** The processed-file count is the size of the list, as the list setter keeps it. */
    predicate CountMatchesList()
      reads this
    {
      totalProcessedFiles == SizeOf(fileStatsList)
    }

    /** An empty aggregate: no list, every counter zero. */
    constructor ()
      ensures fileStatsList == None && totalLineCount == 0 && totalCharacterCount == 0
      ensures totalProcessedFiles == 0 && totalProcessingTimeNanos == 0
      ensures analysisStartTime == None && analysisEndTime == None
      ensures failedFileCount == 0 && successfulFileCount == 0
      ensures CountMatchesList()
    {
      fileStatsList := None;
      totalLineCount := 0;
      totalCharacterCount := 0;
      totalProcessedFiles := 0;
      totalProcessingTimeNanos := 0;
      analysisStartTime := None;
      analysisEndTime := None;
      failedFileCount := 0;
      successfulFileCount := 0;
    }

    /** An aggregate over a list: the processed-file count is the list's size. */
    constructor FromList(list: Option<seq<FileStats>>)
      ensures fileStatsList == list && totalProcessedFiles == SizeOf(list)
      ensures totalLineCount == 0 && totalCharacterCount == 0 && totalProcessingTimeNanos == 0
      ensures analysisStartTime == None && analysisEndTime == None
      ensures failedFileCount == 0 && successfulFileCount == 0
      ensures CountMatchesList()
    {
      fileStatsList := list;
      totalLineCount := 0;
      totalCharacterCount := 0;
      totalProcessedFiles := SizeOf(list);
      totalProcessingTimeNanos := 0;
      analysisStartTime := None;
      analysisEndTime := None;
      failedFileCount := 0;
      successfulFileCount := 0;
    }

    /** Replaces the list and recomputes the processed-file count from it. */
    method SetFileStatsList(list: Option<seq<FileStats>>)
      modifies this`fileStatsList, this`totalProcessedFiles
      ensures fileStatsList == list && totalProcessedFiles == SizeOf(list)
      ensures CountMatchesList()
    {
      fileStatsList := list;
      totalProcessedFiles := SizeOf(list);
    }

    method SetTotalLineCount(n: int32)
      modifies this`totalLineCount
      ensures totalLineCount == n
    {
      totalLineCount := n;
    }

    method SetTotalCharacterCount(n: int32)
      modifies this`totalCharacterCount
      ensures totalCharacterCount == n
    {
      totalCharacterCount := n;
    }

    /** Overwrites the count alone: the list is left as it is. */
    method SetTotalProcessedFiles(n: int32)
      modifies this`totalProcessedFiles
      ensures totalProcessedFiles == n
      ensures CountMatchesList() <==> n == SizeOf(fileStatsList)
    {
      totalProcessedFiles := n;
    }

    method SetTotalProcessingTimeNanos(nanos: int64)
      modifies this`totalProcessingTimeNanos
      ensures totalProcessingTimeNanos == nanos
    {
      totalProcessingTimeNanos := nanos;
    }

    method SetAnalysisStartTime(start: Option<Instant>)
      modifies this`analysisStartTime
      ensures analysisStartTime == start
    {
      analysisStartTime := start;
    }

    /** Stores the end time and, when a start time is present, the total duration. */
    method SetAnalysisEndTime(end: Instant) returns (r: Outcome)
      modifies this`analysisEndTime, this`totalProcessingTimeNanos
      ensures analysisEndTime == Some(end)
      ensures analysisStartTime.None? ==> r == Pass && totalProcessingTimeNanos == old(totalProcessingTimeNanos)
      ensures analysisStartTime.Some? ==>
        match DurationNanos(analysisStartTime.value, end)
        case Ok(n) => r == Pass && totalProcessingTimeNanos == n
        case Err(e) => r == Fail(e) && totalProcessingTimeNanos == old(totalProcessingTimeNanos)
    {
      analysisEndTime := Some(end);
      r := Pass;
      if analysisStartTime.Some? {
        var d := DurationNanos(analysisStartTime.value, end);
        match d
        case Ok(n) => totalProcessingTimeNanos := n;
        case Err(e) => r := Fail(e);
      }
    }

    method SetFailedFileCount(n: int32)
      modifies this`failedFileCount
      ensures failedFileCount == n
    {
      failedFileCount := n;
    }

    method SetSuccessfulFileCount(n: int32)
      modifies this`successfulFileCount
      ensures successfulFileCount == n
    {
      successfulFileCount := n;
    }
  }

  /** The report of one archiving run. */
  class ArchiveInfo {
    var archiveFileName: Option<string>
    var archiveFilePath: Option<string>
    var archivedFileNames: Option<seq<string>>
    var archiveFileSizeBytes: int64
    var archivedFileCount: int32
    var archiveStartTime: Option<Instant>
    var archiveEndTime: Option<Instant>
    var archiveProcessingTimeNanos: int64
    var threadName: Option<string>
    var compressionMethod: Option<string>

    /** The archived-file count is the size of the name list, as the list setter keeps it. */
    predicate CountMatchesList()
      reads this
    {
      archivedFileCount == SizeOf(archivedFileNames)
    }

    /** An empty report: no names, size, count and duration zero. */
    constructor ()
      ensures archiveFileName == None && archiveFilePath == None && archivedFileNames == None
      ensures archiveFileSizeBytes == 0 && archivedFileCount == 0 && archiveProcessingTimeNanos == 0
      ensures archiveStartTime == None && archiveEndTime == None
      ensures threadName == None && compressionMethod == None
      ensures CountMatchesList()
    {
      archiveFileName := None;
      archiveFilePath := None;
      archivedFileNames := None;
      archiveFileSizeBytes := 0;
      archivedFileCount := 0;
      archiveStartTime := None;
      archiveEndTime := None;
      archiveProcessingTimeNanos := 0;
      threadName := None;
      compressionMethod := None;
    }

    /** A report naming the archive and where it is written. */
    constructor Named(name: Option<string>, path: Option<string>)
      ensures archiveFileName == name && archiveFilePath == path && archivedFileNames == None
      ensures archiveFileSizeBytes == 0 && archivedFileCount == 0 && archiveProcessingTimeNanos == 0
      ensures archiveStartTime == None && archiveEndTime == None
      ensures threadName == None && compressionMethod == None
      ensures CountMatchesList()
    {
      archiveFileName := name;
      archiveFilePath := path;
      archivedFileNames := None;
      archiveFileSizeBytes := 0;
      archivedFileCount := 0;
      archiveStartTime := None;
      archiveEndTime := None;
      archiveProcessingTimeNanos := 0;
      threadName := None;
      compressionMethod := None;
    }

    /** A named report over a list of archived names: the count is the list's size. */
    constructor WithNames(name: Option<string>, path: Option<string>, names: Option<seq<string>>)
      ensures archiveFileName == name && archiveFilePath == path && archivedFileNames == names
      ensures archivedFileCount == SizeOf(names)
      ensures archiveFileSizeBytes == 0 && archiveProcessingTimeNanos == 0
      ensures archiveStartTime == None && archiveEndTime == None
      ensures threadName == None && compressionMethod == None
      ensures CountMatchesList()
    {
      archiveFileName := name;
      archiveFilePath := path;
      archivedFileNames := names;
      archiveFileSizeBytes := 0;
      archivedFileCount := SizeOf(names);
      archiveStartTime := None;
      archiveEndTime := None;
      archiveProcessingTimeNanos := 0;
      threadName := None;
      compressionMethod := None;
    }

    method SetArchiveFileName(name: Option<string>)
      modifies this`archiveFileName
      ensures archiveFileName == name
    {
      archiveFileName := name;
    }

    method SetArchiveFilePath(path: Option<string>)
      modifies this`archiveFilePath
      ensures archiveFilePath == path
    {
      archiveFilePath := path;
    }

    /** Replaces the name list and recomputes the archived-file count from it. */
    method SetArchivedFileNames(names: Option<seq<string>>)
      modifies this`archivedFileNames, this`archivedFileCount
      ensures archivedFileNames == names && archivedFileCount == SizeOf(names)
      ensures CountMatchesList()
    {
      archivedFileNames := names;
      archivedFileCount := SizeOf(names);
    }

    method SetArchiveFileSizeBytes(size: int64)
      modifies this`archiveFileSizeBytes
      ensures archiveFileSizeBytes == size
    {
      archiveFileSizeBytes := size;
    }

    /** Overwrites the count alone: the name list is left as it is. */
    method SetArchivedFileCount(n: int32)
      modifies this`archivedFileCount
      ensures archivedFileCount == n
      ensures CountMatchesList() <==> n == SizeOf(archivedFileNames)
    {
      archivedFileCount := n;
    }

    method SetArchiveStartTime(start: Option<Instant>)
      modifies this`archiveStartTime
      ensures archiveStartTime == start
    {
      archiveStartTime := start;
    }

    /** Stores the end time and, when a start time is present, the duration. */
    method SetArchiveEndTime(end: Instant) returns (r: Outcome)
      modifies this`archiveEndTime, this`archiveProcessingTimeNanos
      ensures archiveEndTime == Some(end)
      ensures archiveStartTime.None? ==> r == Pass && archiveProcessingTimeNanos == old(archiveProcessingTimeNanos)
      ensures archiveStartTime.Some? ==>
        match DurationNanos(archiveStartTime.value, end)
        case Ok(n) => r == Pass && archiveProcessingTimeNanos == n
        case Err(e) => r == Fail(e) && archiveProcessingTimeNanos == old(archiveProcessingTimeNanos)
    {
      archiveEndTime := Some(end);
      r := Pass;
      if archiveStartTime.Some? {
        var d := DurationNanos(archiveStartTime.value, end);
        match d
        case Ok(n) => archiveProcessingTimeNanos := n;
        case Err(e) => r := Fail(e);
      }
    }

    method SetArchiveProcessingTimeNanos(nanos: int64)
      modifies this`archiveProcessingTimeNanos
      ensures archiveProcessingTimeNanos == nanos
    {
      archiveProcessingTimeNanos := nanos;
    }

    method SetThreadName(threadName: Option<string>)
      modifies this`threadName
      ensures this.threadName == threadName
    {
      this.threadName := threadName;
    }

    method SetCompressionMethod(compressionMethod: Option<string>)
      modifies this`compressionMethod
      ensures this.compressionMethod == compressionMethod
    {
      this.compressionMethod := compressionMethod;
    }
  }

  /** The processed-file counter can be set out of step with the list it counts. */
  method ProcessedCountCanDrift() returns (r: AnalysisResult)
    ensures r.fileStatsList == Some([]) && r.totalProcessedFiles == 1
    ensures !r.CountMatchesList()
  {
    r := new AnalysisResult.FromList(Some([]));
    r.SetTotalProcessedFiles(1);
  }

  /** The archived-file counter can be set out of step with the name list it counts. */
  method ArchivedCountCanDrift() returns (r: ArchiveInfo)
    ensures r.archivedFileNames == Some(["a.txt"]) && r.archivedFileCount == 0
    ensures !r.CountMatchesList()
  {
    r := new ArchiveInfo.WithNames(None, None, Some(["a.txt"]));
    r.SetArchivedFileCount(0);
  }
}

=== FILE: exception_handler.dfy ===
/**
 * GlobalExceptionHandler: the HTTP status and error body that answer an
 * exception, chosen by the most specific handler for its class.
 */
module ExceptionHandler {
  import opened Common
  import FileAnalysis

  const NO_CONTENT := 204
  const BAD_REQUEST := 400
  const NOT_FOUND := 404
  const INTERNAL_SERVER_ERROR := 500

  /** The message of the catch-all handler, which hides the exception's own. */
  const GENERIC_MESSAGE := "An unexpected error occurred. Please try again later."

  /** ErrorResponse without its timestamp: the status it reports and its message. */
  datatype ErrorResponse = ErrorResponse(status: int, message: string)

  /** A ResponseEntity: the response status and its body. */
  datatype Reply = Reply(status: int, body: ErrorResponse)

  /** The status of the handler Spring selects for an exception of kind `k`. */
  function StatusOf(k: ErrorKind): (s: int)
    ensures s == NOT_FOUND <==> k == FileNotFound || k == DirectoryNotFound
    ensures s == BAD_REQUEST <==> k == InvalidFileType || k == InvalidArchive || k == FileAnalyzer
    ensures s == NO_CONTENT <==> k == NoContent
    ensures s == INTERNAL_SERVER_ERROR <==>
              k in {FileProcessing, ArchiveCreation, ArchiveExtraction, DirectoryAccess,
                    ThreadExecution, ThreadInterrupted} || k.Other?
  {
    match k
    case FileNotFound => NOT_FOUND
    case DirectoryNotFound => NOT_FOUND
    case InvalidFileType => BAD_REQUEST
    case InvalidArchive => BAD_REQUEST
    case FileAnalyzer => BAD_REQUEST
    case FileProcessing => INTERNAL_SERVER_ERROR
    case ArchiveCreation => INTERNAL_SERVER_ERROR
    case ArchiveExtraction => INTERNAL_SERVER_ERROR
    case DirectoryAccess => INTERNAL_SERVER_ERROR
    case ThreadExecution => INTERNAL_SERVER_ERROR
    case ThreadInterrupted => INTERNAL_SERVER_ERROR
    case NoContent => NO_CONTENT
    case Other(_) => INTERNAL_SERVER_ERROR
  }

  /**
   * The handler for `e`. The body reports the same status as the response.
   * A typed handler passes the exception's message on. The catch-all handler
   * replaces it with a fixed one.
   */
  function Handle(e: Error): (r: Reply)
    ensures r.status == r.body.status == StatusOf(e.kind)
    ensures !e.kind.Other? ==> r.body.message == e.message
    ensures e.kind.Other? ==> r.status == INTERNAL_SERVER_ERROR && r.body.message == GENERIC_MESSAGE
  {
    var status := StatusOf(e.kind);
    Reply(status, ErrorResponse(status, if e.kind.Other? then GENERIC_MESSAGE else e.message))
  }

  /**
   * Whatever processFile throws from its try block reaches the client with
   * its own message, because the catch blocks leave only application
   * exceptions.
   */
  lemma ProcessingErrorsKeepTheirMessage(e: Error)
    ensures Handle(FileAnalysis.Propagate(e)).body.message == FileAnalysis.Propagate(e).message
    ensures Handle(FileAnalysis.Propagate(e)).status != NO_CONTENT
  {
  }

  /**
   * A null list of paths, as written, reaches the client as the generic 500.
   * As intended, a missing directory is answered 404 with its own message.
   */
  lemma NullListReply()
    ensures Handle(FileAnalysis.ValidateAsWritten(None, false, "in").error).body.message == GENERIC_MESSAGE
    ensures Handle(FileAnalysis.Validate(None, false, "in").error).status == NOT_FOUND
    ensures Handle(FileAnalysis.Validate(None, false, "in").error).body.message == "Input directory not found: in"
  {
    FileAnalysis.NullListCounterexample();
  }
}

=== FILE: file_analysis.dfy ===
/**
 * FileAnalysisService: the checks made before any task is submitted, the
 * order of the stages, and how an exception thrown by a stage reaches the
 * caller.
 */
module FileAnalysis {
  import opened Common
  import opened Paths
  import opened Storage
  import opened Entity
  import opened FileProcessing
  import opened ArchiveService
  import opened ThreadManagement

  /** FileAnalysisResponseDto: the awaited aggregation result and archive record. */
  datatype Response = Response(totalResult: AnalysisResult, archiveInfo: ArchiveInfo)

  /**
   * The environment of one call: the clock reading that starts the analysis,
   * the run of each analysis task, the aggregation's clock reading, the run of
   * the archive task, and which submissions are refused and which waits are
   * interrupted.
   */
  datatype Schedule = Schedule(
    analysisStart: Instant,
    runs: seq<TaskRun>,
    submissionInterrupted: bool,
    aggregationRejected: bool,
    aggregationEnd: Instant,
    archiveRejected: bool,
    archiveRun: TaskRun,
    aggregationWaitInterrupted: bool,
    archiveWaitInterrupted: bool)

  /** A future as a wait finds it when the waiting thread is interrupted, or not. */
  function WaitedOn<T>(f: Future<T>, interrupted: bool): Future<T> {
    if interrupted then Interrupted else f
  }

  /**
   * The checks before the try block, as written. The first log statement reads
   * the list's size, so a null list throws NullPointerException before either
   * check runs.
   */
  function ValidateAsWritten(filePaths: Option<seq<Path>>, directoryExists: bool, inputDirectory: string)
    : (r: Outcome)
    ensures filePaths.None? ==> r.Fail? && r.error.kind == Other("NullPointerException")
  {
    if filePaths.None? then Fail(Raise(Other("NullPointerException"), ""))
    else if !directoryExists then Fail(Raise(DirectoryNotFound, "Input directory not found: " + inputDirectory))
    else if filePaths.value == [] then Fail(Raise(FileProcessing, "No files provided for processing"))
    else Pass
  }

  /**
   * The checks before the try block, as intended. The directory is checked
   * first, then the list, and a null list counts as an empty one.
   */
  function Validate(filePaths: Option<seq<Path>>, directoryExists: bool, inputDirectory: string): (r: Outcome)
    ensures r.Pass? <==> directoryExists && filePaths.Some? && filePaths.value != []
    ensures !directoryExists ==> r == Fail(Raise(DirectoryNotFound, "Input directory not found: " + inputDirectory))
    ensures directoryExists && (filePaths.None? || filePaths.value == []) ==>
              r == Fail(Raise(FileProcessing, "No files provided for processing"))
  {
    if !directoryExists then Fail(Raise(DirectoryNotFound, "Input directory not found: " + inputDirectory))
    else if filePaths.None? || filePaths.value == [] then Fail(Raise(FileProcessing, "No files provided for processing"))
    else Pass
  }

  /** For a list that is present, the checks as written and as intended agree. */
  lemma ValidateAgrees(filePaths: Option<seq<Path>>, directoryExists: bool, inputDirectory: string)
    requires filePaths.Some?
    ensures ValidateAsWritten(filePaths, directoryExists, inputDirectory) == Validate(filePaths, directoryExists, inputDirectory)
  {
  }

  /**
   * A null list with a missing directory. As written, the call throws
   * NullPointerException, which is not a FileAnalyzerException. As intended,
   * it reports the missing directory.
   */
  lemma NullListCounterexample()
    ensures ValidateAsWritten(None, false, "in").Fail?
    ensures ValidateAsWritten(None, false, "in").error.kind == Other("NullPointerException")
    ensures Validate(None, false, "in").error.kind == DirectoryNotFound
    ensures !ValidateAsWritten(None, true, "in").error.kind.IsFileAnalyzerException()
    ensures Validate(None, true, "in").error.kind == FileProcessing
  {
  }

  /**
   * The catch blocks of processFile. A FileAnalyzerException is rethrown
   * unchanged. Any other exception is wrapped as FileProcessing, which
   * carries it as its cause.
   */
  function Propagate(e: Error): (r: Error)
    ensures r.kind.IsFileAnalyzerException()
    ensures e.kind.IsFileAnalyzerException() <==> r == e
    ensures !e.kind.IsFileAnalyzerException() ==> r.kind == FileProcessing && r.cause == Some(e)
  {
    if e.kind.IsFileAnalyzerException() then e
    else Error(FileProcessing, "File processing failed: " + e.message, Some(e))
  }

  /** Propagating twice changes nothing more than propagating once. */
  lemma PropagateIdempotent(e: Error)
    ensures Propagate(Propagate(e)) == Propagate(e)
  {
  }

  /** The analysis of `p`, run as `run`, yields a record: the checks and counts succeed, and so does the duration. */
  ghost predicate Analyzable(fs: FileSystem, decode: Decoder, p: Path, run: TaskRun)
    reads fs
  {
    Analyze(fs, decode, p).Ok? && DurationNanos(run.start, run.end).Ok?
  }

  /**
   * The first two stages: submit one analysis task per path, then wait for
   * all of them in order. The records come back in path order. Any failed
   * analysis ends the stage with ThreadExecution.
   */
  method AnalyzeAll(fs: FileSystem, decode: Decoder, paths: seq<Path>, runs: seq<TaskRun>, interrupted: bool)
    returns (r: Result<seq<FileStats>>)
    requires |runs| == |paths|
    ensures interrupted ==> r.Err? && r.error.kind == ThreadInterrupted
    ensures !interrupted ==> (r.Ok? <==> forall i :: 0 <= i < |paths| ==> Analyzable(fs, decode, paths[i], runs[i]))
    ensures !interrupted && r.Err? ==> r.error.kind == ThreadExecution
    ensures r.Ok? ==>
              && |r.value| == |paths|
              && forall i :: 0 <= i < |paths| ==>
                   && r.value[i].fileName == FileName(paths[i])
                   && r.value[i].lineCount == Analyze(fs, decode, paths[i]).value.lines
                   && r.value[i].characterCount == Analyze(fs, decode, paths[i]).value.characters
                   && r.value[i].processingCompleted
                   && r.value[i].processingTimeNanos == runs[i].end - runs[i].start
  {
    var futures :- SubmitFileAnalysisTasks(fs, decode, paths, runs, interrupted);
    r := WaitForAnalysisCompletion(futures);
    if r.Err? {
      var k :| FirstPending(futures, k) &&
               Err(r.error) == Await(futures[k], "Analysis task was interrupted", "Analysis task execution failed");
      assert !Analyzable(fs, decode, paths[k], runs[k]);
    } else {
      assert forall i :: 0 <= i < |paths| ==> futures[i].Done?;
    }
  }

  /**
   * The try block of processFile. The analysis runs first. The aggregation of
   * exactly the collected records is submitted next, then the archive task,
   * which deletes the sources. Then the aggregation is awaited, then the
   * archive.
   */
  method RunStages(fs: FileSystem, decode: Decoder, zip: ZipFormat, paths: seq<Path>, inputDirectory: string,
                   outputZipPath: string, schedule: Schedule)
    returns (r: Result<Response>)
    requires fs.Valid()
    requires |schedule.runs| == |paths| <= INT_MAX
    modifies fs`files, fs`order, fs`dirs
    ensures fs.Valid()
    ensures r.Err? ==> r.error.kind.IsFileAnalyzerException()
    ensures !schedule.submissionInterrupted &&
            (exists i :: 0 <= i < |paths| && !old(Analyzable(fs, decode, paths[i], schedule.runs[i]))) ==>
              r.Err? && r.error.kind == ThreadExecution && unchanged(fs)
    ensures r.Ok? ==>
              && (forall i :: 0 <= i < |paths| ==> old(Analyzable(fs, decode, paths[i], schedule.runs[i])))
              && r.value.totalResult.fileStatsList.Some?
              && var list := r.value.totalResult.fileStatsList.value;
                 && |list| == |paths|
                 && r.value.totalResult.totalProcessedFiles == |paths|
                 && r.value.totalResult.successfulFileCount == |paths|
                 && r.value.totalResult.failedFileCount == 0
                 && r.value.totalResult.totalLineCount == Int32(Tally(list).lines)
                 && r.value.totalResult.totalCharacterCount == Int32(Tally(list).characters)
                 && r.value.totalResult.totalProcessingTimeNanos == Int64(Tally(list).nanos)
                 && r.value.totalResult.analysisStartTime == Some(schedule.analysisStart)
                 && r.value.totalResult.analysisEndTime == Some(schedule.aggregationEnd)
                 && forall i :: 0 <= i < |paths| ==>
                      && list[i].fileName == FileName(paths[i])
                      && list[i].lineCount == old(Analyze(fs, decode, paths[i])).value.lines
                      && list[i].characterCount == old(Analyze(fs, decode, paths[i])).value.characters
    ensures r.Ok? ==>
              ArchiveTaskEffect(zip, ParsePath(outputZipPath), ParsePath(inputDirectory), fs.faulty, true,
                                old(fs.files), old(fs.TxtFilesIn(ParsePath(inputDirectory))), fs.files, r.value.archiveInfo)
  {
    var list :- AnalyzeAll(fs, decode, paths, schedule.runs, schedule.submissionInterrupted);
    AllCompletedTally(list);
    r := AggregateAndArchive(fs, zip, list, inputDirectory, outputZipPath, schedule);
  }

  /**
   * The stages of processFile after the analysis: the aggregation of `list`
   * and the archive task are submitted, then both are awaited.
   */
  method AggregateAndArchive(fs: FileSystem, zip: ZipFormat, list: seq<FileStats>, inputDirectory: string,
                             outputZipPath: string, schedule: Schedule)
    returns (r: Result<Response>)
    requires fs.Valid()
    requires |list| <= INT_MAX
    modifies fs`files, fs`order, fs`dirs
    ensures fs.Valid()
    ensures r.Err? ==> r.error.kind.IsFileAnalyzerException()
    ensures r.Ok? ==> TotalsRecorded(r.value.totalResult, list, Some(schedule.analysisStart), schedule.aggregationEnd)
    ensures r.Ok? ==>
              ArchiveTaskEffect(zip, ParsePath(outputZipPath), ParsePath(inputDirectory), fs.faulty, true,
                                old(fs.files), old(fs.TxtFilesIn(ParsePath(inputDirectory))), fs.files, r.value.archiveInfo)
  {
    var totalFuture :- SubmitTotalResultCalculationTask(list, Some(schedule.analysisStart), schedule.aggregationEnd,
                                                        schedule.aggregationRejected);
    var archiveFuture :- SubmitArchiveTask(fs, zip, inputDirectory, outputZipPath, true, schedule.archiveRejected,
                                           schedule.archiveRun);
    assert totalFuture.Done? ==>
             TotalsRecorded(totalFuture.value, list, Some(schedule.analysisStart), schedule.aggregationEnd);
    r := AwaitBoth(WaitedOn(totalFuture, schedule.aggregationWaitInterrupted),
                   WaitedOn(archiveFuture, schedule.archiveWaitInterrupted));
  }

  /**
   * The last two waits of processFile: the aggregation first, then the
   * archive. A failed wait on the aggregation ends the call before the
   * archive is awaited. The response pairs exactly the two awaited values.
   */
  function AwaitBoth(totalFuture: Future<AnalysisResult>, archiveFuture: Future<ArchiveInfo>): (r: Result<Response>)
    ensures r.Ok? <==> totalFuture.Done? && archiveFuture.Done?
    ensures r.Ok? ==> r.value == Response(totalFuture.value, archiveFuture.value)
    ensures !totalFuture.Done? ==> r == Err(WaitForTotalResultCalculation(totalFuture).error)
    ensures totalFuture.Done? && !archiveFuture.Done? ==> r == Err(WaitForArchiveCompletion(archiveFuture).error)
    ensures r.Err? ==> r.error.kind.IsFileAnalyzerException()
  {
    var totalResult :- WaitForTotalResultCalculation(totalFuture);
    var archiveInfo :- WaitForArchiveCompletion(archiveFuture);
    Ok(Response(totalResult, archiveInfo))
  }

  /**
   * processFile: the directory and list checks, then the stages. Whatever a
   * stage throws reaches the caller through the catch blocks.
   */
  method ProcessFile(fs: FileSystem, decode: Decoder, zip: ZipFormat, filePaths: Option<seq<Path>>,
                     inputDirectory: string, outputZipPath: string, schedule: Schedule)
    returns (r: Result<Response>)
    requires fs.Valid()
    requires filePaths.Some? ==> |schedule.runs| == |filePaths.value| <= INT_MAX
    modifies fs`files, fs`order, fs`dirs
    ensures fs.Valid()
    ensures !old(fs.Exists(ParsePath(inputDirectory))) ==>
              r == Err(Raise(DirectoryNotFound, "Input directory not found: " + inputDirectory)) && unchanged(fs)
    ensures old(fs.Exists(ParsePath(inputDirectory))) && (filePaths.None? || filePaths.value == []) ==>
              r == Err(Raise(FileProcessing, "No files provided for processing")) && unchanged(fs)
    ensures r.Err? ==> r.error.kind.IsFileAnalyzerException()
    ensures old(fs.Exists(ParsePath(inputDirectory))) && filePaths.Some? && !schedule.submissionInterrupted &&
            (exists i :: 0 <= i < |filePaths.value| &&
                         !old(Analyzable(fs, decode, filePaths.value[i], schedule.runs[i]))) ==>
              r.Err? && r.error.kind == ThreadExecution && unchanged(fs)
    ensures r.Ok? ==>
              && filePaths.Some?
              && (forall i :: 0 <= i < |filePaths.value| ==>
                    old(Analyzable(fs, decode, filePaths.value[i], schedule.runs[i])))
              && r.value.totalResult.fileStatsList.Some?
              && var paths, list := filePaths.value, r.value.totalResult.fileStatsList.value;
                 && |list| == |paths|
                 && r.value.totalResult.totalProcessedFiles == |paths|
                 && r.value.totalResult.successfulFileCount == |paths|
                 && r.value.totalResult.failedFileCount == 0
                 && r.value.totalResult.totalLineCount == Int32(Tally(list).lines)
                 && r.value.totalResult.totalCharacterCount == Int32(Tally(list).characters)
                 && r.value.totalResult.totalProcessingTimeNanos == Int64(Tally(list).nanos)
                 && r.value.totalResult.analysisStartTime == Some(schedule.analysisStart)
                 && r.value.totalResult.analysisEndTime == Some(schedule.aggregationEnd)
                 && forall i :: 0 <= i < |paths| ==>
                      && list[i].fileName == FileName(paths[i])
                      && list[i].lineCount == old(Analyze(fs, decode, paths[i])).value.lines
                      && list[i].characterCount == old(Analyze(fs, decode, paths[i])).value.characters
    ensures r.Ok? ==>
              ArchiveTaskEffect(zip, ParsePath(outputZipPath), ParsePath(inputDirectory), fs.faulty, true,
                                old(fs.files), old(fs.TxtFilesIn(ParsePath(inputDirectory))), fs.files, r.value.archiveInfo)
  {
    var valid := Validate(filePaths, fs.Exists(ParsePath(inputDirectory)), inputDirectory);
    if valid.Fail? {
      return Err(valid.error);
    }
    r := RunStages(fs, decode, zip, filePaths.value, inputDirectory, outputZipPath, schedule);
    if r.Err? {
      r := Err(Propagate(r.error));
    }
  }
}

=== FILE: file_download.dfy ===
/**
 * FileDownloadService: serving a file of the output directory by name,
 * with the checks that keep the request inside that directory, and the
 * Content-Type chosen from the file name.
 */
module FileDownload {
  import opened Common
  import opened Text
  import opened Paths
  import opened Storage

  const OCTET_STREAM := "application/octet-stream"
  const ZIP := "application/zip"
  const TEXT := "text/plain"
  const RAR := "application/x-rar-compressed"

  /** determineContentType: chosen by the lower-cased suffix of the name. */
  function DetermineContentType(filename: Option<string>): (r: string)
    ensures filename.None? ==> r == OCTET_STREAM
    ensures filename.Some? ==>
              var lower := ToLower(filename.value);
              && (r == ZIP <==> EndsWith(lower, ".zip"))
              && (r == TEXT <==> !EndsWith(lower, ".zip") && EndsWith(lower, ".txt"))
              && (r == RAR <==> !EndsWith(lower, ".zip") && !EndsWith(lower, ".txt") && EndsWith(lower, ".rar"))
              && (r == OCTET_STREAM <==>
                    !EndsWith(lower, ".zip") && !EndsWith(lower, ".txt") && !EndsWith(lower, ".rar"))
  {
    match filename
    case None => OCTET_STREAM
    case Some(name) =>
      var lower := ToLower(name);
      if EndsWith(lower, ".zip") then ZIP
      else if EndsWith(lower, ".txt") then TEXT
      else if EndsWith(lower, ".rar") then RAR
      else OCTET_STREAM
  }

  /** The content type does not depend on the case of the name. */
  lemma ContentTypeIgnoresCase(name: string)
    ensures DetermineContentType(Some(name)) == DetermineContentType(Some(ToLower(name)))
  {
    ToLowerIdempotent(name);
  }

  /** An HTTP response: its status, its two headers when present, and the file it serves. */
  datatype DownloadResponse = DownloadResponse(status: int, contentDisposition: Option<string>,
                                               contentType: Option<string>, body: Option<Path>)

  /** A response with a status and nothing else. */
  function Status(status: int): DownloadResponse {
    DownloadResponse(status, None, None, None)
  }

  /**
   * downloadFile. `normalize` is Path.normalize. The existence check comes
   * first, then the containment check on the normalized paths, then the
   * check that the file can be read. An exception gives 500.
   */
  function DownloadFile(fs: FileSystem, outputDirectory: string, filename: string, normalize: Path -> Path)
    : (r: DownloadResponse)
    reads fs
    ensures !(ValidPathString(outputDirectory) && ValidPathString(filename)) <==> r.status == 500
    ensures !(ValidPathString(outputDirectory) && ValidPathString(filename)) ==> r == Status(500)
    ensures r.status in {200, 400, 404, 500}
    ensures r.status != 200 ==> r.contentDisposition.None? && r.contentType.None? && r.body.None?
    ensures ValidPathString(outputDirectory) && ValidPathString(filename) ==>
              var target := Resolve(ParsePath(outputDirectory), ParsePath(filename));
              var normalized := normalize(target);
              && (r.status == 404 <==> !fs.Exists(target) || (StartsWith(normalized, normalize(ParsePath(outputDirectory)))
                                                               && !fs.Readable(normalized)))
              && (r.status == 400 <==> fs.Exists(target) && !StartsWith(normalized, normalize(ParsePath(outputDirectory))))
              && (r.status == 200 <==>
                    fs.Exists(target) && StartsWith(normalized, normalize(ParsePath(outputDirectory))) && fs.Readable(normalized))
              && (r.status == 200 ==>
                    && r.body == Some(normalized)
                    && r.contentDisposition == Some("attachment; filename=\"" + filename + "\"")
                    && r.contentType == Some(DetermineContentType(Some(filename))))
  {
    if !(ValidPathString(outputDirectory) && ValidPathString(filename)) then Status(500)
    else
      var filePath := Resolve(ParsePath(outputDirectory), ParsePath(filename));
      if !fs.Exists(filePath) then Status(404)
      else
        var normalizedFilePath := normalize(filePath);
        var normalizedOutputPath := normalize(ParsePath(outputDirectory));
        if !StartsWith(normalizedFilePath, normalizedOutputPath) then Status(400)
        else if !fs.Readable(normalizedFilePath) then Status(404)
        else DownloadResponse(200, Some("attachment; filename=\"" + filename + "\""),
                              Some(DetermineContentType(Some(filename))), Some(normalizedFilePath))
  }

  /**
   * A file is served only from inside the normalized output directory, and
   * only when it can be read.
   */
  lemma ServedFromOutputDirectory(fs: FileSystem, outputDirectory: string, filename: string, normalize: Path -> Path)
    requires DownloadFile(fs, outputDirectory, filename, normalize).status == 200
    ensures var served := DownloadFile(fs, outputDirectory, filename, normalize).body;
            && served.Some?
            && StartsWith(served.value, normalize(ParsePath(outputDirectory)))
            && fs.Readable(served.value)
  {
  }
}

=== FILE: file_processing.dfy ===
/**
 * FileProcessingService: the analysis of one text file (its line and
 * character counts, after an existence check and an extension check) and
 * the aggregation of many files' statistics into one AnalysisResult.
 */
module FileProcessing {
  import opened Common
  import opened Text
  import opened Paths
  import opened Storage
  import opened Entity

  /** A Java String: at most Integer.MAX_VALUE UTF-16 code units, one `char` each. */
  type JavaString = s: string | |s| <= INT_MAX

  /** The UTF-8 decoding Files.lines and Files.readString apply; None for malformed input. */
  type Decoder = Bytes -> Option<JavaString>

  // ---------------------------------------------------------------------
  // Records as Files.lines yields them (BufferedReader.readLine)
  // ---------------------------------------------------------------------

  predicate IsLineTerminator(c: char) {
    c == '\n' || c == '\r'
  }

  predicate NoTerminator(line: string) {
    forall j :: 0 <= j < |line| ==> !IsLineTerminator(line[j])
  }

  /** Where the first record of `s` ends: the first terminator, or the end of `s`. */
  function LineEnd(s: string): (k: nat)
    ensures k <= |s|
    ensures k < |s| ==> IsLineTerminator(s[k])
    ensures NoTerminator(s[..k])
  {
    if s == [] then 0
    else if IsLineTerminator(s[0]) then 0
    else 1 + LineEnd(s[1..])
  }

  /** Where the record after the one ending at `k` starts: "\r\n" is a single terminator. */
  function NextStart(s: string, k: nat): (n: nat)
    requires k == LineEnd(s)
    ensures k <= n <= |s|
    ensures k < |s| ==> k < n
    ensures s != [] ==> 0 < n
  {
    if k == |s| then |s|
    else if s[k] == '\r' && k + 1 < |s| && s[k + 1] == '\n' then k + 2
    else k + 1
  }

  /** The records of `s`: each ends at "\n", "\r", "\r\n" or the end of the text. */
  function Lines(s: string): seq<string>
    decreases |s|
  {
    if s == [] then []
    else
      var k := LineEnd(s);
      [s[..k]] + Lines(s[NextStart(s, k)..])
  }

  /** The text a writer produces by putting "\n" after every line. */
  function Terminated(lines: seq<string>): string {
    if lines == [] then []
    else lines[0] + "\n" + Terminated(lines[1..])
  }

  /** Empty text has no record; any other text has between one and |s| records. */
  lemma {:induction false} LinesBound(s: string)
    ensures |Lines(s)| <= |s|
    ensures |Lines(s)| == 0 <==> s == []
    decreases |s|
  {
    if s != [] {
      var k := LineEnd(s);
      LinesBound(s[NextStart(s, k)..]);
    }
  }

  /** No record contains a terminator. */
  lemma {:induction false} LinesHaveNoTerminators(s: string)
    ensures forall i :: 0 <= i < |Lines(s)| ==> NoTerminator(Lines(s)[i])
    decreases |s|
  {
    if s != [] {
      var k := LineEnd(s);
      LinesHaveNoTerminators(s[NextStart(s, k)..]);
    }
  }

  lemma LineEndOf(line: string, rest: string)
    requires NoTerminator(line)
    requires rest == [] || IsLineTerminator(rest[0])
    ensures LineEnd(line + rest) == |line|
  {
    if rest != [] {
      assert (line + rest)[|line|] == rest[0];
    }
    assert (line + rest)[..|line|] == line;
  }

  /** A line followed by "\n" is read as that line, and reading goes on after the "\n". */
  lemma FirstLine(line: string, rest: string)
    requires NoTerminator(line)
    ensures Lines(line + ("\n" + rest)) == [line] + Lines(rest)
  {
    var s := line + ("\n" + rest);
    LineEndOf(line, "\n" + rest);
    var k := |line|;
    assert s[k] == '\n';
    assert NextStart(s, k) == k + 1;
    assert s[..k] == line;
    assert s[k + 1..] == rest;
  }

  /** Reading back what a line writer wrote gives the lines it was given. */
  lemma {:induction false} LinesRoundTrip(lines: seq<string>)
    requires forall i :: 0 <= i < |lines| ==> NoTerminator(lines[i])
    ensures Lines(Terminated(lines)) == lines
  {
    if lines != [] {
      assert Terminated(lines) == lines[0] + ("\n" + Terminated(lines[1..]));
      FirstLine(lines[0], Terminated(lines[1..]));
      LinesRoundTrip(lines[1..]);
      assert lines == [lines[0]] + lines[1..];
    }
  }

  /** A terminator after the last character ends the last record; it opens no new one. */
  lemma {:induction false} TrailingTerminatorAddsNoLine(s: string, t: char)
    requires s != [] && !IsLineTerminator(s[|s| - 1])
    requires IsLineTerminator(t)
    ensures Lines(s + [t]) == Lines(s)
    decreases |s|
  {
    var s' := s + [t];
    var k := LineEnd(s);
    if k == |s| {
      LineEndOf(s, [t]);
      assert s'[..k] == s && s[..k] == s;
      assert NextStart(s', k) == |s'|;
      assert s'[|s'|..] == [] && s[|s|..] == [];
    } else {
      assert k + 1 < |s|;
      assert s'[k] == s[k];
      assert s'[..k] == s[..k];
      assert LineEnd(s') == k;
      var n := NextStart(s, k);
      assert NextStart(s', k) == n;
      assert n < |s|;
      assert s'[n..] == s[n..] + [t];
      TrailingTerminatorAddsNoLine(s[n..], t);
    }
  }

  // ---------------------------------------------------------------------
  // Analysis of one file
  // ---------------------------------------------------------------------

  /** The two counts of an analysed file. */
  datatype Counts = Counts(lines: int32, characters: int32)

  /** countLines: the records of the decoded text, cast to `int`. */
  function CountLines(fs: FileSystem, decode: Decoder, p: Path): Result<int32>
    reads fs
  {
    if !fs.Readable(p) then
      Err(Error(FileProcessing, "Failed to count lines in file: " + PathString(p),
                Some(Raise(Other("IOException"), PathString(p)))))
    else
      match decode(fs.files[p])
      case None =>
        // Files.lines reports malformed input lazily, wrapped in an unchecked exception
        // that the `catch (IOException e)` does not catch.
        Err(Raise(Other("UncheckedIOException"), "java.nio.charset.MalformedInputException"))
      case Some(text) => Ok(Int32(|Lines(text)|))
  }

  /** countCharacters: the length of the decoded text. */
  function CountCharacters(fs: FileSystem, decode: Decoder, p: Path): Result<int32>
    reads fs
  {
    if !fs.Readable(p) then
      Err(Error(FileProcessing, "Failed to count characters in file: " + PathString(p),
                Some(Raise(Other("IOException"), PathString(p)))))
    else
      match decode(fs.files[p])
      case None =>
        Err(Error(FileProcessing, "Failed to count characters in file: " + PathString(p),
                  Some(Raise(Other("MalformedInputException"), ""))))
      case Some(text) => Ok(|text|)
  }

  /** What analyzeFile yields for `p`: the existence check, the extension check, then both counts. */
  function Analyze(fs: FileSystem, decode: Decoder, p: Path): Result<Counts>
    reads fs
  {
    if !fs.Exists(p) then Err(Raise(FileNotFound, "File does not exist: " + PathString(p)))
    else match FileName(p)
      case None => Err(Raise(Other("NullPointerException"), ""))
      case Some(name) =>
        if !EndsWith(ToLower(name), ".txt") then
          Err(Raise(InvalidFileType, "Only .txt files can be analyzed. Found: " + name))
        else
          var lines :- CountLines(fs, decode, p);
          var characters :- CountCharacters(fs, decode, p);
          Ok(Counts(lines, characters))
  }

  /**
   * A successful analysis counts the decoded text of a readable file: its
   * length and its records; there are never more records than characters,
   * and there are none exactly when the text is empty.
   */
  lemma AnalyzedCounts(fs: FileSystem, decode: Decoder, p: Path)
    requires Analyze(fs, decode, p).Ok?
    ensures fs.Readable(p) && decode(fs.files[p]).Some?
    ensures var text := decode(fs.files[p]).value;
            var c := Analyze(fs, decode, p).value;
            c.characters == |text| && c.lines == |Lines(text)|
    ensures var c := Analyze(fs, decode, p).value;
            0 <= c.lines <= c.characters && (c.lines == 0 <==> c.characters == 0)
  {
    var text := decode(fs.files[p]).value;
    LinesBound(text);
  }

  /** The extension check ignores case: a name ending in ".TXT" passes it. */
  lemma UpperCaseExtensionAccepted(fs: FileSystem, decode: Decoder, p: Path, base: string)
    requires fs.Readable(p) && FileName(p) == Some(base + ".TXT")
    ensures Analyze(fs, decode, p).Err? ==> Analyze(fs, decode, p).error.kind != InvalidFileType
  {
    EndsWithLowered(base, ".TXT");
  }

  /** A read failure in either count is reported as FileProcessing. */
  lemma ReadFaultIsFileProcessing(fs: FileSystem, decode: Decoder, p: Path)
    requires fs.Exists(p) && !fs.Readable(p)
    requires FileName(p).Some? && EndsWith(ToLower(FileName(p).value), ".txt")
    ensures Analyze(fs, decode, p).Err? && Analyze(fs, decode, p).error.kind == FileProcessing
    ensures CountCharacters(fs, decode, p).Err? && CountCharacters(fs, decode, p).error.kind == FileProcessing
  {
  }

  /**
   * analyzeFile: fills a FileStats through its setters, between the two
   * clock readings `start` and `end`, on the thread named `thread`.
   */
  method AnalyzeFile(fs: FileSystem, decode: Decoder, p: Path, thread: string, start: Instant, end: Instant)
    returns (r: Result<FileStats>)
    ensures !fs.Exists(p) ==> r == Err(Raise(FileNotFound, "File does not exist: " + PathString(p)))
    ensures fs.Exists(p) && FileName(p).Some? && !EndsWith(ToLower(FileName(p).value), ".txt") ==>
              r == Err(Raise(InvalidFileType, "Only .txt files can be analyzed. Found: " + FileName(p).value))
    ensures Analyze(fs, decode, p).Err? ==> r == Err(Analyze(fs, decode, p).error)
    ensures Analyze(fs, decode, p).Ok? ==>
              (r.Ok? <==> DurationNanos(start, end).Ok?) &&
              (r.Err? ==> r.error.kind == Other("ArithmeticException"))
    ensures r.Ok? ==>
              var stats := r.value;
              var c := Analyze(fs, decode, p).value;
              && fresh(stats)
              && stats.fileName == FileName(p)
              && stats.lineCount == c.lines && stats.characterCount == c.characters
              && stats.processingCompleted
              && stats.threadName == Some(thread)
              && stats.processingStartTime == Some(start) && stats.processingEndTime == Some(end)
              && stats.processingTimeNanos == end - start
  {
    if !fs.Exists(p) {
      return Err(Raise(FileNotFound, "File does not exist: " + PathString(p)));
    }
    var fileName := FileName(p);
    if fileName.None? {
      return Err(Raise(Other("NullPointerException"), ""));
    }
    if !EndsWith(ToLower(fileName.value), ".txt") {
      return Err(Raise(InvalidFileType, "Only .txt files can be analyzed. Found: " + fileName.value));
    }
    var stats := new FileStats();
    stats.SetFileName(fileName);
    stats.SetThreadName(Some(thread));
    stats.SetProcessingStartTime(Some(start));
    var lineCount :- CountLines(fs, decode, p);
    var characterCount :- CountCharacters(fs, decode, p);
    var completed := CompleteStats(stats, lineCount, characterCount, end);
    if completed.Fail? {
      return Err(completed.error);
    }
    return Ok(stats);
  }

  /** The setters that end analyzeFile: the two counts, the end time with the duration, completion. */
  method CompleteStats(stats: FileStats, lineCount: int32, characterCount: int32, end: Instant) returns (r: Outcome)
    modifies stats
    ensures stats.fileName == old(stats.fileName) && stats.threadName == old(stats.threadName)
    ensures stats.processingStartTime == old(stats.processingStartTime)
    ensures stats.lineCount == lineCount && stats.characterCount == characterCount
    ensures stats.processingEndTime == Some(end)
    ensures stats.processingStartTime.Some? ==>
              match DurationNanos(stats.processingStartTime.value, end)
              case Ok(n) => r == Pass && stats.processingTimeNanos == n && stats.processingCompleted
              case Err(e) => r == Fail(e)
    ensures stats.processingStartTime.None? ==> r == Pass && stats.processingCompleted
  {
    stats.SetLineCount(lineCount);
    stats.SetCharacterCount(characterCount);
    r := stats.SetProcessingEndTime(end);
    if r.Fail? {
      return;
    }
    stats.SetProcessingCompleted(true);
  }

  // ---------------------------------------------------------------------
  // Aggregation
  // ---------------------------------------------------------------------

  /** Exact (unwrapped) sums and counts. */
  datatype Totals = Totals(lines: int, characters: int, nanos: int, successful: int, failed: int) {
    function Plus(other: Totals): Totals {
      Totals(lines + other.lines, characters + other.characters, nanos + other.nanos,
             successful + other.successful, failed + other.failed)
    }
  }

  const NoTotals := Totals(0, 0, 0, 0, 0)

  /** What one record can add: one success with its figures, or one failure and nothing else. */
  predicate IsContribution(t: Totals) {
    (t.successful == 1 && t.failed == 0) || t == Totals(0, 0, 0, 0, 1)
  }

  /** What one record adds: its counts and duration when completed, one failure otherwise. */
  function Contribution(stats: FileStats): (t: Totals)
    reads stats
    ensures IsContribution(t)
    ensures t.successful == 1 <==> stats.processingCompleted
  {
    if stats.processingCompleted then
      Totals(stats.lineCount, stats.characterCount, stats.processingTimeNanos, 1, 0)
    else Totals(0, 0, 0, 0, 1)
  }

  /** The contributions of a list's records, in order. */
  function Contributions(list: seq<FileStats>): seq<Totals>
    reads list
  {
    seq(|list|, i requires 0 <= i < |list| reads list => Contribution(list[i]))
  }

  /** The sum of a sequence of contributions, accumulated front to back. */
  function Sum(cs: seq<Totals>): Totals {
    if cs == [] then NoTotals
    else Sum(cs[..|cs| - 1]).Plus(cs[|cs| - 1])
  }

  /** The totals of a list of records. */
  function Tally(list: seq<FileStats>): Totals
    reads list
  {
    Sum(Contributions(list))
  }

  /** The successes among `cs`, in order. */
  function Successes(cs: seq<Totals>): (r: seq<Totals>)
    ensures |r| <= |cs|
    ensures forall i :: 0 <= i < |r| ==> r[i] in cs && r[i].successful == 1
    ensures forall i :: 0 <= i < |cs| && cs[i].successful == 1 ==> cs[i] in r
  {
    if cs == [] then []
    else Successes(cs[..|cs| - 1]) + (if cs[|cs| - 1].successful == 1 then [cs[|cs| - 1]] else [])
  }

  /** A sum over a concatenation is the sum of the sums. */
  lemma {:induction false} SumAppend(a: seq<Totals>, b: seq<Totals>)
    ensures Sum(a + b) == Sum(a).Plus(Sum(b))
    decreases |b|
  {
    if b == [] {
      assert a + b == a;
    } else {
      var b' := b[..|b| - 1];
      assert (a + b)[..|a + b| - 1] == a + b';
      SumAppend(a, b');
    }
  }

  /** Every record counts once, as a success or as a failure. */
  lemma {:induction false} SumCounts(cs: seq<Totals>)
    requires forall i :: 0 <= i < |cs| ==> IsContribution(cs[i])
    ensures Sum(cs).successful + Sum(cs).failed == |cs|
    ensures Sum(cs).successful == |Successes(cs)|
    ensures 0 <= Sum(cs).failed
  {
    if cs != [] {
      SumCounts(cs[..|cs| - 1]);
    }
  }

  /** Only successes add lines, characters and time; a failure adds nothing but its count. */
  lemma {:induction false} SumOfSuccesses(cs: seq<Totals>)
    requires forall i :: 0 <= i < |cs| ==> IsContribution(cs[i])
    ensures Sum(Successes(cs)).lines == Sum(cs).lines
    ensures Sum(Successes(cs)).characters == Sum(cs).characters
    ensures Sum(Successes(cs)).nanos == Sum(cs).nanos
    ensures Sum(Successes(cs)).failed == 0
  {
    if cs != [] {
      var init := cs[..|cs| - 1];
      var last := cs[|cs| - 1];
      SumOfSuccesses(init);
      if last.successful == 1 {
        SumAppend(Successes(init), [last]);
      } else {
        assert Successes(cs) == Successes(init);
      }
    }
  }

  /** Taking one occurrence of `x` out of `b` leaves what is left of `a` after its last element `x`. */
  lemma RemoveOne<T>(a: seq<T>, b: seq<T>, j: nat)
    requires a != [] && multiset(a) == multiset(b)
    requires j < |b| && b[j] == a[|a| - 1]
    ensures multiset(a[..|a| - 1]) == multiset(b[..j] + b[j + 1..])
  {
    var x := a[|a| - 1];
    assert a == a[..|a| - 1] + [x];
    assert b == b[..j] + [x] + b[j + 1..];
    assert multiset(a) == multiset(a[..|a| - 1]) + multiset{x};
    assert multiset(b) == multiset(b[..j]) + multiset{x} + multiset(b[j + 1..]);
    assert multiset(b[..j] + b[j + 1..]) == multiset(b[..j]) + multiset(b[j + 1..]);
    assert multiset(a[..|a| - 1]) == multiset(a) - multiset{x};
    assert multiset(b[..j]) + multiset(b[j + 1..]) == multiset(b) - multiset{x};
  }

  /** Reordering the contributions changes no total. */
  lemma {:induction false} SumPermutation(a: seq<Totals>, b: seq<Totals>)
    requires multiset(a) == multiset(b)
    ensures Sum(a) == Sum(b)
    decreases |a|
  {
    if a == [] {
      assert |b| == |multiset(b)| == 0;
    } else {
      var x := a[|a| - 1];
      var a' := a[..|a| - 1];
      assert x in multiset(b);
      var j :| 0 <= j < |b| && b[j] == x;
      RemoveOne(a, b, j);
      SumPermutation(a', b[..j] + b[j + 1..]);
      SumWithout(b[..j], x, b[j + 1..]);
      assert b == b[..j] + [x] + b[j + 1..];
    }
  }

  /** The sum with one element taken out, plus that element, is the whole sum. */
  lemma SumWithout(b1: seq<Totals>, x: Totals, b2: seq<Totals>)
    ensures Sum(b1 + [x] + b2) == Sum(b1 + b2).Plus(x)
  {
    SumAppend(b1 + [x], b2);
    SumOfOneMore(b1, x);
    SumAppend(b1, b2);
    PlusSwap(Sum(b1), x, Sum(b2));
  }

  lemma PlusSwap(p: Totals, x: Totals, q: Totals)
    ensures p.Plus(x).Plus(q) == p.Plus(q).Plus(x)
  {
  }

  lemma SumOfOneMore(cs: seq<Totals>, x: Totals)
    ensures Sum(cs + [x]) == Sum(cs).Plus(x)
  {
    assert (cs + [x])[..|cs|] == cs;
  }

  /** Reordering a list reorders its contributions. */
  lemma {:induction false} ContributionsPermutation(a: seq<FileStats>, b: seq<FileStats>)
    requires multiset(a) == multiset(b)
    ensures multiset(Contributions(a)) == multiset(Contributions(b))
    decreases |a|
  {
    if a == [] {
      assert |b| == |multiset(b)| == 0;
    } else {
      var x := a[|a| - 1];
      var a' := a[..|a| - 1];
      assert x in multiset(b);
      var j :| 0 <= j < |b| && b[j] == x;
      var b1, b2 := b[..j], b[j + 1..];
      RemoveOne(a, b, j);
      ContributionsPermutation(a', b1 + b2);
      assert Contributions(a) == Contributions(a') + [Contribution(x)];
      assert Contributions(b) == Contributions(b1) + [Contribution(x)] + Contributions(b2);
      assert Contributions(b1 + b2) == Contributions(b1) + Contributions(b2);
    }
  }

  /** Reordering the list of records changes no total. */
  lemma TallyPermutation(a: seq<FileStats>, b: seq<FileStats>)
    requires multiset(a) == multiset(b)
    ensures Tally(a) == Tally(b)
  {
    ContributionsPermutation(a, b);
    SumPermutation(Contributions(a), Contributions(b));
  }

  /**
   * The totals of a list: as many successes as completed records, the
   * others failures, and lines, characters and time summed over the
   * completed records only.
   */
  lemma TallyCounts(list: seq<FileStats>)
    ensures Tally(list).successful + Tally(list).failed == |list|
    ensures 0 <= Tally(list).successful <= |list|
    ensures Tally(list).successful == |Successes(Contributions(list))|
    ensures Sum(Successes(Contributions(list))).lines == Tally(list).lines
    ensures Sum(Successes(Contributions(list))).characters == Tally(list).characters
    ensures Sum(Successes(Contributions(list))).nanos == Tally(list).nanos
  {
    SumCounts(Contributions(list));
    SumOfSuccesses(Contributions(list));
  }

  /** When every record completed, every record is a success and none is a failure. */
  lemma AllCompletedTally(list: seq<FileStats>)
    requires forall i :: 0 <= i < |list| ==> list[i].processingCompleted
    ensures Tally(list).successful == |list| && Tally(list).failed == 0
  {
    TallyCounts(list);
    NoFailures(Contributions(list));
  }

  lemma {:induction false} NoFailures(cs: seq<Totals>)
    requires forall i :: 0 <= i < |cs| ==> cs[i].failed == 0
    ensures Sum(cs).failed == 0
  {
    if cs != [] {
      NoFailures(cs[..|cs| - 1]);
    }
  }

  /**
   * The for-each loop of calculateTotalResult: `int` and `long` accumulators,
   * which wrap around, over the completed records, and a count of each kind.
   */
  method Accumulate(list: seq<FileStats>)
    returns (totalLines: int32, totalCharacters: int32, totalProcessingTime: int64,
             successfulFiles: int32, failedFiles: int32)
    requires |list| <= INT_MAX
    ensures totalLines == Int32(Tally(list).lines)
    ensures totalCharacters == Int32(Tally(list).characters)
    ensures totalProcessingTime == Int64(Tally(list).nanos)
    ensures successfulFiles == Tally(list).successful
    ensures failedFiles == Tally(list).failed
    ensures successfulFiles + failedFiles == |list|
  {
    ghost var cs := Contributions(list);
    totalLines, totalCharacters, totalProcessingTime := 0, 0, 0;
    successfulFiles, failedFiles := 0, 0;
    var i := 0;
    while i < |list|
      invariant 0 <= i <= |list|
      invariant totalLines == Int32(Sum(cs[..i]).lines)
      invariant totalCharacters == Int32(Sum(cs[..i]).characters)
      invariant totalProcessingTime == Int64(Sum(cs[..i]).nanos)
      invariant successfulFiles == Sum(cs[..i]).successful
      invariant failedFiles == Sum(cs[..i]).failed
      invariant successfulFiles + failedFiles == i
    {
      var stats := list[i];
      SumStep(cs, i);
      assert cs[i] == Contribution(stats);
      ghost var before := Sum(cs[..i]);
      if stats.processingCompleted {
        WrappedStep(before, cs[i]);
        totalLines := Int32(totalLines + stats.lineCount);
        totalCharacters := Int32(totalCharacters + stats.characterCount);
        totalProcessingTime := Int64(totalProcessingTime + stats.processingTimeNanos);
        successfulFiles := successfulFiles + 1;
      } else {
        failedFiles := failedFiles + 1;
      }
      i := i + 1;
    }
    assert cs[..|list|] == cs;
  }

  /** Adding to a wrapped total wraps the exact sum. */
  lemma WrappedStep(before: Totals, c: Totals)
    ensures Int32(Int32(before.lines) + c.lines) == Int32(before.Plus(c).lines)
    ensures Int32(Int32(before.characters) + c.characters) == Int32(before.Plus(c).characters)
    ensures Int64(Int64(before.nanos) + c.nanos) == Int64(before.Plus(c).nanos)
  {
    Int32AddWrapped(before.lines, c.lines);
    Int32AddWrapped(before.characters, c.characters);
    Int64AddWrapped(before.nanos, c.nanos);
  }

  /** One more element of a prefix adds its contribution to the prefix's sum. */
  lemma SumStep(cs: seq<Totals>, i: nat)
    requires i < |cs|
    ensures Sum(cs[..i + 1]) == Sum(cs[..i]).Plus(cs[i])
  {
    assert cs[..i + 1][..i] == cs[..i];
  }

  /** The five setters that end calculateTotalResult; the list, the times and the processed count stay. */
  method RecordTotals(result: AnalysisResult, totalLines: int32, totalCharacters: int32, totalProcessingTime: int64,
                      successfulFiles: int32, failedFiles: int32)
    modifies result
    ensures result.fileStatsList == old(result.fileStatsList)
    ensures result.totalProcessedFiles == old(result.totalProcessedFiles)
    ensures result.analysisStartTime == old(result.analysisStartTime)
    ensures result.analysisEndTime == old(result.analysisEndTime)
    ensures result.totalLineCount == totalLines && result.totalCharacterCount == totalCharacters
    ensures result.totalProcessingTimeNanos == totalProcessingTime
    ensures result.successfulFileCount == successfulFiles && result.failedFileCount == failedFiles
  {
    result.SetTotalLineCount(totalLines);
    result.SetTotalCharacterCount(totalCharacters);
    result.SetTotalProcessingTimeNanos(totalProcessingTime);
    result.SetSuccessfulFileCount(successfulFiles);
    result.SetFailedFileCount(failedFiles);
  }

  /** What calculateTotalResult records for `list`: the list, its totals, and when the analysis started and ended. */
  predicate TotalsRecorded(result: AnalysisResult, list: seq<FileStats>, start: Option<Instant>, end: Instant)
    reads result, list
  {
    var t := Tally(list);
    && result.fileStatsList == Some(list)
    && result.totalProcessedFiles == |list|
    && result.totalLineCount == Int32(t.lines)
    && result.totalCharacterCount == Int32(t.characters)
    && result.totalProcessingTimeNanos == Int64(t.nanos)
    && result.successfulFileCount == t.successful
    && result.failedFileCount == t.failed
    && result.analysisStartTime == start
    && result.analysisEndTime == Some(end)
  }

  /**
   * calculateTotalResult: a result over the list, its start and end time,
   * then the totals of the loop. The duration that setAnalysisEndTime derives
   * is overwritten by the summed processing time.
   */
  method CalculateTotalResult(list: seq<FileStats>, analysisStartTime: Option<Instant>, now: Instant)
    returns (r: Result<AnalysisResult>)
    requires |list| <= INT_MAX
    ensures r.Err? <==> analysisStartTime.Some? && DurationNanos(analysisStartTime.value, now).Err?
    ensures r.Err? ==> r.error.kind == Other("ArithmeticException")
    ensures r.Ok? ==>
              var result := r.value;
              var t := old(Tally(list));
              && fresh(result)
              && result.fileStatsList == Some(list)
              && result.totalProcessedFiles == |list| && result.CountMatchesList()
              && result.totalLineCount == Int32(t.lines)
              && result.totalCharacterCount == Int32(t.characters)
              && result.totalProcessingTimeNanos == Int64(t.nanos)
              && result.successfulFileCount == t.successful
              && result.failedFileCount == t.failed
              && result.successfulFileCount + result.failedFileCount == |list|
              && result.analysisStartTime == analysisStartTime
              && result.analysisEndTime == Some(now)
  {
    var result := new AnalysisResult.FromList(Some(list));
    result.SetAnalysisStartTime(analysisStartTime);
    var ended := result.SetAnalysisEndTime(now);
    if ended.Fail? {
      return Err(ended.error);
    }
    var totalLines, totalCharacters, totalProcessingTime, successfulFiles, failedFiles := Accumulate(list);
    RecordTotals(result, totalLines, totalCharacters, totalProcessingTime, successfulFiles, failedFiles);
    return Ok(result);
  }
}

=== FILE: file_upload.dfy ===
/**
 * FileUploadService: storing uploaded ".txt" files and the ".txt" entries of
 * uploaded ZIP archives in the input directory (after clearing the old
 * ".txt" files there), and the filename helpers.
 */
module FileUpload {
  import opened Common
  import opened Text
  import opened Paths
  import opened Storage

  // ---------------------------------------------------------------- names

  /** The characters the pattern `[a-zA-Z0-9._-]` accepts. */
  predicate Allowed(c: char) {
    ('a' <= c <= 'z') || ('A' <= c <= 'Z') || ('0' <= c <= '9') || c == '.' || c == '_' || c == '-'
  }

  predicate AllAllowed(s: string) {
    forall i :: 0 <= i < |s| ==> Allowed(s[i])
  }

  /** replaceAll("[^a-zA-Z0-9._-]", "_"): each other character becomes one '_'. */
  function ReplaceDisallowed(s: string): (r: string)
    ensures |r| == |s| && AllAllowed(r)
    ensures forall i :: 0 <= i < |s| && Allowed(s[i]) ==> r[i] == s[i]
  {
    seq(|s|, i requires 0 <= i < |s| => if Allowed(s[i]) then s[i] else '_')
  }

  /** A name made of allowed characters only is left as it is. */
  lemma ReplaceAllowedUnchanged(s: string)
    requires AllAllowed(s)
    ensures ReplaceDisallowed(s) == s
  {
  }

  const MAX_FILENAME_LENGTH: nat := 100

  /**
   * The truncation step of sanitizeFilename as written: when the name is
   * too long and has a dot after its first character, it keeps the first
   * 100 - |extension| characters and the extension. An extension longer
   * than 100 characters makes the end index negative and `substring` throws.
   */
  function TruncateAsWritten(s: string): (r: Result<string>)
    ensures |s| <= MAX_FILENAME_LENGTH ==> r == Ok(s)
  {
    if |s| <= MAX_FILENAME_LENGTH then Ok(s)
    else
      var lastDotIndex := LastIndexOf(s, '.');
      if lastDotIndex > 0 then
        var extension := s[lastDotIndex..];
        var end := if MAX_FILENAME_LENGTH - |extension| < lastDotIndex then MAX_FILENAME_LENGTH - |extension| else lastDotIndex;
        if end < 0 then Err(Raise(Other("StringIndexOutOfBoundsException"), "substring end index out of range"))
        else Ok(s[..end] + extension)
      else Ok(s[..MAX_FILENAME_LENGTH])
  }

  /** sanitizeFilename as written. */
  function SanitizeFilenameAsWritten(originalFilename: Option<string>): Result<string> {
    match originalFilename
    case None => Ok("unknown")
    case Some(name) => TruncateAsWritten(ReplaceDisallowed(name))
  }

  /**
   * The truncation step with the evident intent: a long name keeps its
   * extension when the extension fits in 100 characters, and otherwise is
   * cut to its first 100 characters.
   */
  function Truncate(s: string): (r: string)
    ensures |s| <= MAX_FILENAME_LENGTH ==> r == s
    ensures |s| > MAX_FILENAME_LENGTH ==> |r| == MAX_FILENAME_LENGTH
    ensures forall i :: 0 <= i < |r| ==> r[i] in s
  {
    if |s| <= MAX_FILENAME_LENGTH then s
    else
      var lastDotIndex := LastIndexOf(s, '.');
      if lastDotIndex > 0 && |s| - lastDotIndex <= MAX_FILENAME_LENGTH then
        s[..MAX_FILENAME_LENGTH - (|s| - lastDotIndex)] + s[lastDotIndex..]
      else s[..MAX_FILENAME_LENGTH]
  }

  /** sanitizeFilename: "unknown" for null; otherwise only allowed characters, at most 100 of them. */
  function SanitizeFilename(originalFilename: Option<string>): (r: string)
    ensures originalFilename.None? ==> r == "unknown"
    ensures |r| <= MAX_FILENAME_LENGTH && AllAllowed(r)
    ensures originalFilename.Some? && |originalFilename.value| <= MAX_FILENAME_LENGTH ==>
              r == ReplaceDisallowed(originalFilename.value)
  {
    match originalFilename
    case None => "unknown"
    case Some(name) => Truncate(ReplaceDisallowed(name))
  }

  /** Sanitizing a sanitized name gives it back. */
  lemma SanitizeIdempotent(originalFilename: Option<string>)
    ensures SanitizeFilename(Some(SanitizeFilename(originalFilename))) == SanitizeFilename(originalFilename)
  {
    var s := SanitizeFilename(originalFilename);
    ReplaceAllowedUnchanged(s);
  }

  /**
   * A long name with a dot after its first character and an extension of at
   * most 100 characters keeps the extension and is cut to exactly 100
   * characters in front of it.
   */
  lemma SanitizeKeepsExtension(name: string)
    requires var s := ReplaceDisallowed(name);
             && |s| > MAX_FILENAME_LENGTH
             && LastIndexOf(s, '.') > 0
             && |s| - LastIndexOf(s, '.') <= MAX_FILENAME_LENGTH
    ensures var s := ReplaceDisallowed(name);
            var extension := s[LastIndexOf(s, '.')..];
            && SanitizeFilename(Some(name)) == s[..MAX_FILENAME_LENGTH - |extension|] + extension
            && EndsWith(SanitizeFilename(Some(name)), extension)
            && |SanitizeFilename(Some(name))| == MAX_FILENAME_LENGTH
  {
    var s := ReplaceDisallowed(name);
    var extension := s[LastIndexOf(s, '.')..];
    var r := SanitizeFilename(Some(name));
    assert r == s[..MAX_FILENAME_LENGTH - |extension|] + extension;
    assert r[|r| - |extension|..] == extension;
  }

  /** A long name without a dot after its first character is cut to its first 100 characters. */
  lemma SanitizeCutsWithoutExtension(name: string)
    requires var s := ReplaceDisallowed(name);
             |s| > MAX_FILENAME_LENGTH && LastIndexOf(s, '.') <= 0
    ensures SanitizeFilename(Some(name)) == ReplaceDisallowed(name)[..MAX_FILENAME_LENGTH]
  {
  }

  /**
   * The code as written agrees with the intended truncation whenever it
   * returns, and it throws exactly when the name is too long and its
   * extension alone exceeds 100 characters.
   */
  lemma {:induction false} AsWrittenAgrees(originalFilename: Option<string>)
    ensures var r := SanitizeFilenameAsWritten(originalFilename);
            r.Ok? ==> r.value == SanitizeFilename(originalFilename)
    ensures SanitizeFilenameAsWritten(originalFilename).Err? <==>
              originalFilename.Some? &&
              var s := ReplaceDisallowed(originalFilename.value);
              |s| > MAX_FILENAME_LENGTH && LastIndexOf(s, '.') > 0 && |s| - LastIndexOf(s, '.') > MAX_FILENAME_LENGTH
  {
    if originalFilename.Some? {
      var s := ReplaceDisallowed(originalFilename.value);
      if |s| > MAX_FILENAME_LENGTH {
        var k := LastIndexOf(s, '.');
        if k > 0 {
          var extension := s[k..];
          assert |extension| == |s| - k;
        }
      }
    }
  }

  /** "a." followed by 101 letters: 103 characters whose extension alone is 102 long. */
  function LongExtensionName(): string {
    "a." + seq(101, _ => 'x')
  }

  /** On that name the code as written throws instead of returning a name. */
  lemma LongExtensionCounterexample()
    ensures SanitizeFilenameAsWritten(Some(LongExtensionName())).Err?
    ensures |SanitizeFilename(Some(LongExtensionName()))| == MAX_FILENAME_LENGTH
  {
    var name := LongExtensionName();
    ReplaceAllowedUnchanged(name);
    assert ReplaceDisallowed(name) == name;
    assert name[1] == '.';
    assert forall j :: 1 < j < |name| ==> name[j] == 'x';
    assert LastIndexOf(name, '.') == 1;
    AsWrittenAgrees(Some(name));
  }

  /** The kinds of upload the services tell apart by the lower-cased name. */
  datatype UploadKind = TxtUpload | ZipUpload | Unsupported

  function Classify(name: string): UploadKind {
    var lower := ToLower(name);
    if EndsWith(lower, ".txt") then TxtUpload
    else if EndsWith(lower, ".zip") then ZipUpload
    else Unsupported
  }

  /** isValidFileType: false for null; otherwise the lower-cased name ends in ".txt" or ".zip". */
  predicate IsValidFileType(filename: Option<string>) {
    match filename
    case None => false
    case Some(name) =>
      var lowerCaseFileName := ToLower(name);
      EndsWith(lowerCaseFileName, ".txt") || EndsWith(lowerCaseFileName, ".zip")
  }

  /**
   * The type check accepts exactly the names the upload services process,
   * and ignores case.
   */
  lemma ValidFileTypeIsProcessed(name: string)
    ensures IsValidFileType(Some(name)) <==> Classify(name) != Unsupported
    ensures IsValidFileType(Some(ToLower(name))) == IsValidFileType(Some(name))
    ensures Classify(ToLower(name)) == Classify(name)
  {
    ToLowerIdempotent(name);
  }

  /** A name ending in ".txt" in any case does not end with a separator. */
  lemma TxtNameHasLastName(name: string)
    requires EndsWith(ToLower(name), ".txt")
    ensures ParsePath(name).names != []
  {
    assert ToLower(name)[|name| - 1] == 't';
    assert name[|name| - 1] != '/';
    SegmentsNotEmpty(name);
  }

  // ------------------------------------------------------- input directory

  /**
   * cleanupOldTxtFiles: deletes every ".txt" file the directory stream
   * lists; the first deletion that fails ends the cleanup with its
   * IOException. Afterwards the directory lists no ".txt" file.
   */
  method CleanupOldTxtFiles(fs: FileSystem, inputDir: Path) returns (r: Outcome)
    requires fs.Valid()
    modifies fs`files
    ensures fs.Valid()
    ensures !fs.IsDirectory(inputDir) || inputDir in fs.faulty ==> r == Fail(IOError(inputDir)) && unchanged(fs)
    ensures r.Pass? ==>
              && fs.files == old(fs.files) - (set p | p in old(fs.TxtFilesIn(inputDir)))
              && fs.TxtFilesIn(inputDir) == []
    ensures r.Fail? ==>
              && r.error.kind == Other("IOException")
              && forall p :: p in fs.files ==> p in old(fs.files) && fs.files[p] == old(fs.files)[p]
  {
    if !fs.IsDirectory(inputDir) || inputDir in fs.faulty {
      return Fail(IOError(inputDir));
    }
    var stream := fs.TxtFilesIn(inputDir);
    fs.TxtFilesInExact(inputDir);
    r := DeleteEach(fs, stream);
    if r.Pass? {
      fs.NoTxtFilesListed(inputDir);
    }
  }

  /** The loop of cleanupOldTxtFiles: deletes the paths in order; the first failure ends it. */
  method DeleteEach(fs: FileSystem, stream: seq<Path>) returns (r: Outcome)
    requires fs.Valid()
    modifies fs`files
    ensures fs.Valid()
    ensures r.Pass? ==> fs.files == old(fs.files) - (set p | p in stream)
    ensures r.Fail? ==>
              && r.error.kind == Other("IOException")
              && forall p :: p in fs.files ==> p in old(fs.files) && fs.files[p] == old(fs.files)[p]
  {
    var i := 0;
    while i < |stream|
      invariant 0 <= i <= |stream|
      invariant fs.Valid()
      invariant fs.files == old(fs.files) - (set p | p in stream[..i])
    {
      var file := stream[i];
      var deleted := fs.Delete(file);
      if !deleted {
        return Fail(IOError(file));
      }
      assert stream[..i + 1] == stream[..i] + [file];
      i := i + 1;
    }
    assert stream[..|stream|] == stream;
    r := Pass;
  }

  /** The message prepareInputDirectory reports. */
  function PrepareError(inputDir: Path, cause: Error): Error {
    Error(DirectoryAccess, "Failed to prepare input directory: " + PathString(inputDir), Some(cause))
  }

  /** The files once the input directory is prepared: an existing directory loses its ".txt" files. */
  ghost function PreparedFiles(fs: FileSystem, inputDir: Path): map<Path, Bytes>
    reads fs
  {
    if fs.Exists(inputDir) then fs.files - (set p | p in fs.TxtFilesIn(inputDir)) else fs.files
  }

  /**
   * prepareInputDirectory: creates the directory when it is missing, and
   * otherwise clears its ".txt" files. Either failure is a DirectoryAccess
   * error.
   */
  method PrepareInputDirectory(fs: FileSystem, inputDir: Path) returns (r: Outcome)
    requires fs.Valid()
    modifies fs`files, fs`dirs
    ensures fs.Valid()
    ensures r.Fail? ==> r.error.kind == DirectoryAccess
    ensures !old(fs.Exists(inputDir)) ==>
              fs.files == old(fs.files) &&
              if old(fs.CanCreateDirectories(inputDir))
              then r == Pass && fs.IsDirectory(inputDir)
              else r == Fail(PrepareError(inputDir, IOError(inputDir)))
    ensures old(fs.Exists(inputDir)) ==>
              fs.dirs == old(fs.dirs) &&
              (r.Pass? ==>
                 && fs.IsDirectory(inputDir)
                 && fs.files == old(fs.files) - (set p | p in old(fs.TxtFilesIn(inputDir)))
                 && fs.TxtFilesIn(inputDir) == [])
    ensures r.Pass? ==> fs.files == old(PreparedFiles(fs, inputDir))
  {
    if !fs.Exists(inputDir) {
      var created := fs.CreateDirectories(inputDir);
      if !created {
        return Fail(PrepareError(inputDir, IOError(inputDir)));
      }
      return Pass;
    }
    var cleaned := CleanupOldTxtFiles(fs, inputDir);
    if cleaned.Fail? {
      return Fail(PrepareError(inputDir, cleaned.error));
    }
    r := Pass;
  }

  // ---------------------------------------------------------------- storing

  /** An entry processZipFile extracts: a file whose lower-cased name ends in ".txt". */
  predicate IsTxtEntry(entry: ZipEntry) {
    !entry.isDirectory && EndsWith(ToLower(entry.name), ".txt")
  }

  /** Where processZipFile writes an entry: its base name, resolved against the input directory. */
  function ZipTarget(inputDir: Path, entryName: string): Path
    requires EndsWith(ToLower(entryName), ".txt")
  {
    TxtNameHasLastName(entryName);
    var names := ParsePath(entryName).names;
    Resolve(inputDir, ParsePath(names[|names| - 1]))
  }

  /**
   * The target always lies directly in the input directory: the base name is
   * a single name, so the `startsWith` check after it never skips an entry.
   */
  lemma ZipTargetInInputDirectory(inputDir: Path, entryName: string)
    requires EndsWith(ToLower(entryName), ".txt")
    ensures StartsWith(ZipTarget(inputDir, entryName), inputDir)
    ensures ChildOf(ZipTarget(inputDir, entryName), inputDir)
  {
    TxtNameHasLastName(entryName);
    var names := ParsePath(entryName).names;
    var fileName := names[|names| - 1];
    SegmentsOfName(fileName, "");
    assert fileName + "" == fileName;
    assert ParsePath(fileName) == Path(false, [fileName]);
  }

  /** The ".txt" entries of an archive, in order. */
  function TxtEntries(entries: seq<ZipEntry>): (r: seq<ZipEntry>)
    ensures forall e :: e in r <==> e in entries && IsTxtEntry(e)
    ensures |r| <= |entries|
  {
    if entries == [] then []
    else
      var last := entries[|entries| - 1];
      TxtEntries(entries[..|entries| - 1]) + (if IsTxtEntry(last) then [last] else [])
  }

  /** The files processZipFile writes: each ".txt" entry at its target, a later entry replacing an earlier one. */
  function ZipStored(inputDir: Path, entries: seq<ZipEntry>): map<Path, Bytes> {
    if entries == [] then map[]
    else
      var last := entries[|entries| - 1];
      var m := ZipStored(inputDir, entries[..|entries| - 1]);
      if IsTxtEntry(last) then m[ZipTarget(inputDir, last.name) := last.data] else m
  }

  /** An archive without ".txt" entries writes nothing. */
  lemma {:induction false} ZipStoredWithoutTxt(inputDir: Path, entries: seq<ZipEntry>)
    requires TxtEntries(entries) == []
    ensures ZipStored(inputDir, entries) == map[]
  {
    if entries != [] {
      var init := entries[..|entries| - 1];
      assert forall e :: e in init ==> e in entries;
      ZipStoredWithoutTxt(inputDir, init);
    }
  }

  /** Every file processZipFile writes lies directly in the input directory. */
  lemma {:induction false} ZipStoredInInputDirectory(inputDir: Path, entries: seq<ZipEntry>)
    ensures forall p :: p in ZipStored(inputDir, entries) ==> ChildOf(p, inputDir)
  {
    if entries != [] {
      var last := entries[|entries| - 1];
      ZipStoredInInputDirectory(inputDir, entries[..|entries| - 1]);
      if IsTxtEntry(last) {
        ZipTargetInInputDirectory(inputDir, last.name);
      }
    }
  }

  /**
   * The body of processZipFile's loop for one ".txt" entry: Paths.get on the
   * entry name, then the copy into the input directory.
   */
  method ExtractTxtEntry(fs: FileSystem, inputDir: Path, entry: ZipEntry) returns (r: Outcome)
    requires fs.Valid()
    requires IsTxtEntry(entry)
    modifies fs`files, fs`order
    ensures fs.Valid()
    ensures r.Pass? <==> ValidPathString(entry.name) && old(fs.Writable(ZipTarget(inputDir, entry.name)))
    ensures r.Pass? ==> fs.files == old(fs.files)[ZipTarget(inputDir, entry.name) := entry.data]
    ensures r.Fail? ==> fs.files == old(fs.files)
    ensures r.Fail? ==>
              r.error == if ValidPathString(entry.name) then IOError(ZipTarget(inputDir, entry.name))
                         else InvalidPath(entry.name)
  {
    if !ValidPathString(entry.name) {
      return Fail(InvalidPath(entry.name));
    }
    r := CopyTxtEntry(fs, inputDir, entry);
  }

  /** Opens the entry's target in the input directory and copies the entry through an 8192-byte buffer. */
  method CopyTxtEntry(fs: FileSystem, inputDir: Path, entry: ZipEntry) returns (r: Outcome)
    requires fs.Valid()
    requires IsTxtEntry(entry)
    modifies fs`files, fs`order
    ensures fs.Valid()
    ensures r.Pass? <==> old(fs.Writable(ZipTarget(inputDir, entry.name)))
    ensures r.Pass? ==> fs.files == old(fs.files)[ZipTarget(inputDir, entry.name) := entry.data]
    ensures r.Fail? ==> r.error == IOError(ZipTarget(inputDir, entry.name)) && fs.files == old(fs.files)
  {
    TxtNameHasLastName(entry.name);
    var fileName := FileName(ParsePath(entry.name));
    var targetPath := Resolve(inputDir, ParsePath(fileName.value));
    assert targetPath == ZipTarget(inputDir, entry.name);
    var canOpen := fs.Write(targetPath, []);
    if !canOpen {
      return Fail(IOError(targetPath));
    }
    var copied := BufferedCopy(entry.data, 8192);
    var written := fs.Write(targetPath, copied);
    assert written;
    r := Pass;
  }

  /** One more entry: a ".txt" entry adds its target to what is stored and counts once. */
  lemma ZipStoredStep(files0: map<Path, Bytes>, inputDir: Path, entries: seq<ZipEntry>, i: nat)
    requires i < |entries|
    ensures var e, before := entries[i], files0 + ZipStored(inputDir, entries[..i]);
            && files0 + ZipStored(inputDir, entries[..i + 1]) ==
                 (if IsTxtEntry(e) then before[ZipTarget(inputDir, e.name) := e.data] else before)
            && |TxtEntries(entries[..i + 1])| == |TxtEntries(entries[..i])| + (if IsTxtEntry(e) then 1 else 0)
  {
    assert entries[..i + 1][..i] == entries[..i];
    if IsTxtEntry(entries[i]) {
      MergeThenUpdate(files0, ZipStored(inputDir, entries[..i]), ZipTarget(inputDir, entries[i].name), entries[i].data);
    }
  }

  /** Every ".txt" entry has a name without NUL and a target in the input directory that can be opened for writing. */
  predicate TxtTargetsWritable(fs: FileSystem, inputDir: Path, entries: seq<ZipEntry>)
    reads fs
  {
    forall e :: e in entries && IsTxtEntry(e) ==> ValidPathString(e.name) && fs.Writable(ZipTarget(inputDir, e.name))
  }

  /** processZipFile's entry loop: extracts the ".txt" entries, counting them, until a write fails. */
  method ExtractTxtEntries(fs: FileSystem, inputDir: Path, entries: seq<ZipEntry>)
    returns (r: Outcome, extractedCount: nat)
    requires fs.Valid()
    modifies fs`files, fs`order
    ensures fs.Valid()
    ensures r.Pass? ==>
              extractedCount == |TxtEntries(entries)| &&
              fs.files == old(fs.files) + ZipStored(inputDir, entries)
    ensures r.Fail? ==>
              && r.error.kind in {Other("IOException"), Other("InvalidPathException")}
              && exists k :: 0 <= k < |entries| && IsTxtEntry(entries[k])
    ensures old(TxtTargetsWritable(fs, inputDir, entries)) ==> r.Pass?
  {
    ghost var files0 := fs.files;
    extractedCount := 0;
    var i := 0;
    while i < |entries|
      invariant 0 <= i <= |entries|
      invariant fs.Valid()
      invariant extractedCount == |TxtEntries(entries[..i])|
      invariant fs.files == files0 + ZipStored(inputDir, entries[..i])
      invariant fs.dirs == old(fs.dirs)
    {
      var entry := entries[i];
      ZipStoredStep(files0, inputDir, entries, i);
      if IsTxtEntry(entry) {
        r := ExtractTxtEntry(fs, inputDir, entry);
        if r.Fail? {
          assert !(ValidPathString(entry.name) && old(fs.Writable(ZipTarget(inputDir, entry.name)))) && entry in entries;
          return;
        }
        extractedCount := extractedCount + 1;
      }
      i := i + 1;
    }
    assert entries[..|entries|] == entries;
    r := Pass;
  }

  /** What storing an upload fails with: an IOException or InvalidPathException of the JDK, or NoContent. */
  const StoreFailureKinds: set<ErrorKind> := {Other("IOException"), Other("InvalidPathException"), NoContent}

  /**
   * processZipFile: extracts the ".txt" entries of the uploaded archive
   * into the input directory; an archive without one is NoContent.
   */
  method ProcessZipFile(fs: FileSystem, zip: ZipFormat, content: Bytes, inputDir: Path) returns (r: Outcome)
    requires fs.Valid()
    modifies fs`files, fs`order
    ensures fs.Valid()
    ensures var scan := zip.scan(content);
            && (r.Pass? ==>
                  && !scan.fault && TxtEntries(scan.entries) != []
                  && fs.files == old(fs.files) + ZipStored(inputDir, scan.entries))
            && (TxtEntries(scan.entries) == [] ==>
                  fs.files == old(fs.files) &&
                  r == Fail(if scan.fault then ZipReadError()
                            else Raise(NoContent, "No TXT files found in the uploaded ZIP file")))
    ensures var scan := zip.scan(content);
            && !scan.fault && TxtEntries(scan.entries) != []
            && old(TxtTargetsWritable(fs, inputDir, scan.entries))
            ==> r.Pass?
    ensures r.Fail? ==> r.error.kind in StoreFailureKinds
  {
    var scan := zip.scan(content);
    if TxtEntries(scan.entries) == [] {
      ZipStoredWithoutTxt(inputDir, scan.entries);
    }
    var extracted, extractedCount := ExtractTxtEntries(fs, inputDir, scan.entries);
    if extracted.Fail? {
      return extracted;
    }
    if scan.fault {
      return Fail(ZipReadError());
    }
    if extractedCount == 0 {
      return Fail(Raise(NoContent, "No TXT files found in the uploaded ZIP file"));
    }
    r := Pass;
  }

  /** The IOException ZipInputStream throws on a malformed entry. */
  function ZipReadError(): Error {
    Raise(Other("IOException"), "invalid ZIP entry")
  }

  /** processTxtFile: copies the upload to the input directory under its original name, replacing any file there. */
  method ProcessTxtFile(fs: FileSystem, filename: string, content: Bytes, inputDir: Path) returns (r: Outcome)
    requires fs.Valid()
    modifies fs`files, fs`order
    ensures fs.Valid()
    ensures var targetPath := Resolve(inputDir, ParsePath(filename));
            && (r.Pass? <==> ValidPathString(filename) && old(fs.Writable(targetPath)))
            && (r.Pass? ==> fs.files == old(fs.files)[targetPath := content])
            && (r.Fail? ==> fs.files == old(fs.files))
            && (r.Fail? ==> r.error == if ValidPathString(filename) then IOError(targetPath) else InvalidPath(filename))
  {
    if !ValidPathString(filename) {
      return Fail(InvalidPath(filename));
    }
    var targetPath := Resolve(inputDir, ParsePath(filename));
    var copied := fs.Write(targetPath, content);
    r := if copied then Pass else Fail(IOError(targetPath));
  }

  /** An uploaded file: its original name (possibly null) and its content; an empty content is an empty upload. */
  datatype Upload = Upload(originalFilename: Option<string>, content: Bytes)

  /** What storing one supported upload writes. */
  function Stored(zip: ZipFormat, inputDir: Path, filename: string, content: Bytes): map<Path, Bytes>
    requires Classify(filename) != Unsupported
  {
    if Classify(filename) == TxtUpload then map[Resolve(inputDir, ParsePath(filename)) := content]
    else ZipStored(inputDir, zip.scan(content).entries)
  }

  /** The try-body of both upload services for one supported upload. */
  method StoreUpload(fs: FileSystem, zip: ZipFormat, inputDir: Path, filename: string, content: Bytes)
    returns (r: Outcome)
    requires fs.Valid()
    requires Classify(filename) != Unsupported
    modifies fs`files, fs`order
    ensures fs.Valid()
    ensures r.Pass? ==> fs.files == old(fs.files) + Stored(zip, inputDir, filename, content)
    ensures r.Fail? ==> r.error.kind in StoreFailureKinds
  {
    if Classify(filename) == TxtUpload {
      r := ProcessTxtFile(fs, filename, content, inputDir);
    } else {
      r := ProcessZipFile(fs, zip, content, inputDir);
    }
  }

  /** How processUploadedFile reports a failure inside its try block. */
  function WrapSingle(e: Error): Error {
    Error(FileProcessing, "Failed to process uploaded file: " + e.message, Some(e))
  }

  /**
   * processUploadedFile: rejects an empty or missing upload, prepares the
   * input directory, rejects a missing name, then stores the upload and
   * returns the analysis of the directory (`analysis`, computed by a service
   * that is not part of this model). Every failure after the preparation
   * reaches the caller as FileProcessing.
   */
  method ProcessUploadedFile<R>(fs: FileSystem, zip: ZipFormat, inputDirectory: string,
                                uploadedFile: Option<Upload>, analysis: Result<R>)
    returns (r: Result<R>)
    requires fs.Valid()
    modifies fs`files, fs`order, fs`dirs
    ensures fs.Valid()
    ensures uploadedFile.None? || uploadedFile.value.content == [] ==>
              r == Err(Raise(FileProcessing, "Uploaded file is empty or null")) && unchanged(fs)
    ensures r.Err? ==> r.error.kind in {FileProcessing, DirectoryAccess}
    ensures r.Ok? ==>
              && r == analysis
              && uploadedFile.Some? && uploadedFile.value.content != []
              && uploadedFile.value.originalFilename.Some?
              && IsValidFileType(uploadedFile.value.originalFilename)
              && var name, inputDir := uploadedFile.value.originalFilename.value, ParsePath(inputDirectory);
                 && Classify(name) != Unsupported
                 && fs.files == old(PreparedFiles(fs, inputDir)) + Stored(zip, inputDir, name, uploadedFile.value.content)
    ensures uploadedFile.Some? && uploadedFile.value.content != [] && uploadedFile.value.originalFilename.Some? &&
            !IsValidFileType(uploadedFile.value.originalFilename) ==>
              r.Err? &&
              (r.error.kind == FileProcessing ==>
                 r.error == WrapSingle(Raise(FileProcessing, "Unsupported file type: " + uploadedFile.value.originalFilename.value)))
  {
    if uploadedFile.None? || uploadedFile.value.content == [] {
      return Err(Raise(FileProcessing, "Uploaded file is empty or null"));
    }
    var inputDir := ParsePath(inputDirectory);
    var prepared := PrepareInputDirectory(fs, inputDir);
    if prepared.Fail? {
      return Err(prepared.error);
    }
    var originalFilename := uploadedFile.value.originalFilename;
    if originalFilename.None? {
      return Err(Raise(FileProcessing, "File name is null"));
    }
    var name := originalFilename.value;
    ValidFileTypeIsProcessed(name);
    if Classify(name) == Unsupported {
      return Err(WrapSingle(Raise(FileProcessing, "Unsupported file type: " + name)));
    }
    var stored := StoreUpload(fs, zip, inputDir, name, uploadedFile.value.content);
    if stored.Fail? {
      return Err(WrapSingle(stored.error));
    }
    if analysis.Err? {
      return Err(WrapSingle(analysis.error));
    }
    r := analysis;
  }

  /** An upload processMultipleUploadedFiles stores and counts: present, not empty, named, supported. */
  predicate Processable(u: Option<Upload>) {
    u.Some? && u.value.content != [] && u.value.originalFilename.Some? &&
    Classify(u.value.originalFilename.value) != Unsupported
  }

  /** The uploads processMultipleUploadedFiles counts are those it neither skips nor rejects. */
  lemma ProcessableIsValid(u: Option<Upload>)
    ensures Processable(u) <==>
              u.Some? && u.value.content != [] && IsValidFileType(u.value.originalFilename)
  {
    if u.Some? && u.value.originalFilename.Some? {
      ValidFileTypeIsProcessed(u.value.originalFilename.value);
    }
  }

  function ProcessableCount(uploads: seq<Option<Upload>>): (n: nat)
    ensures n <= |uploads|
    ensures n == 0 <==> forall k :: 0 <= k < |uploads| ==> !Processable(uploads[k])
  {
    if uploads == [] then 0
    else ProcessableCount(uploads[..|uploads| - 1]) + (if Processable(uploads[|uploads| - 1]) then 1 else 0)
  }

  /** What the upload loop writes for one upload: nothing for one it skips. */
  function StoredOne(zip: ZipFormat, inputDir: Path, u: Option<Upload>): map<Path, Bytes> {
    if Processable(u) then Stored(zip, inputDir, u.value.originalFilename.value, u.value.content) else map[]
  }

  /** What the upload loop writes: each processable upload in turn, a later one replacing an earlier one. */
  function StoredAll(zip: ZipFormat, inputDir: Path, uploads: seq<Option<Upload>>): map<Path, Bytes> {
    if uploads == [] then map[]
    else StoredAll(zip, inputDir, uploads[..|uploads| - 1]) + StoredOne(zip, inputDir, uploads[|uploads| - 1])
  }

  /** One more upload: a processable one adds what it stores and counts once. */
  lemma StoredAllStep(files0: map<Path, Bytes>, zip: ZipFormat, inputDir: Path, uploads: seq<Option<Upload>>, i: nat)
    requires i < |uploads|
    ensures files0 + StoredAll(zip, inputDir, uploads[..i + 1])
            == (files0 + StoredAll(zip, inputDir, uploads[..i])) + StoredOne(zip, inputDir, uploads[i])
    ensures ProcessableCount(uploads[..i + 1]) == ProcessableCount(uploads[..i]) + (if Processable(uploads[i]) then 1 else 0)
  {
    assert uploads[..i + 1][..i] == uploads[..i];
    MergeAssociative(files0, StoredAll(zip, inputDir, uploads[..i]), StoredOne(zip, inputDir, uploads[i]));
  }

  /** One turn of the upload loop: a processable upload is stored and counted, any other is skipped. */
  method StoreIfProcessable(fs: FileSystem, zip: ZipFormat, inputDir: Path, file: Option<Upload>)
    returns (r: Outcome)
    requires fs.Valid()
    modifies fs`files, fs`order
    ensures fs.Valid()
    ensures r.Pass? ==> fs.files == old(fs.files) + StoredOne(zip, inputDir, file)
    ensures r.Fail? ==>
              r.error.kind in StoreFailureKinds && Processable(file)
  {
    if !Processable(file) {
      assert StoredOne(zip, inputDir, file) == map[];
      return Pass;
    }
    r := StoreUpload(fs, zip, inputDir, file.value.originalFilename.value, file.value.content);
  }

  /**
   * The loop of processMultipleUploadedFiles: skips missing, empty, unnamed
   * and unsupported uploads, stores the others and counts them; the first
   * failure ends it.
   */
  method StoreUploads(fs: FileSystem, zip: ZipFormat, inputDir: Path, uploadedFiles: seq<Option<Upload>>)
    returns (r: Outcome, processedFileCount: nat)
    requires fs.Valid()
    modifies fs`files, fs`order
    ensures fs.Valid()
    ensures r.Pass? ==>
              processedFileCount == ProcessableCount(uploadedFiles) &&
              fs.files == old(fs.files) + StoredAll(zip, inputDir, uploadedFiles)
    ensures r.Fail? ==>
              r.error.kind in StoreFailureKinds &&
              exists k :: 0 <= k < |uploadedFiles| && Processable(uploadedFiles[k])
  {
    ghost var files0 := fs.files;
    processedFileCount := 0;
    var i := 0;
    while i < |uploadedFiles|
      invariant 0 <= i <= |uploadedFiles|
      invariant fs.Valid()
      invariant processedFileCount == ProcessableCount(uploadedFiles[..i])
      invariant fs.files == files0 + StoredAll(zip, inputDir, uploadedFiles[..i])
    {
      var file := uploadedFiles[i];
      StoredAllStep(files0, zip, inputDir, uploadedFiles, i);
      r := StoreIfProcessable(fs, zip, inputDir, file);
      if r.Fail? {
        assert Processable(uploadedFiles[i]);
        return;
      }
      if Processable(file) {
        processedFileCount := processedFileCount + 1;
      }
      i := i + 1;
    }
    assert uploadedFiles[..|uploadedFiles|] == uploadedFiles;
    r := Pass;
  }

  /** How processMultipleUploadedFiles reports a failure inside its try block. */
  function WrapMultiple(e: Error): Error {
    Error(FileProcessing, "Failed to process multiple files: " + e.message, Some(e))
  }

  /**
   * processMultipleUploadedFiles: rejects a missing or empty array,
   * prepares the input directory, stores every processable upload and
   * returns the analysis; storing none at all is NoContent, which the
   * method's own catch turns into FileProcessing.
   */
  method ProcessMultipleUploadedFiles<R>(fs: FileSystem, zip: ZipFormat, inputDirectory: string,
                                         uploadedFiles: Option<seq<Option<Upload>>>, analysis: Result<R>)
    returns (r: Result<R>)
    requires fs.Valid()
    modifies fs`files, fs`order, fs`dirs
    ensures fs.Valid()
    ensures uploadedFiles.None? || uploadedFiles.value == [] ==>
              r == Err(Raise(FileProcessing, "No files uploaded")) && unchanged(fs)
    ensures r.Err? ==> r.error.kind in {FileProcessing, DirectoryAccess}
    ensures r.Ok? ==> r == analysis && uploadedFiles.Some? && ProcessableCount(uploadedFiles.value) > 0
    ensures r.Ok? ==>
              var inputDir := ParsePath(inputDirectory);
              fs.files == old(PreparedFiles(fs, inputDir)) + StoredAll(zip, inputDir, uploadedFiles.value)
    ensures uploadedFiles.Some? && uploadedFiles.value != [] && ProcessableCount(uploadedFiles.value) == 0 ==>
              r.Err? &&
              (r.error.kind == FileProcessing ==> r.error == WrapMultiple(Raise(NoContent, "No valid files were processed")))
  {
    if uploadedFiles.None? || uploadedFiles.value == [] {
      return Err(Raise(FileProcessing, "No files uploaded"));
    }
    var inputDir := ParsePath(inputDirectory);
    var prepared := PrepareInputDirectory(fs, inputDir);
    if prepared.Fail? {
      return Err(prepared.error);
    }
    var stored, processedFileCount := StoreUploads(fs, zip, inputDir, uploadedFiles.value);
    if stored.Fail? {
      return Err(WrapMultiple(stored.error));
    }
    if processedFileCount == 0 {
      return Err(WrapMultiple(Raise(NoContent, "No valid files were processed")));
    }
    if analysis.Err? {
      return Err(WrapMultiple(analysis.error));
    }
    r := analysis;
  }
}

=== FILE: paths.dfy ===
/**
 * java.nio.file.Path on a Unix file system: a path is absolute or relative
 * and is a sequence of non-empty names. Parsing drops empty segments, as
 * Paths.get does for repeated and trailing separators.
 */
module Paths {
  import opened Common
  import opened Text

  datatype Path = Path(absolute: bool, names: seq<string>)

  /** A name of a parsed path: not empty, no separator. */
  predicate IsName(n: string) {
    n != [] && '/' !in n
  }

  /** The names of a path string: the runs of characters between separators. */
  function Segments(s: string): (r: seq<string>)
    ensures forall i :: 0 <= i < |r| ==> IsName(r[i])
    decreases |s|
  {
    if s == [] then []
    else if s[0] == '/' then Segments(s[1..])
    else
      var k := IndexOf(s, '/');
      [s[..k]] + Segments(s[k..])
  }

  /** Paths.get(s). */
  function ParsePath(s: string): Path {
    Path(|s| > 0 && s[0] == '/', Segments(s))
  }

  /**
   * Paths.get, Path.resolve(String) and the java.io.File operations reject a
   * path string that holds a NUL character.
   */
  predicate ValidPathString(s: string) {
    '\0' !in s
  }

  /** The InvalidPathException that Paths.get and Path.resolve(String) throw on a NUL character. */
  function InvalidPath(s: string): (e: Error)
    ensures e.kind == Other("InvalidPathException") && e.cause == None
  {
    Raise(Other("InvalidPathException"), "Nul character not allowed: " + s)
  }

  /** The names joined by single separators. */
  function Join(names: seq<string>): string {
    if names == [] then []
    else if |names| == 1 then names[0]
    else names[0] + "/" + Join(names[1..])
  }

  /** Path.toString. */
  function PathString(p: Path): string {
    (if p.absolute then "/" else "") + Join(p.names)
  }

  /**
   * Path.getFileName: the last name; null only for the root "/", and the
   * empty path "" for the empty relative path.
   */
  function FileName(p: Path): Option<string> {
    if p.names != [] then Some(p.names[|p.names| - 1])
    else if p.absolute then None
    else Some("")
  }

  /** Path.getParent: null for the root and for a single relative name. */
  function Parent(p: Path): Option<Path> {
    if p.names == [] || (!p.absolute && |p.names| == 1) then None
    else Some(Path(p.absolute, p.names[..|p.names| - 1]))
  }

  /** Path.resolve(other): an absolute `other` wins, an empty one leaves `base`. */
  function Resolve(base: Path, other: Path): Path {
    if other.absolute then other
    else if other.names == [] then base
    else Path(base.absolute, base.names + other.names)
  }

  /** Path.startsWith(prefix): compared name by name, never character by character. */
  predicate StartsWith(p: Path, prefix: Path) {
    p.absolute == prefix.absolute
    && |prefix.names| <= |p.names|
    && p.names[..|prefix.names|] == prefix.names
  }

  /** `child` is an immediate entry of directory `dir`, as a directory stream lists it. */
  predicate ChildOf(child: Path, dir: Path) {
    child.absolute == dir.absolute
    && |child.names| == |dir.names| + 1
    && child.names[..|dir.names|] == dir.names
  }

  /** Parsing a printed path gives the path back. */
  lemma {:induction false} ParsePrinted(p: Path)
    requires forall i :: 0 <= i < |p.names| ==> IsName(p.names[i])
    ensures ParsePath(PathString(p)) == p
  {
    SegmentsJoin(p.names);
    if p.absolute {
      assert PathString(p) == "/" + Join(p.names);
      assert Segments("/" + Join(p.names)) == Segments(Join(p.names));
    } else if p.names != [] {
      assert PathString(p) == Join(p.names);
      assert Join(p.names)[0] == p.names[0][0];
    }
  }

  lemma {:induction false} SegmentsJoin(names: seq<string>)
    requires forall i :: 0 <= i < |names| ==> IsName(names[i])
    ensures Segments(Join(names)) == names
  {
    if names == [] {
    } else if |names| == 1 {
      SegmentsOfName(names[0], "");
      assert names[0] + "" == names[0];
    } else {
      var rest := "/" + Join(names[1..]);
      assert Join(names) == names[0] + rest;
      SegmentsOfName(names[0], rest);
      assert rest[1..] == Join(names[1..]);
      SegmentsJoin(names[1..]);
      assert names == [names[0]] + names[1..];
    }
  }

  /** A name followed by a separator (or nothing) parses as that name first. */
  lemma SegmentsOfName(n: string, rest: string)
    requires IsName(n)
    requires rest == [] || rest[0] == '/'
    ensures Segments(n + rest) == [n] + Segments(rest)
  {
    var s := n + rest;
    assert s[0] == n[0];
    IndexOfName(n, rest);
    assert s[..|n|] == n && s[|n|..] == rest;
  }

  lemma IndexOfName(n: string, rest: string)
    requires '/' !in n
    requires rest == [] || rest[0] == '/'
    ensures IndexOf(n + rest, '/') == |n|
  {
    if rest != [] {
      assert (n + rest)[|n|] == '/';
    }
  }

  /** Appending a separator and a name to a path string appends that name to its names. */
  lemma {:induction false} SegmentsAppendName(s: string, n: string)
    requires IsName(n)
    ensures Segments(s + "/" + n) == Segments(s) + [n]
    decreases |s|
  {
    var t := s + "/" + n;
    if s == [] {
      assert t == "/" + n && t[1..] == n + "";
      SegmentsOfName(n, "");
    } else if s[0] == '/' {
      assert t[1..] == s[1..] + "/" + n;
      SegmentsAppendName(s[1..], n);
    } else {
      var k := IndexOf(s, '/');
      assert t[k] == '/';
      assert forall j :: 0 <= j < k ==> t[j] == s[j];
      assert IndexOf(t, '/') == k;
      assert t[..k] == s[..k];
      if k < |s| {
        assert t[k..] == s[k..] + "/" + n;
        SegmentsAppendName(s[k..], n);
      } else {
        assert t[k..] == [] + "/" + n;
        SegmentsAppendName([], n);
      }
    }
  }

  /** A string whose last character is not a separator has a last name. */
  lemma {:induction false} SegmentsNotEmpty(s: string)
    requires s != [] && s[|s| - 1] != '/'
    ensures Segments(s) != []
    decreases |s|
  {
    if s[0] == '/' {
      SegmentsNotEmpty(s[1..]);
    }
  }
}

=== FILE: storage.dfy ===
/**
 * The file system the services work on (java.nio.file.Files and java.io.File),
 * the stream copy loops they run, and the ZIP format (java.util.zip) as a pair
 * of functions.
 */
module Storage {
  import opened Common
  import opened Text
  import opened Paths

  /** An entry of a ZIP archive as ZipInputStream yields it. */
  datatype ZipEntry = ZipEntry(name: string, isDirectory: bool, data: Bytes)

  /** Reading an archive's entries: those read, and whether reading the next one then threw. */
  datatype EntryScan = EntryScan(entries: seq<ZipEntry>, fault: bool)

  /**
   * The ZIP format: the bytes ZipOutputStream writes for a list of entries,
   * and what ZipInputStream reads back from a sequence of bytes.
   */
  datatype ZipFormat = ZipFormat(pack: seq<ZipEntry> -> Bytes, scan: Bytes -> EntryScan)

  /** The glob "*.txt" of a directory stream: case-sensitive, on the last name. */
  predicate MatchesTxtGlob(p: Path) {
    p.names != [] && EndsWith(p.names[|p.names| - 1], ".txt")
  }

  /** The IOException an operation on `p` throws; its message names the path. */
  function IOError(p: Path): Error {
    Raise(Other("IOException"), PathString(p))
  }

  /** The first `k` names of `p`: `p` itself and its ancestors. */
  function Prefix(p: Path, k: nat): Path
    requires k <= |p.names|
  {
    Path(p.absolute, p.names[..k])
  }

  /**
   * A file system: regular files with their contents, directories, the order
   * in which files were created, and the paths on which every operation fails
   * (no permission, I/O error). A directory stream's order is unspecified;
   * the model fixes it to the creation order.
   */
  class FileSystem {
    var files: map<Path, Bytes>
    var dirs: set<Path>
    var order: seq<Path>
    const faulty: set<Path>

    /** Every file is listed once, and no path is both a file and a directory. */
    ghost predicate Valid()
      reads this
    {
      && (forall p :: p in files ==> p in order)
      && (forall i, j :: 0 <= i < j < |order| ==> order[i] != order[j])
      && (forall p :: p in files ==> p !in dirs && p.names != [])
    }

    constructor (faulty: set<Path>)
      ensures Valid()
      ensures files == map[] && dirs == {} && order == [] && this.faulty == faulty
    {
      files := map[];
      dirs := {};
      order := [];
      this.faulty := faulty;
    }

    /** Files.isDirectory: the root and the working directory always are. */
    predicate IsDirectory(p: Path)
      reads this
    {
      p.names == [] || p in dirs
    }

    /** Files.exists / File.exists. */
    predicate Exists(p: Path)
      reads this
    {
      p in files || IsDirectory(p)
    }

    /** Reading `p` succeeds. */
    predicate Readable(p: Path)
      reads this
    {
      p in files && p !in faulty
    }

    /** Opening `p` for writing succeeds: not a directory, and its parent is one. */
    predicate Writable(p: Path)
      reads this
    {
      && p.names != []
      && p !in dirs
      && p !in faulty
      && (match Parent(p) case None => true case Some(d) => IsDirectory(d))
    }

    /** `p` and its missing ancestors can be created as directories. */
    predicate CanCreateDirectories(p: Path)
      reads this
    {
      p !in faulty && forall k :: 0 <= k <= |p.names| ==> Prefix(p, k) !in files
    }

    /** `p` is a regular file directly in `dir` whose name matches "*.txt". */
    predicate IsTxtFileIn(p: Path, dir: Path)
      reads this
    {
      p in files && ChildOf(p, dir) && MatchesTxtGlob(p)
    }

    /** The entries of `ps` that are ".txt" files directly in `dir`, in order. */
    function TxtAmong(ps: seq<Path>, dir: Path): (r: seq<Path>)
      reads this
      ensures forall p :: p in r <==> p in ps && IsTxtFileIn(p, dir)
      ensures |r| <= |ps|
    {
      if ps == [] then []
      else (if IsTxtFileIn(ps[0], dir) then [ps[0]] else []) + TxtAmong(ps[1..], dir)
    }

    /** Files.newDirectoryStream(dir, "*.txt"), restricted to regular files. */
    function TxtFilesIn(dir: Path): seq<Path>
      reads this
    {
      TxtAmong(order, dir)
    }

    /** The listing holds exactly the ".txt" files of the directory, each once. */
    lemma TxtFilesInExact(dir: Path)
      requires Valid()
      ensures forall p :: p in TxtFilesIn(dir) <==> IsTxtFileIn(p, dir)
      ensures Distinct(TxtFilesIn(dir))
    {
      DistinctTxtAmong(order, dir);
    }

    /** A directory holding no ".txt" file lists nothing. */
    lemma NoTxtFilesListed(dir: Path)
      requires forall p :: p in files ==> !IsTxtFileIn(p, dir)
      ensures TxtFilesIn(dir) == []
    {
      NoTxtAmong(order, dir);
    }

    lemma {:induction false} NoTxtAmong(ps: seq<Path>, dir: Path)
      requires forall p :: p in files ==> !IsTxtFileIn(p, dir)
      ensures TxtAmong(ps, dir) == []
    {
      if ps != [] {
        NoTxtAmong(ps[1..], dir);
      }
    }

    lemma {:induction false} DistinctTxtAmong(ps: seq<Path>, dir: Path)
      requires Distinct(ps)
      ensures Distinct(TxtAmong(ps, dir))
    {
      if ps != [] {
        DistinctTxtAmong(ps[1..], dir);
        assert ps[0] !in ps[1..];
      }
    }

    /** Opening `p` for writing (FileOutputStream, Files.newOutputStream, Files.copy with REPLACE_EXISTING) and writing `data`. */
    method Write(p: Path, data: Bytes) returns (ok: bool)
      requires Valid()
      modifies this`files, this`order
      ensures Valid()
      ensures ok == old(Writable(p))
      ensures files == if ok then old(files)[p := data] else old(files)
      ensures order == if ok && p !in old(order) then old(order) + [p] else old(order)
    {
      ok := Writable(p);
      if ok {
        if p !in order {
          order := order + [p];
        }
        files := files[p := data];
      }
    }

    /** Files.delete on a regular file. */
    method Delete(p: Path) returns (ok: bool)
      requires Valid()
      modifies this`files
      ensures Valid()
      ensures ok == old(Readable(p))
      ensures files == if ok then old(files) - {p} else old(files)
    {
      ok := Readable(p);
      if ok {
        files := files - {p};
      }
    }

    /** Files.createDirectories: creates `p` and every missing ancestor. */
    method CreateDirectories(p: Path) returns (ok: bool)
      requires Valid()
      modifies this`dirs
      ensures Valid()
      ensures ok == old(CanCreateDirectories(p))
      ensures ok ==> IsDirectory(p)
      ensures dirs == if ok then old(dirs) + Prefixes(p) else old(dirs)
    {
      ok := CanCreateDirectories(p);
      if ok {
        dirs := dirs + Prefixes(p);
        assert Prefix(p, |p.names|) == p;
      }
    }

    /** File.mkdirs: false when `p` already exists or cannot be created. */
    method MakeDirectories(p: Path) returns (created: bool)
      requires Valid()
      modifies this`dirs
      ensures Valid()
      ensures created == (old(!Exists(p)) && old(CanCreateDirectories(p)))
      ensures created ==> IsDirectory(p)
      ensures dirs == if created then old(dirs) + Prefixes(p) else old(dirs)
    {
      if Exists(p) {
        created := false;
      } else {
        created := CreateDirectories(p);
      }
    }
  }

  /** The non-empty prefixes of `p`: the directories Files.createDirectories makes. */
  function Prefixes(p: Path): set<Path> {
    set k | 1 <= k <= |p.names| :: Prefix(p, k)
  }

  predicate Distinct<T(==)>(s: seq<T>) {
    forall i, j :: 0 <= i < j < |s| ==> s[i] != s[j]
  }

  /**
   * The copy loop `while ((n = in.read(buffer)) > 0) out.write(buffer, 0, n)`
   * with a buffer of `bufferSize` bytes: each read fills as much of the buffer
   * as the input still has; the output receives the input unchanged.
   */
  method BufferedCopy(source: Bytes, bufferSize: nat) returns (out: Bytes)
    requires bufferSize > 0
    ensures out == source
  {
    var buffer := new byte[bufferSize];
    out := [];
    var pos := 0;
    while pos < |source|
      invariant 0 <= pos <= |source|
      invariant out == source[..pos]
      decreases |source| - pos
    {
      var n := if |source| - pos < bufferSize then |source| - pos else bufferSize;
      forall j | 0 <= j < n {
        buffer[j] := source[pos + j];
      }
      out := out + buffer[..n];
      pos := pos + n;
    }
  }
}

=== FILE: text.dfy ===
/**
 * The java.lang.String operations the services use on file names:
 * toLowerCase, endsWith, indexOf and lastIndexOf.
 */
module Text {

  /** Character.toLowerCase restricted to ASCII letters. */
  function LowerChar(c: char): char {
    if 'A' <= c <= 'Z' then (c as int + 32) as char else c
  }

  /** String.toLowerCase, letter by letter. */
  function ToLower(s: string): string {
    seq(|s|, i requires 0 <= i < |s| => LowerChar(s[i]))
  }

  /** String.endsWith. */
  predicate EndsWith(s: string, suffix: string) {
    |suffix| <= |s| && s[|s| - |suffix|..] == suffix
  }

  /** Lower-casing twice changes nothing more than lower-casing once. */
  lemma ToLowerIdempotent(s: string)
    ensures ToLower(ToLower(s)) == ToLower(s)
  {
  }

  /** Lower-casing works character by character, so it distributes over concatenation. */
  lemma ToLowerAppend(a: string, b: string)
    ensures ToLower(a + b) == ToLower(a) + ToLower(b)
  {
  }

  /** A name with an upper-case suffix, lower-cased, ends with the lower-cased suffix. */
  lemma EndsWithLowered(name: string, suffix: string)
    ensures EndsWith(ToLower(name + suffix), ToLower(suffix))
  {
    ToLowerAppend(name, suffix);
    assert ToLower(name + suffix)[|name|..] == ToLower(suffix);
  }

  /** String.indexOf(c), or |s| when `c` does not occur. */
  function IndexOf(s: string, c: char): (k: nat)
    ensures k <= |s|
    ensures k < |s| ==> s[k] == c
    ensures forall j :: 0 <= j < k ==> s[j] != c
  {
    if s == [] then 0
    else if s[0] == c then 0
    else 1 + IndexOf(s[1..], c)
  }

  /** String.lastIndexOf(c): the last position of `c`, or -1 when it does not occur. */
  function LastIndexOf(s: string, c: char): (k: int)
    ensures -1 <= k < |s|
    ensures k == -1 <==> c !in s
    ensures k >= 0 ==> s[k] == c
    ensures forall j :: k < j < |s| ==> s[j] != c
  {
    if s == [] then -1
    else if s[|s| - 1] == c then |s| - 1
    else LastIndexOf(s[..|s| - 1], c)
  }
}

=== FILE: thread_management.dfy ===
/**
 * ThreadManagementService with every future already resolved. The analysis
 * tasks run one per path, in path order. The aggregation and archive tasks
 * run when they are submitted. Waiting on a future yields its value, or the
 * exception that the wait throws.
 */
module ThreadManagement {
  import opened Common
  import opened Paths
  import opened Storage
  import opened Entity
  import opened FileProcessing
  import opened ArchiveService

  /**
   * A future as Future.get() finds it. It holds the task's value, or the
   * waiting thread is interrupted, or it holds the exception the task threw.
   */
  datatype Future<T> = Done(value: T) | Interrupted | Failed(cause: Error)

  /** The InterruptedException that a blocked wait throws. */
  const Interruption := Raise(Other("InterruptedException"), "")

  /** The RejectedExecutionException that an executor throws when it refuses a task. */
  const Rejection := Raise(Other("RejectedExecutionException"), "")

  /** One run of a task: the worker thread, and the clock readings when the task starts and ends. */
  datatype TaskRun = TaskRun(thread: string, start: Instant, end: Instant)

  /**
   * Future.get() inside the try/catch of a waitFor method, which gives each
   * of its two exceptions its own message. The value is passed on unchanged.
   * An interruption becomes ThreadInterrupted. A failure of the task becomes
   * ThreadExecution, which carries the task's exception.
   */
  function Await<T>(f: Future<T>, interrupted: string, failed: string): (r: Result<T>)
    ensures r.Ok? <==> f.Done?
    ensures r.Ok? ==> r.value == f.value
    ensures r.Err? ==> r.error.kind.IsFileAnalyzerException()
    ensures r.Err? ==> (r.error.kind == ThreadInterrupted <==> f.Interrupted?)
    ensures f.Failed? ==> r.error.kind == ThreadExecution && r.error.cause == Some(f.cause)
  {
    match f
    case Done(v) => Ok(v)
    case Interrupted => Err(Error(ThreadInterrupted, interrupted, Some(Interruption)))
    case Failed(cause) => Err(Error(ThreadExecution, failed, Some(cause)))
  }

  /** waitForTotalResultCalculation. */
  function WaitForTotalResultCalculation(f: Future<AnalysisResult>): (r: Result<AnalysisResult>)
    ensures r.Ok? <==> f.Done?
    ensures r.Ok? ==> r.value == f.value
    ensures f.Interrupted? ==> r.error == Error(ThreadInterrupted, "Total result calculation was interrupted", Some(Interruption))
    ensures f.Failed? ==> r.error == Error(ThreadExecution, "Total result calculation execution failed", Some(f.cause))
  {
    Await(f, "Total result calculation was interrupted", "Total result calculation execution failed")
  }

  /** waitForArchiveCompletion. */
  function WaitForArchiveCompletion(f: Future<ArchiveInfo>): (r: Result<ArchiveInfo>)
    ensures r.Ok? <==> f.Done?
    ensures r.Ok? ==> r.value == f.value
    ensures f.Interrupted? ==> r.error == Error(ThreadInterrupted, "Archive task was interrupted", Some(Interruption))
    ensures f.Failed? ==> r.error == Error(ThreadExecution, "Archive task execution failed", Some(f.cause))
  {
    Await(f, "Archive task was interrupted", "Archive task execution failed")
  }

  /** `futures[k]` is the first future that does not hold a value. */
  predicate FirstPending<T>(futures: seq<Future<T>>, k: int) {
    && 0 <= k < |futures|
    && !futures[k].Done?
    && forall i :: 0 <= i < k ==> futures[i].Done?
  }

  /**
   * waitForAnalysisCompletion. It waits on the futures in order and collects
   * their values. The first future that does not hold a value ends the wait,
   * and no list is returned.
   */
  method WaitForAnalysisCompletion(futures: seq<Future<FileStats>>) returns (r: Result<seq<FileStats>>)
    ensures r.Ok? <==> forall i :: 0 <= i < |futures| ==> futures[i].Done?
    ensures r.Ok? ==> |r.value| == |futures| && forall i :: 0 <= i < |futures| ==> r.value[i] == futures[i].value
    ensures r.Err? ==>
              exists k :: FirstPending(futures, k) &&
                          Err(r.error) == Await(futures[k], "Analysis task was interrupted",
                                                "Analysis task execution failed")
  {
    var results: seq<FileStats> := [];
    var i := 0;
    while i < |futures|
      invariant 0 <= i <= |futures| && |results| == i
      invariant forall j :: 0 <= j < i ==> futures[j].Done? && results[j] == futures[j].value
    {
      var got := Await(futures[i], "Analysis task was interrupted", "Analysis task execution failed");
      if got.Err? {
        assert FirstPending(futures, i);
        return Err(got.error);
      }
      results := results + [got.value];
      i := i + 1;
    }
    return Ok(results);
  }

  /**
   * What the analysis task for `p`, run as `run`, leaves in its future. That
   * is the record analyzeFile fills, or the exception analyzeFile throws.
   */
  ghost predicate AnalysisFuture(fs: FileSystem, decode: Decoder, p: Path, run: TaskRun, f: Future<FileStats>)
    reads fs, if f.Done? then {f.value} else {}
  {
    match f
    case Done(stats) =>
      && Analyze(fs, decode, p).Ok?
      && DurationNanos(run.start, run.end).Ok?
      && stats.fileName == FileName(p)
      && stats.lineCount == Analyze(fs, decode, p).value.lines
      && stats.characterCount == Analyze(fs, decode, p).value.characters
      && stats.processingCompleted
      && stats.threadName == Some(run.thread)
      && stats.processingStartTime == Some(run.start) && stats.processingEndTime == Some(run.end)
      && stats.processingTimeNanos == run.end - run.start
    case Failed(e) =>
      (match Analyze(fs, decode, p)
       case Err(cause) => e == cause
       case Ok(_) => DurationNanos(run.start, run.end).Err? && e.kind == Other("ArithmeticException"))
    case Interrupted => false
  }

  /**
   * submitFileAnalysisTasks. invokeAll runs one analysis task per path, and
   * the futures come back in path order. `runs[i]` is the run of the task for
   * `filePaths[i]`. An interruption while invokeAll waits becomes
   * ThreadInterrupted.
   */
  method SubmitFileAnalysisTasks(fs: FileSystem, decode: Decoder, filePaths: seq<Path>, runs: seq<TaskRun>,
                                 interrupted: bool)
    returns (r: Result<seq<Future<FileStats>>>)
    requires |runs| == |filePaths|
    ensures interrupted ==>
              r == Err(Error(ThreadInterrupted, "File analysis task submission was interrupted", Some(Interruption)))
    ensures !interrupted ==>
              && r.Ok? && |r.value| == |filePaths|
              && forall i :: 0 <= i < |filePaths| ==> AnalysisFuture(fs, decode, filePaths[i], runs[i], r.value[i])
  {
    if interrupted {
      return Err(Error(ThreadInterrupted, "File analysis task submission was interrupted", Some(Interruption)));
    }
    var futures: seq<Future<FileStats>> := [];
    var i := 0;
    while i < |filePaths|
      invariant 0 <= i <= |filePaths| && |futures| == i
      invariant forall j :: 0 <= j < i ==> AnalysisFuture(fs, decode, filePaths[j], runs[j], futures[j])
    {
      var analyzed := AnalyzeFile(fs, decode, filePaths[i], runs[i].thread, runs[i].start, runs[i].end);
      var f := if analyzed.Ok? then Done(analyzed.value) else Failed(analyzed.error);
      futures := futures + [f];
      i := i + 1;
    }
    return Ok(futures);
  }

  /**
   * submitTotalResultCalculationTask. The task runs calculateTotalResult on
   * exactly the given list. A refused submission becomes ThreadExecution.
   */
  method SubmitTotalResultCalculationTask(fileStatsList: seq<FileStats>, analysisStartTime: Option<Instant>,
                                          now: Instant, rejected: bool)
    returns (r: Result<Future<AnalysisResult>>)
    requires |fileStatsList| <= INT_MAX
    ensures rejected ==>
              r == Err(Error(ThreadExecution, "Total result calculation task submission failed", Some(Rejection)))
    ensures !rejected ==> r.Ok? && !r.value.Interrupted?
    ensures r.Ok? ==>
              (r.value.Failed? <==> analysisStartTime.Some? && DurationNanos(analysisStartTime.value, now).Err?)
    ensures r.Ok? && r.value.Done? ==> TotalsRecorded(r.value.value, fileStatsList, analysisStartTime, now)
  {
    if rejected {
      return Err(Error(ThreadExecution, "Total result calculation task submission failed", Some(Rejection)));
    }
    var calculated := CalculateTotalResult(fileStatsList, analysisStartTime, now);
    if calculated.Err? {
      return Ok(Failed(calculated.error));
    }
    return Ok(Done(calculated.value));
  }

  /**
   * The files left after the archive task: the archive has been written to
   * `out`, and, when `delete` holds, every ".txt" file directly in `dir` has
   * been removed, except the files on which deletion fails.
   */
  function AfterArchiving(files: map<Path, Bytes>, out: Path, archive: Bytes, dir: Path, faulty: set<Path>,
                          delete: bool): map<Path, Bytes>
  {
    var written := files[out := archive];
    if delete then written - (set p | p in written && ChildOf(p, dir) && MatchesTxtGlob(p) && p !in faulty)
    else written
  }

  /**
   * After archiving with deletion, none of the listed sources is left, apart
   * from those on which deletion fails. Every other file is kept.
   */
  lemma ArchivedSourcesRemoved(files: map<Path, Bytes>, out: Path, archive: Bytes, dir: Path, faulty: set<Path>,
                               listing: seq<Path>)
    requires forall p :: p in listing ==> p in files && ChildOf(p, dir) && MatchesTxtGlob(p)
    ensures forall p :: p in listing && p !in faulty ==> p !in AfterArchiving(files, out, archive, dir, faulty, true)
    ensures forall p :: p in files && !(ChildOf(p, dir) && MatchesTxtGlob(p)) ==>
              p in AfterArchiving(files, out, archive, dir, faulty, true)
    ensures out !in AfterArchiving(files, out, archive, dir, faulty, true) <==>
              ChildOf(out, dir) && MatchesTxtGlob(out) && out !in faulty
  {
  }

  /**
   * What the archive task leaves behind, given the files and the ".txt"
   * listing of `dir` before it ran. With nothing listed, nothing is archived
   * and no file changes. Otherwise the record names the listed files, and the
   * files are those of AfterArchiving.
   */
  ghost predicate ArchiveTaskEffect(zip: ZipFormat, out: Path, dir: Path, faulty: set<Path>, delete: bool,
                                    before: map<Path, Bytes>, listing: seq<Path>, after: map<Path, Bytes>,
                                    info: ArchiveInfo)
    reads info
  {
    && info.CountMatchesList()
    && (listing == [] ==> info.archivedFileCount == 0 && after == before)
    && (listing != [] ==>
          && (forall k :: 0 <= k < |listing| ==> listing[k].names != [] && listing[k] in before[out := []])
          && info.archivedFileNames == Some(BaseNames(listing))
          && after == AfterArchiving(before, out, zip.pack(ArchiveEntries(listing, before[out := []])),
                                     dir, faulty, delete))
  }

  /**
   * The deletion step of the archive task. It deletes only when deletion was
   * requested and at least one file was archived. The files come from a new
   * listing of the directory. A failed listing is swallowed.
   */
  method DeleteAfterArchiving(fs: FileSystem, info: ArchiveInfo, inputDirectory: string, deleteSourceFiles: bool)
    requires fs.Valid()
    modifies fs`files
    ensures fs.Valid()
    ensures var dir := ParsePath(inputDirectory);
            if deleteSourceFiles && info.archivedFileCount > 0 && old(fs.IsDirectory(dir)) && dir !in fs.faulty
            then fs.files == old(fs.files) - (set p | p in old(fs.files) && ChildOf(p, dir) && MatchesTxtGlob(p)
                                                      && p !in fs.faulty)
            else fs.files == old(fs.files)
  {
    if deleteSourceFiles && info.archivedFileCount > 0 {
      var found := FindTxtFiles(fs, inputDirectory);
      if found.Ok? {
        ghost var dir := ParsePath(inputDirectory);
        fs.TxtFilesInExact(dir);
        DeleteSourceFiles(fs, found.value);
        assert (set p | p in found.value && p !in fs.faulty) ==
               (set p | p in old(fs.files) && ChildOf(p, dir) && MatchesTxtGlob(p) && p !in fs.faulty);
      }
    }
  }

  /**
   * The archive task of submitArchiveTask: createArchive, then deletion of the
   * sources when it was requested and something was archived.
   */
  method ArchiveTask(fs: FileSystem, zip: ZipFormat, inputDirectory: string, outputZipPath: string,
                     deleteSourceFiles: bool, run: TaskRun)
    returns (r: Result<ArchiveInfo>)
    requires fs.Valid()
    modifies fs`files, fs`order, fs`dirs
    ensures fs.Valid()
    ensures !old(fs.Exists(ParsePath(inputDirectory))) && FileName(ParsePath(outputZipPath)).Some? ==>
              r == Err(Raise(DirectoryNotFound, "Input directory not found: " + inputDirectory)) && unchanged(fs)
    ensures r.Err? ==>
              r.error.kind in ArchiveFailureKinds
    ensures r.Ok? && old(fs.TxtFilesIn(ParsePath(inputDirectory))) == [] ==> unchanged(fs)
    ensures r.Ok? ==>
              ArchiveTaskEffect(zip, ParsePath(outputZipPath), ParsePath(inputDirectory), fs.faulty, deleteSourceFiles,
                                old(fs.files), old(fs.TxtFilesIn(ParsePath(inputDirectory))), fs.files, r.value)
  {
    var created := CreateArchive(fs, zip, inputDirectory, outputZipPath, run.thread, run.start, run.end);
    if created.Err? {
      return created;
    }
    var info := created.value;
    ghost var listing := old(fs.TxtFilesIn(ParsePath(inputDirectory)));
    assert listing != [] ==> info.archivedFileCount > 0;
    DeleteAfterArchiving(fs, info, inputDirectory, deleteSourceFiles);
    return Ok(info);
  }

  /**
   * submitArchiveTask. The task runs as soon as it is submitted. A refused
   * submission becomes ThreadExecution and leaves the file system as it was.
   */
  method SubmitArchiveTask(fs: FileSystem, zip: ZipFormat, inputDirectory: string, outputZipPath: string,
                           deleteSourceFiles: bool, rejected: bool, run: TaskRun)
    returns (r: Result<Future<ArchiveInfo>>)
    requires fs.Valid()
    modifies fs`files, fs`order, fs`dirs
    ensures fs.Valid()
    ensures rejected ==>
              r == Err(Error(ThreadExecution, "Archive task submission failed", Some(Rejection))) && unchanged(fs)
    ensures !rejected ==> r.Ok? && !r.value.Interrupted?
    ensures r.Ok? && r.value.Failed? ==>
              r.value.cause.kind in ArchiveFailureKinds
    ensures r.Ok? && r.value.Done? ==>
              ArchiveTaskEffect(zip, ParsePath(outputZipPath), ParsePath(inputDirectory), fs.faulty, deleteSourceFiles,
                                old(fs.files), old(fs.TxtFilesIn(ParsePath(inputDirectory))), fs.files, r.value.value)
  {
    if rejected {
      return Err(Error(ThreadExecution, "Archive task submission failed", Some(Rejection)));
    }
    var archived := ArchiveTask(fs, zip, inputDirectory, outputZipPath, deleteSourceFiles, run);
    if archived.Err? {
      return Ok(Failed(archived.error));
    }
    return Ok(Done(archived.value));
  }
}
